=== FILE: README.md ===
# raamul storefront client: a verified model of its client-side rules

This project models, in Dafny, the logic that the React storefront client
keeps on its own side of the network. The server holds the catalogue,
orders and payments; the client holds the following:

- **Stores.** The shopping cart, the wishlist and the toast notification
  queue, each a list keyed by id.
- **Session.** The signed-in session (token, user, role flags, the start-up
  check) and what is kept in the browser's localStorage.
- **Transport.** The request headers, the query-string URL, the shaping of
  error responses and the forced sign-out on a 401.
- **Payment-gateway token cache.** Per-user tokens, refreshed 15 seconds
  before they expire.
- **Normalisers and validators.** M-Pesa phone numbers, order ids, product
  image addresses, category and brand lists, and the type and size rules for
  image uploads.
- **Order-status vocabulary.** Nine statuses and a seven-step delivery
  path, shown by two timelines that disagree.
- **Checkout and payment.** The order payload built from the cart at
  checkout, and the payment page's reaction to each payment status it
  observes.
- **UI decision rules.** The route guards, the search box's keyboard
  selection, the quantity stepper, and the admin pages' permission rules,
  status-update flow and image-list edits.

Each source file is one Dafny module. An object whose state the source
updates in place is a `class`: the stores, the session, the token cache, the
search box, the payment page and the admin pages with state. The class's
methods state their whole new state in terms of pure functions, and lemmas
about those functions carry the properties. Pure rules are functions over
datatypes.

Every network call is an input to the model: a `Result` that is either the
answer or the error (for login, signup and the start-up verify, its message
and the HTTP status, so that a 401 applies the request wrapper's sign-out). Navigation is a returned path. Toasts are
returned as `Notice(kind, message)` values or appended to the
notification queue. The clock, the random number, the environment
variables and the development password are parameters. A JavaScript value
that the source only tests for truthiness is the empty string when
missing, or `None`.

generateOrderId takes `substring(2, 8)` of `Math.random().toString(36)`,
so its random suffix has at most six characters, fewer when the random
text is short; `OrderIds.Suffix` keeps that.

Some behaviours of the code, as modelled:

- At `/admin` the admin breadcrumb reads "admin", not "Dashboard". The last
  segment of the path is non-empty there, and "Dashboard" appears only for
  a path that ends in '/'. See `AdminLayout.BreadcrumbOfPage`.
- The order-tracking page has five steps, while the order-detail page
  follows the seven-step delivery path. A packed order, an order out for
  delivery and a cancelled order all show as the first tracking step. See
  `OrderTrackingView.TimelinesDisagree`.
- In the search box, `selectedIndex` can point past a newer, shorter
  suggestion list. Enter then reads a missing suggestion and throws before
  any state changes. The model leaves the state unchanged.
- A payment confirmed by the poll stops the poll but leaves
  `paymentInitiated` set.
- A user without a status is shown as 'active'. Its toggle still reads
  "Enable" and sends 'active'. See `AdminUsers.ToggleChangesShownStatus`.
- When the order update succeeds but adding the tracking note fails, the
  status modal stays open with its selection, although the order has
  changed.
- A typed quantity is at least 1 but is not capped at the stock. See
  `ProductDetail.TypingIgnoresStock`.
- A token reply whose body is not JSON never produces the "Token endpoint
  returned non-JSON" error. `res.json()` has already read the body, so
  the `res.text()` in the catch block rejects with the runtime's "body
  used already" TypeError, and that is what getBearerToken throws. See
  `TokenCache.TokenStore.GetBearerToken`.

## Model

| member | source | states |
|---|---|---|
| Cart.FindIndex | src/context/CartContext.jsx:47 | the position `find` stops at: the first line with the id, or -1 exactly when no line has it |
| Cart.ItemQuantity | src/context/CartContext.jsx:123-126 | getItemQuantity is 0 for an absent product and, with unique ids, the quantity of the one line holding it |
| Cart.InCartIffPositiveQuantity | src/context/CartContext.jsx:118-126 | with every quantity at least 1, isInCart holds exactly when getItemQuantity is positive |
| Cart.CartCount | src/context/CartContext.jsx:90-92 | getCartCount of an empty cart is 0, and with every quantity at least 1 it is at least the number of lines |
| Cart.CountCoversLines | src/context/CartContext.jsx:90-92 | the reduce over quantities is at least the line count when each quantity is at least 1 |
| Cart.Subtotal | src/context/CartContext.jsx:95-100 | getSubtotal of an empty cart is 0, and it is never negative when quantities are positive and prices are not negative |
| Cart.SubtotalNonNegative | src/context/CartContext.jsx:95-100 | the reduce over price times quantity is not negative when every quantity is positive and every price is not negative |
| Cart.CartTotal | src/context/CartContext.jsx:103-115 | getTotal is the subtotal plus a shipping and a tax that are both 0 |
| Cart.AddedLines | src/context/CartContext.jsx:45-60 | after addToCart the product is in the cart; an existing line keeps the line count; an absent product is appended as one new line at the end; ids stay in place and stay unique |
| Cart.RemovedLines | src/context/CartContext.jsx:64-68 | removeFromCart leaves no line with the id and keeps exactly the other lines; an absent id changes nothing |
| Cart.UpdatedLines | src/context/CartContext.jsx:71-82 | with quantity at least 1, updateQuantity sets the quantity of that product's lines and leaves every other line untouched |
| Cart.CartStore.constructor | src/context/CartContext.jsx:20 | the cart starts empty when nothing is saved |
| Cart.CartStore.AddToCart | src/context/CartContext.jsx:45-60 | the new list is AddedLines of the old one, with the default quantity 1; unique ids are kept |
| Cart.CartStore.RemoveFromCart | src/context/CartContext.jsx:64-68 | the new list is RemovedLines of the old one |
| Cart.CartStore.UpdateQuantity | src/context/CartContext.jsx:71-82 | the new list is UpdatedLines, and below 1 it is exactly removeFromCart |
| Cart.CartStore.ClearCart | src/context/CartContext.jsx:85-87 | the cart is empty |
| Cart.FoldAppend | src/context/CartContext.jsx:90-100 | the reduce of a concatenation is the sum of the reduces |
| Cart.FoldReplace | src/context/CartContext.jsx:90-100 | replacing one line changes a reduce by the difference of that line's weights |
| Cart.RemovedKeepsUnique | src/context/CartContext.jsx:64-68 | filtering keeps ids unique |
| Cart.RemoveCutsOneLine | src/context/CartContext.jsx:64-68 | with unique ids, removing the id of line k removes exactly position k and keeps the order of the rest |
| Cart.AddedIsUpdateAt | src/context/CartContext.jsx:49-55 | adding an existing product rewrites only the line find stops at, adding the quantity to it |
| Cart.AddGrowsCount | src/context/CartContext.jsx:45-92 | addToCart raises getCartCount and the product's getItemQuantity by exactly the quantity added |
| Cart.AddGrowsSubtotal | src/context/CartContext.jsx:45-100 | addToCart raises getSubtotal by price times quantity, using the price of the line that absorbs it |
| Cart.AddKeepsPositive | src/context/CartContext.jsx:45-60 | adding a positive quantity keeps every line's quantity at least 1 |
| Cart.RemoveShrinksCount | src/context/CartContext.jsx:64-92 | removing a product lowers the count by its quantity, and its quantity becomes 0 |
| Cart.UpdateSetsQuantity | src/context/CartContext.jsx:71-82 | updateQuantity below 1 equals removeFromCart; on an absent id it changes nothing; otherwise the product's quantity becomes exactly the new one |
| Cart.UpdateAndRemoveKeepPositive | src/context/CartContext.jsx:64-82 | removeFromCart and updateQuantity keep every quantity at least 1 |
| Cart.AddKeepsUnique | src/context/CartContext.jsx:45-60 | addToCart never creates a second line for a product, so ids stay unique |
| Cart.MergeGrowsSubtotal | src/context/CartContext.jsx:51-55 | adding a quantity to one line raises getSubtotal by that line's price times the quantity (see also lines 95-100) |
| Cart.AddAllMerges | src/context/CartContext.jsx:45-60 | a run of adds of one product keeps ids unique and adds up all the quantities on one line |
| Cart.AddAllAddsAtMostOneLine | src/context/CartContext.jsx:47-58 | a run of adds of one product adds at most one line |
| Cart.AddAllKeepsLength | src/context/CartContext.jsx:49-55 | adds of a product already in the cart never change the number of lines |
| Wishlist.AddedItems | src/context/WishlistContext.jsx:33-39 | addToWishlist is a no-op when the id is present, and otherwise appends one item stamped with the time; ids stay unique |
| Wishlist.RemovedItems | src/context/WishlistContext.jsx:42-44 | removeFromWishlist leaves no item with the id and keeps exactly the others; an absent id changes nothing |
| Wishlist.IsInWishlist | src/context/WishlistContext.jsx:59-61 | isInWishlist holds exactly when some saved item carries the product id |
| Wishlist.ToggleMovesCountByOne | src/context/WishlistContext.jsx:47-70 | with unique ids, toggling an absent product raises wishlistCount by one and toggling a present one lowers it by one |
| Wishlist.WishlistStore.constructor | src/context/WishlistContext.jsx:18-25 | the wishlist starts empty |
| Wishlist.WishlistStore.AddToWishlist | src/context/WishlistContext.jsx:33-39 | the new list is AddedItems of the old one |
| Wishlist.WishlistStore.RemoveFromWishlist | src/context/WishlistContext.jsx:42-44 | the new list is RemovedItems of the old one |
| Wishlist.WishlistStore.ToggleWishlist | src/context/WishlistContext.jsx:47-56 | toggling answers true and appends exactly when the product was absent, and answers false and removes it otherwise |
| Wishlist.WishlistStore.ClearWishlist | src/context/WishlistContext.jsx:64-66 | the wishlist is empty |
| Wishlist.RemoveKeepsUnique | src/context/WishlistContext.jsx:42-44 | filtering keeps ids unique |
| Wishlist.AddIsIdempotent | src/context/WishlistContext.jsx:35-37 | a second add of the same product changes nothing, whatever its time stamp |
| Wishlist.RemoveCutsOneItem | src/context/WishlistContext.jsx:42-44 | with unique ids, removing item k's id removes exactly position k |
| Wishlist.ToggleTwiceRestores | src/context/WishlistContext.jsx:47-56 | toggling an absent product on and then off restores the wishlist exactly |
| Notifications.Removed | src/context/NotificationContext.jsx:46-48 | removeNotification leaves no entry with the id and keeps exactly the others; an unknown id changes nothing |
| Notifications.NotificationQueue.constructor | src/context/NotificationContext.jsx:17-20 | a mounted provider's queue is empty and its counter continues from the module-level notificationId, which is 0 only at the first mount |
| Notifications.NotificationQueue.AddNotification | src/context/NotificationContext.jsx:23-43 | the id is one more than the last issued; one entry is appended with type 'info' and duration 4000 by default; removal is scheduled exactly when the duration is positive |
| Notifications.NotificationQueue.RemoveNotification | src/context/NotificationContext.jsx:46-48 | the queue becomes Removed of the old one and the counter stays |
| Notifications.NotificationQueue.ShowSuccess | src/context/NotificationContext.jsx:51-53 | addNotification with type 'success' |
| Notifications.NotificationQueue.ShowError | src/context/NotificationContext.jsx:55-57 | addNotification with type 'error' |
| Notifications.NotificationQueue.ShowWarning | src/context/NotificationContext.jsx:59-61 | addNotification with type 'warning' |
| Notifications.NotificationQueue.ShowInfo | src/context/NotificationContext.jsx:63-65 | addNotification with type 'info' |
| Notifications.NotificationQueue.ClearAll | src/context/NotificationContext.jsx:68-70 | the queue is empty and the counter keeps its value, so later ids stay fresh |
| Notifications.TailIncreasing | src/context/NotificationContext.jsx:24-33 | the tail of an increasing queue is increasing, with every id above the head's |
| Notifications.ConsIncreasing | src/context/NotificationContext.jsx:24-33 | an entry below all ids of an increasing queue can go in front of it |
| Notifications.RemovedStaysIncreasing | src/context/NotificationContext.jsx:46-48 | filtering keeps ids strictly increasing |
| Notifications.RemovedStaysOrdered | src/context/NotificationContext.jsx:17-48 | filtering keeps the queue increasing and below the counter |
| Notifications.RemoveCutsOneEntry | src/context/NotificationContext.jsx:46-48 | removing the id at position k removes exactly that entry |
| Notifications.DismissUndoesAdd | src/context/NotificationContext.jsx:33-40 | the scheduled auto-removal of a fresh id gives back the queue from before the add |
| Storage.StoredToken | src/services/api.js:14-16 | getItem('token') is non-empty exactly when a non-empty token text is stored |
| Storage.LocalStorage.SetItem | src/services/authService.js:12-13 | the key now holds the value and every other entry is unchanged |
| Storage.LocalStorage.RemoveItem | src/services/authService.js:70-71 | the key has no entry afterwards and every other entry is unchanged |
| Storage.WithoutSession | src/services/authService.js:69-72 | removing 'token' and 'user' leaves every other key as it was |
| AuthService.CurrentUser | src/services/authService.js:75-78 | getCurrentUser is null without a 'user' key, and a user read back is the stored record |
| AuthService.IsAuthenticated | src/services/authService.js:81-83 | true exactly when the 'token' entry exists and is not the empty text, so a stored "" reads as signed out; a non-empty stored token makes it true |
| AuthService.Persisted | src/services/authService.js:11-14 | a response without a token leaves storage as it was; with one, both keys are written and nothing else changes |
| AuthService.StoreResponse | src/services/authService.js:9-26 | a response is stored as Persisted describes and returned; a 401 error has removed both session keys and reloads the page at /auth (api.js:39-43); any other error changes nothing; every error is passed on |
| Api.DropSession | src/services/api.js:39-43 | the 401 effect shared by every request: both session keys are removed and the browser is sent to /auth |
| AuthService.Login | src/services/authService.js:9-16 | as StoreResponse |
| AuthService.Signup | src/services/authService.js:19-26 | as StoreResponse |
| AuthService.Logout | src/services/authService.js:69-72 | both session keys are removed and nothing else |
| AuthService.PersistedSignsIn | src/services/authService.js:11-14 | a response with a token and a user leaves the client authenticated, with that user as getCurrentUser (see also lines 75-83) |
| AuthService.PersistedWithoutUser | src/services/authService.js:13 | a token without a user stores a 'user' value that makes getCurrentUser throw (see also lines 75-78) |
| AuthService.LogoutSignsOut | src/services/authService.js:69-83 | after logout neither key is stored, isAuthenticated is false and getCurrentUser is null |
| Session.VerifiedFlag | src/context/AuthContext.jsx:63 | emailVerified is true only for a user whose email_verified is true |
| Text.OrElse | src/context/AuthContext.jsx:66-79 | `value || fallback` on a string: the value, or the fallback when it is empty; used for error messages and the edit form's defaults |
| Session.SavedUser | src/context/AuthContext.jsx:28-40 | the saved user exists exactly when the 'user' key holds a user record |
| Session.SavedSession | src/context/AuthContext.jsx:28-30 | both keys are truthy: a token, and a user record or any non-empty text |
| Session.AuthSession.constructor | src/context/AuthContext.jsx:19-22 | the session mounts with the stored token, no user, loading set and not verified |
| Session.TokenOnlyLeavesUnreadableUser | src/context/AuthContext.jsx:28-30 | a token response without a user leaves both keys truthy and a 'user' text JSON.parse rejects, the state the start-up check then meets |
| Session.AuthSession.VerifyAuth | src/context/AuthContext.jsx:26-52 | with a saved token and a truthy saved user: success adopts the server's user, else the saved one; a "Failed to fetch" error keeps the saved user; a 401 has the request wrapper drop both keys and reload the page at /auth, so the session starts over signed out and loading; any other error clears both keys and the state; when the saved user is text JSON.parse rejects, a success without a user is cleared like an error, and "Failed to fetch" throws again so loading stays set; otherwise loading ends |
| Session.AuthSession.Login | src/context/AuthContext.jsx:58-68 | success stores and adopts the token and user, with emailVerified from the user; failure returns the message or 'Login failed' and changes nothing, except that a 401 clears both keys and the reloaded page starts signed out and loading |
| Session.AuthSession.Remount | src/context/AuthContext.jsx:19-22 | the page load after a 401: the provider starts again from storage, with no user and loading set |
| Session.AuthSession.Signup | src/context/AuthContext.jsx:71-81 | as login, except that emailVerified is always false; failure returns the message or 'Signup failed', and a 401 signs out and reloads as for login |
| Session.AuthSession.Logout | src/context/AuthContext.jsx:84-89 | token, user and emailVerified are cleared and both keys are removed |
| Session.AuthSession.UpdateUser | src/context/AuthContext.jsx:92-95 | the user is replaced in memory and in storage, and nothing else changes |
| Session.RoleFlags | src/context/AuthContext.jsx:115-116 | isSuperAdmin implies isAdmin, isAdmin holds exactly for the roles 'admin' and 'super_admin', and isSuperAdmin exactly for 'super_admin' |
| Session.IsAuthenticated | src/context/AuthContext.jsx:114 | signed in needs a non-empty token and a user, and a token with an admin user is signed in |
| Session.IsAdmin | src/context/AuthContext.jsx:115 | isAdmin needs a user whose role is admin or super_admin |
| Session.IsSuperAdmin | src/context/AuthContext.jsx:116 | a super admin is exactly an admin whose role is not plain 'admin' |
| Session.SignedInOnlyWithToken | src/context/AuthContext.jsx:114 | isAuthenticated holds exactly when both a token and a user are set |
| Api.BearerValue | src/services/api.js:27 | the Authorization value is "Bearer " and then the token (section 2.1 of RFC 6750) |
| Api.BearerToken | src/services/api.js:27 | a value reads back as a token exactly when it starts with "Bearer " |
| Api.BearerRoundTrip | src/services/api.js:27 | reading back the Authorization value gives the token |
| Api.JsonHeaders | src/services/api.js:19-31 | Content-Type is JSON unless a custom header overrides it; Authorization is the bearer value exactly when a token is stored; other custom headers pass unchanged |
| Api.GetHeaders | src/services/api.js:19-31 | the headers are JsonHeaders of the stored token |
| Api.UploadHeaders | src/services/api.js:114-120 | an upload carries no Content-Type, and Authorization only when a token is stored |
| Api.DefaultHeaders | src/services/api.js:19-31 | with a token and no custom headers, exactly Content-Type and an Authorization that reads back as the token |
| Api.Utf8 | src/services/api.js:57 | a character becomes one to four bytes, and a single byte exactly for ASCII |
| Api.HexDigit | src/services/api.js:57 | a hexadecimal digit is 0-9 or A-F |
| Api.EncodeByte | src/services/api.js:57 | an unreserved byte stays as it is, a space becomes '+', and any other byte becomes %XX (WHATWG URL Standard, section 5.2) |
| Api.SafeConcat | src/services/api.js:57 | joining two encoded texts gives an encoded text |
| Api.EncodeBytesSafe | src/services/api.js:57 | every encoded byte sequence uses only safe characters |
| Api.EncodeSafe | src/services/api.js:57 | an encoded name or value holds no '&', '=' or '?', so the pairs cannot run together |
| Api.QueryString | src/services/api.js:57 | the query string is empty exactly when there are no parameters |
| Api.GetUrl | src/services/api.js:56-60 | the URL is base and endpoint, then '?' and the query exactly when there are parameters |
| Api.Outcome | src/services/api.js:35-52 | an OK response gives its body, or {} when it is not JSON; any other gives {status, message, errors}, with 'An error occurred' and [] as defaults |
| Api.HandleResponse | src/services/api.js:34-53 | the outcome as above; a 401 removes both session keys and sends the browser to /auth; other statuses leave storage alone |
| Api.UnauthorizedDropsBearer | src/services/api.js:25-43 | after a 401 no later request carries an Authorization header |
| TokenCache.Credential | src/services/tokenService.js:20-21 | an explicit credential wins, then the environment's, then the fallback, and the result is never empty |
| TokenCache.UserPass | src/services/tokenService.js:27 | the user-pass string is the username, a colon and the password (section 2 of RFC 7617) |
| TokenCache.UserPassSplits | src/services/tokenService.js:27 | a username without a colon splits back off at the first colon, leaving the password |
| TokenCache.FailureMessage | src/services/tokenService.js:55-57 | the thrown message is the body's message, else its error, else the status text, and never empty |
| TokenCache.TokenStore.constructor | src/services/tokenService.js:7 | the cache starts empty |
| TokenCache.TokenStore.GetBearerToken | src/services/tokenService.js:14-72 | a valid cached token is answered with no request; otherwise one request is made; a rejected fetch, a non-JSON or non-OK reply, or a missing token or expiry throws and leaves the cache alone, a rejected fetch with its own error, a non-JSON body with the error of reading the body a second time; success stores the username's entry, with now plus 4 hours for an unparseable expiry |
| TokenCache.TokenStore.Clear | src/services/tokenService.js:75-77 | every entry is removed |
| TokenCache.FreshEntryIsReused | src/services/tokenService.js:9-12 | a stored entry stays valid until 15 s before its expiry, and storing it leaves the other usernames' validity alone (see also line 69) |
| TokenCache.FallbackExpiryWindow | src/services/tokenService.js:66-67 | a token with the fallback expiry is reused for the 4 hours less 15 s that follow |
| TokenCache.ValidityOnlyEnds | src/services/tokenService.js:9-12 | an entry valid at a later time was valid at every earlier time |
| Phone.Strip | src/services/paymentService.js:54 | white space and '-' are removed and every other character is kept |
| Phone.Rewrite | src/services/paymentService.js:57-69 | after the three rewrites the number starts with '+' |
| Phone.FormatPhoneNumber | src/services/paymentService.js:53-71 | the result starts with '+' and holds no separator |
| Phone.FormatCases | src/services/paymentService.js:57-69 | a leading 0 becomes +254, a leading 254 gains '+', a leading '+' is kept, and anything else gets +254 in front |
| Phone.RewriteCases | src/services/paymentService.js:57-69 | on a number already stripped of separators, the three rewrites give +254 for a leading 0, add '+' to a leading 254, keep a leading '+', and otherwise put +254 in front |
| Phone.StripNothing | src/services/paymentService.js:54 | stripping a number without separators changes nothing |
| Phone.FormatIsIdempotent | src/services/paymentService.js:53-71 | formatting a formatted number returns it unchanged |
| Phone.StripConcat | src/services/paymentService.js:54 | stripping distributes over concatenation |
| Phone.LocalNumber | src/services/paymentService.js:57-59 | "0" and any digits become "+254" and the digits, with no digit count checked ("07" gives "+2547") |
| Phone.SeparatorsIgnored | src/services/paymentService.js:54 | a space or dash anywhere in the input does not change the result |
| OrderIds.Substring | src/services/orderService.js:46 | substring with both bounds clamped to the length |
| OrderIds.Suffix | src/services/orderService.js:46 | the suffix has at most six characters, each 0-9 or A-Z, and exactly six when the random text is long enough |
| OrderIds.GenerateOrderId | src/services/orderService.js:45-47 | the id starts with "ORD-" and is bounded by the clock's length plus eight |
| OrderIds.ParseGenerated | src/services/orderService.js:45-47 | an id reads back as the clock reading and suffix it was made from |
| OrderIds.DistinctClocksDistinctIds | src/services/orderService.js:45-47 | ids made at different milliseconds differ, whatever the random parts |
| Tracking.GetStatusInfo | src/services/trackingService.js:47-49 | a known status gets its own entry and any other the 'pending' entry |
| Tracking.GetStatusOrder | src/services/trackingService.js:52-54 | seven distinct statuses from pending to delivered, all in the table, without cancelled and returned |
| Tracking.VocabularySize | src/services/trackingService.js:34-44 | the table has exactly the nine statuses |
| Tracking.CaptionsDistinct | src/services/trackingService.js:34-44 | no two statuses share a label |
| Tracking.OffPathStatuses | src/services/trackingService.js:34-53 | every status is on the delivery path except cancelled and returned |
| Catalog.FirstIndex | src/services/productService.js:40 | the first position of a value |
| Catalog.Distinct | src/services/productService.js:40 | a Set's contents: the same values, each once |
| Catalog.NonEmpty | src/services/productService.js:40 | `filter(Boolean)`: exactly the non-empty values |
| Catalog.GetCategories | src/services/productService.js:39-42 | 'All' first, then each non-empty category of the products once, and nothing else |
| Catalog.GetBrands | src/services/productService.js:45-48 | each non-empty brand once and nothing else, with no 'All' |
| Catalog.DistinctKeepsFirstAppearanceOrder | src/services/productService.js:40 | a Set lists values in the order they first appear |
| Catalog.FirstIndexOfPrefix | src/services/productService.js:40 | appending does not move a first appearance |
| Catalog.FirstIndexIs | src/services/productService.js:40 | a position holding the value with none before it is its first appearance |
| Catalog.NonEmptyKeepsOrder | src/services/productService.js:40 | dropping empty values keeps the order of first appearances |
| Catalog.FirstIndexOfTail | src/services/productService.js:40 | the first appearance in the tail is one position earlier |
| Catalog.CategoriesInFirstAppearanceOrder | src/services/productService.js:39-42 | after 'All', categories follow the order of the first product carrying each |
| Catalog.BrandsInFirstAppearanceOrder | src/services/productService.js:45-48 | brands follow the order of the first product carrying each |
| Uploads.ValidateFile | src/services/uploadService.js:78-91 | a file is valid exactly when its type is jpeg, png, gif or webp and its size is at most the limit (default 10 MB); the type is checked first |
| Uploads.TooLarge | src/services/uploadService.js:87 | the message starts with "File too large. Max size is " and is never the invalid-type message |
| Uploads.Failures | src/services/uploadService.js:94-106 | at most one error per file |
| Uploads.NoFailuresIffAllValid | src/services/uploadService.js:94-106 | no error is collected exactly when every file is valid |
| Uploads.ValidateFiles | src/services/uploadService.js:94-106 | errors lists one entry per failing file in input order, tagged with its name; valid holds exactly when every file passes |
| Uploads.Urls | src/services/uploadService.js:56-61 | urls is the uploaded entries' addresses, in order |
| Uploads.EachFileOnce | src/services/uploadService.js:39-54 | each file is in exactly one of uploaded and errors, and there are no errors exactly when every upload succeeded |
| Uploads.UploadMultiple | src/services/uploadService.js:35-62 | the loop sorts each outcome in input order into uploaded or errors; success holds exactly when every upload succeeded |
| Uploads.GetImageUrl | src/services/uploadService.js:65-75 | null for an empty value; otherwise the value unchanged |
| ProductImages.GetProductImageUrl | src/components/common/ProductImage/ProductImage.jsx:35-65 | falsy input, an object without url or anything else gives the placeholder; an object's url is returned; http://, https://, data: and / strings are kept; other strings get '/' in front |
| ProductImages.StringsResolveToLoadable | src/components/common/ProductImage/ProductImage.jsx:44-61 | every string resolves to an address the browser can load |
| ProductImages.ResolveIsIdempotent | src/components/common/ProductImage/ProductImage.jsx:44-61 | resolving a resolved string changes nothing |
| SearchBox.Moved | src/components/common/SearchBar/SearchBar.jsx:79-86 | ArrowDown gives min(i+1, n-1) and ArrowUp gives max(i-1, -1) |
| SearchBox.ArrowsStayInRange | src/components/common/SearchBar/SearchBar.jsx:79-86 | the arrow keys keep the selection in [-1, n-1] |
| SearchBox.DownReachesLast | src/components/common/SearchBar/SearchBar.jsx:79-82 | n presses of ArrowDown reach the last suggestion and stay there |
| SearchBox.DownTimesIs | src/components/common/SearchBar/SearchBar.jsx:79-82 | k presses of ArrowDown give min(i+k, n-1) |
| SearchBox.SearchEffect | src/components/common/SearchBar/SearchBar.jsx:103-112 | nothing exactly for a blank trimmed query; otherwise onSearch with the query when given, or navigation to SearchPath of the query, encoded by encodeURIComponent |
| SearchBox.SearchPath | src/components/common/SearchBar/SearchBar.jsx:109 | the path is /products?search= and a value that percent-decodes to the UTF-8 bytes of the query and holds no space, '+', '&' or '#' |
| SearchBox.ProductPath | src/components/common/SearchBar/SearchBar.jsx:117 | the path is /products/ and the decimal id, with no query string |
| SearchBox.EncodeUriComponentIsOneValue | src/components/common/SearchBar/SearchBar.jsx:109 | encodeURIComponent output holds only unreserved characters and %XX escapes, so no space, '+', '&', '=' or '#' |
| SearchBox.UnreservedTextUnchanged | src/components/common/SearchBar/SearchBar.jsx:109 | text made only of A-Z a-z 0-9 - _ . ! ~ * ' ( ) is sent unchanged |
| SearchBox.SpaceIsPercent20 | src/components/common/SearchBar/SearchBar.jsx:109 | a space is sent as %20 |
| SearchBox.SpaceSentAsPercent20 | src/components/common/SearchBar/SearchBar.jsx:109 | a space between two unreserved words becomes %20, not '+' as in the form-encoded query strings |
| SearchBox.BangKept | src/components/common/SearchBar/SearchBar.jsx:109 | '!' is not escaped by encodeURIComponent |
| SearchBox.EncodeUriComponentConcat | src/components/common/SearchBar/SearchBar.jsx:109 | encoding a concatenation is the concatenation of the encodings |
| SearchBox.DecodeInvertsEncode | src/components/common/SearchBar/SearchBar.jsx:109 | percent-decoding undoes the byte encoding |
| SearchBox.DecodeUriComponentInverts | src/components/common/SearchBar/SearchBar.jsx:109 | decoding the encoded query gives back the UTF-8 bytes of the query |
| SearchBox.SearchBar.constructor | src/components/common/SearchBar/SearchBar.jsx:12-16 | empty query, no suggestions, hidden list and no selection |
| SearchBox.SearchBar.SetQuery | src/components/common/SearchBar/SearchBar.jsx:34-62 | a new query shorter than 2 characters clears the suggestions and schedules no lookup; a new longer one schedules a lookup |
| SearchBox.SearchBar.InputChange | src/components/common/SearchBar/SearchBar.jsx:64-68 | typing sets the query, shows the list and resets the selection to -1 |
| SearchBox.SearchBar.SuggestionsArrived | src/components/common/SearchBar/SearchBar.jsx:44-55 | the lookup's products become the suggestions, and an error gives none |
| SearchBox.SearchBar.Search | src/components/common/SearchBar/SearchBar.jsx:103-112 | the effect is SearchEffect of the query, and the list is hidden unless the query is blank |
| SearchBox.SearchBar.SelectSuggestion | src/components/common/SearchBar/SearchBar.jsx:114-118 | the product's name becomes the query, the list is hidden and its page is opened |
| SearchBox.SearchBar.KeyDown | src/components/common/SearchBar/SearchBar.jsx:70-101 | with the list hidden or empty only Enter acts, by searching, and every other key changes nothing; arrows move as Moved and keep the list; Escape hides the list; Enter on a chosen suggestion navigates to it, puts its name in the box, hides the list and looks the name up only when it changed and is long enough; Enter with no choice searches; each case states the whole new state |
| AdminLayout.LastSegment | src/components/admin/AdminLayout/AdminLayout.jsx:170 | `split('/').pop()`: the suffix after the last '/', holding no '/' |
| AdminLayout.LastSegmentAfterSlash | src/components/admin/AdminLayout/AdminLayout.jsx:170 | the last segment of a + "/" + b is b when b has no '/' |
| AdminLayout.Breadcrumb | src/components/admin/AdminLayout/AdminLayout.jsx:170 | the last segment, or 'Dashboard' when it is empty |
| AdminLayout.BreadcrumbOfPage | src/components/admin/AdminLayout/AdminLayout.jsx:170 | a page path shows its own last segment; only a trailing '/' shows 'Dashboard' |
| AdminLayout.OnlyDashboardAtRoot | src/components/admin/AdminLayout/AdminLayout.jsx:26-92 | at '/admin' the Dashboard item is the only active one |
| AdminLayout.SectionHighlighted | src/components/admin/AdminLayout/AdminLayout.jsx:87-92 | any path under a section's path highlights that section and not Dashboard |
| AdminLayout.IsActive | src/components/admin/AdminLayout/AdminLayout.jsx:87-92 | a link is active on its own path, an active link is a prefix of the location, and the dashboard link is active only on /admin itself |
| RouteGuards.Protected | src/App.jsx:53-65 | spinner while loading, redirect to /auth when signed out, children otherwise |
| RouteGuards.PublicOnly | src/App.jsx:70-83 | spinner while loading; signed-in users go to /admin if admin and to /products otherwise; others see the page |
| RouteGuards.UserOnly | src/App.jsx:88-105 | spinner, /auth when signed out, AccessDenied for an admin, children otherwise |
| RouteGuards.AdminOnly | src/App.jsx:110-127 | spinner, /auth when signed out, AccessDenied for a non-admin, children otherwise |
| RouteGuards.UserAndAdminPagesDisjoint | src/App.jsx:88-127 | no user is admitted by both the user-only and the admin guard, and every signed-in user is admitted by one |
| RouteGuards.PublicAndProtectedComplementary | src/App.jsx:53-83 | once loaded, exactly one of the public-only and the protected guard shows its page |
| Checkout.Items | src/pages/user/CartPage/CartPage.jsx:43-48 | one item per cart line in cart order, with product_id, name, quantity and price |
| Checkout.BuildOrder | src/pages/user/CartPage/CartPage.jsx:36-64 | the payload has the order id, the items, subtotal = total = getSubtotal with tax and shipping 0, M-Pesa payment pending and order status pending |
| Checkout.ItemsAddUpToTotal | src/pages/user/CartPage/CartPage.jsx:43-54 | the items' price times quantity adds up to the payload's total |
| Checkout.CreatedId | src/pages/user/CartPage/CartPage.jsx:72-73 | the id of `data.order`, or of the answer itself |
| Checkout.PaymentPath | src/pages/user/CartPage/CartPage.jsx:81 | the path is /payment/ followed by exactly the order id |
| Checkout.FailureMessage | src/pages/user/CartPage/CartPage.jsx:75-84 | a missing id gives its own message and an error gives its message, never empty |
| Checkout.HandleCheckout | src/pages/user/CartPage/CartPage.jsx:31-88 | an empty cart does nothing; an order created with an id clears the cart, shows success and opens /payment/<id>; otherwise the cart is kept and an error is shown |
| PaymentFlow.Observed | src/pages/user/PaymentPage/PaymentPage.jsx:43-44 | payment_status when present, otherwise status |
| PaymentFlow.Classify | src/pages/user/PaymentPage/PaymentPage.jsx:46-56 | completed or success is paid, failed or cancelled is declined, and anything else is waiting |
| PaymentFlow.PollReaction | src/pages/user/PaymentPage/PaymentPage.jsx:46-61 | paid stops the poll, reports success and leads to /orders; declined stops it and allows a new attempt; waiting is silent |
| PaymentFlow.CheckReaction | src/pages/user/PaymentPage/PaymentPage.jsx:150-160 | the same verdicts as the poll, and "still processing" while waiting |
| PaymentFlow.PollAndCheckAgree | src/pages/user/PaymentPage/PaymentPage.jsx:46-61 | on every final status the poll and the manual check give the same notice, redirect and re-opening (see also lines 152-160) |
| PaymentFlow.PollAfter | src/pages/user/PaymentPage/PaymentPage.jsx:33-66 | when its inputs change the poll runs exactly for a submitted payment on an order with a code; otherwise it keeps running or not |
| PaymentFlow.PaymentPage.constructor | src/pages/user/PaymentPage/PaymentPage.jsx:20-26 | no order, loading, the user's phone, no request id, nothing submitted |
| PaymentFlow.PaymentPage.FetchOrder | src/pages/user/PaymentPage/PaymentPage.jsx:68-96 | an error or an order without id reports and leads to /orders; an already paid order says so and leads to /orders; an unpaid order is kept with no notice and no redirect; loading ends |
| PaymentFlow.PaymentPage.HandlePayment | src/pages/user/PaymentPage/PaymentPage.jsx:109-139 | without a phone or an order code an error is shown and nothing is sent; otherwise the formatted phone is sent, and success stores either spelling of the request id and starts the poll |
| PaymentFlow.PaymentPage.PollTick | src/pages/user/PaymentPage/PaymentPage.jsx:36-61 | an error or a missing order changes nothing; otherwise the page reacts as PollReaction of the observed status |
| PaymentFlow.PaymentPage.CheckPaymentStatus | src/pages/user/PaymentPage/PaymentPage.jsx:141-166 | nothing without a request id; an error is reported; otherwise the page reacts as CheckReaction |
| OrderDetail.StatusIndex | src/pages/user/OrderDetailPage/OrderDetailPage.jsx:96 | indexOf in the seven-step order, -1 exactly for statuses off the path |
| OrderDetail.FirstEntry | src/pages/user/OrderDetailPage/OrderDetailPage.jsx:136 | the first tracking entry with the status, and none exactly when no entry has it |
| OrderDetail.Timeline | src/pages/user/OrderDetailPage/OrderDetailPage.jsx:132-158 | one step per status of the seven-step order, in that order |
| OrderDetail.CompletedStepsArePrefix | src/pages/user/OrderDetailPage/OrderDetailPage.jsx:134 | completed steps form a prefix ending at the order's status, and there are none off the path |
| OrderDetail.CurrentStepIsTheOrdersStatus | src/pages/user/OrderDetailPage/OrderDetailPage.jsx:135 | at most one step is current, the one of the order's status, and none off the path |
| OrderDetail.ConnectorsJoinTickedSteps | src/pages/user/OrderDetailPage/OrderDetailPage.jsx:157 | the connector after step i is coloured exactly when i is before the current step |
| OrderDetail.PaymentLabel | src/pages/user/OrderDetailPage/OrderDetailPage.jsx:268 | completed is Paid, failed is Failed, anything else Pending |
| OrderDetail.PayNowNeverBesidePaid | src/pages/user/OrderDetailPage/OrderDetailPage.jsx:268-287 | Pay Now never shows beside a Paid label |
| OrderDetail.ShowPayNow | src/pages/user/OrderDetailPage/OrderDetailPage.jsx:283 | Pay Now is shown exactly for a pending order (the first status) whose payment is not completed, including one with no payment record yet |
| OrderTrackingView.Steps | src/pages/user/OrderTrackingPage/OrderTrackingPage.jsx:48-56 | exactly five steps |
| OrderTrackingView.CurrentStepIndex | src/pages/user/OrderTrackingPage/OrderTrackingPage.jsx:58-63 | the position of the status among the steps, or 0 with no order or an unknown status, so always within [0, 4] |
| OrderTrackingView.PaymentLabel | src/pages/user/OrderTrackingPage/OrderTrackingPage.jsx:196-198 | paid is Paid, pending is Pending, anything else Failed |
| OrderTrackingView.StepsFollowStatusOrder | src/pages/user/OrderTrackingPage/OrderTrackingPage.jsx:48-56 | the five steps lie on the seven-step path, in its order |
| OrderTrackingView.TimelinesDisagree | src/pages/user/OrderTrackingPage/OrderTrackingPage.jsx:48-63 | packed, out_for_delivery and cancelled show as step 0 here but as 3, 5 and -1 on the detail page |
| OrderTrackingView.SharedStatusesAgree | src/pages/user/OrderTrackingPage/OrderTrackingPage.jsx:58-63 | each of the five statuses both pages know is current at its own step here and at its own status on the detail page, and any two of them come in the same order on both pages |
| OrderTrackingView.StepActive | src/pages/user/OrderTrackingPage/OrderTrackingPage.jsx:123 | the current step and every earlier one are ticked, and no later step is |
| OrderTrackingView.ConnectorActive | src/pages/user/OrderTrackingPage/OrderTrackingPage.jsx:133-134 | a connector is lit exactly when the steps at both of its ends are ticked |
| OrdersList.FetchParams | src/pages/user/OrdersPage/OrdersPage.jsx:31-34 | the page and the page's current limit, with order_status exactly when the filter is not 'all' |
| OrdersList.GetPaymentInfo | src/pages/user/OrdersPage/OrdersPage.jsx:67-74 | completed is Paid, failed is Failed, and anything else the Pending badge |
| OrdersList.BadgeMatchesDetailLabel | src/pages/user/OrdersPage/OrdersPage.jsx:67-74 | the list badge and the detail page's label agree on every status |
| OrdersList.Toggled | src/pages/user/OrdersPage/OrdersPage.jsx:142-152 | clicking the expanded order collapses it, and any other click expands that order alone |
| OrdersList.ToggleTwice | src/pages/user/OrdersPage/OrdersPage.jsx:142-152 | two clicks on one order restore the state when it or nothing was expanded |
| OrdersList.PayNowImpliesCancel | src/pages/user/OrdersPage/OrdersPage.jsx:264-272 | Pay Now only shows where Cancel shows |
| OrdersList.ShowCancel | src/pages/user/OrdersPage/OrdersPage.jsx:272 | Cancel Order is shown exactly for an order in the first status of the delivery timeline |
| OrdersList.OrdersPage.constructor | src/pages/user/OrdersPage/OrdersPage.jsx:19-20 | filter 'all' and nothing expanded |
| OrdersList.OrdersPage.SetFilter | src/pages/user/OrdersPage/OrdersPage.jsx:31-34 | a changed filter fetches page 1 with FetchParams and the limit last received |
| OrdersList.OrdersPage.PaginationArrived | src/pages/user/OrdersPage/OrdersPage.jsx:40-41 | the reply's pagination limit replaces the page's limit; without one the old limit stays |
| OrdersList.OrdersPage.ToggleOrder | src/pages/user/OrdersPage/OrdersPage.jsx:152 | the expanded order becomes Toggled of the old one |
| ProductDetail.NormalizeProduct | src/pages/user/ProductDetailPage/ProductDetailPage.jsx:25-28 | data.product, else data.data, else data |
| ProductDetail.FirstTruthy | src/pages/user/ProductDetailPage/ProductDetailPage.jsx:31-38 | the first non-empty candidate, or the fallback when all are empty |
| ProductDetail.GetDescriptionText | src/pages/user/ProductDetailPage/ProductDetailPage.jsx:31-38 | the first non-empty description field in the listed order, else the fixed message; never empty |
| ProductDetail.FirstTruthyIsCandidate | src/pages/user/ProductDetailPage/ProductDetailPage.jsx:31-38 | the answer is a candidate or the fallback, and non-empty when the fallback is |
| ProductDetail.GetImages | src/pages/user/ProductDetailPage/ProductDetailPage.jsx:86-105 | [] without a product; else all images resolved, [image], [image_url], or [null], in that order |
| ProductDetail.ImagesNeverEmptyStrings | src/pages/user/ProductDetailPage/ProductDetailPage.jsx:86-105 | every resolved image address is non-empty |
| ProductDetail.Others | src/pages/user/ProductDetailPage/ProductDetailPage.jsx:62 | a product is kept exactly when it was received and its id is not the current one, and the list never grows |
| ProductDetail.OthersConcat | src/pages/user/ProductDetailPage/ProductDetailPage.jsx:62 | the filter distributes over concatenation, so the kept products stay in the order received |
| ProductDetail.OthersOfOne | src/pages/user/ProductDetailPage/ProductDetailPage.jsx:62 | a single product is kept exactly when its id is not the current one |
| ProductDetail.OthersKeepsMultiplicity | src/pages/user/ProductDetailPage/ProductDetailPage.jsx:62 | each kept product appears as often as received, and no product with the current id survives |
| ProductDetail.Related | src/pages/user/ProductDetailPage/ProductDetailPage.jsx:62 | the first four of the others in the order received: all of them when there are four or fewer, exactly four otherwise |
| ProductDetail.MaxQuantity | src/pages/user/ProductDetailPage/ProductDetailPage.jsx:348-352 | stock_quantity, else stock, else 99 |
| ProductDetail.TypedQuantity | src/pages/user/ProductDetailPage/ProductDetailPage.jsx:346 | a typed number at least 1 is taken as is; anything else gives 1 |
| ProductDetail.TypingIgnoresStock | src/pages/user/ProductDetailPage/ProductDetailPage.jsx:346 | a typed quantity above the stock is kept above it |
| ProductDetail.QuantityStepper.constructor | src/pages/user/ProductDetailPage/ProductDetailPage.jsx:22 | the quantity starts at 1 |
| ProductDetail.QuantityStepper.Decrement | src/pages/user/ProductDetailPage/ProductDetailPage.jsx:337-339 | '-' lowers the quantity by one and is disabled at 1 |
| ProductDetail.QuantityStepper.Increment | src/pages/user/ProductDetailPage/ProductDetailPage.jsx:350-352 | '+' raises it by one up to the maximum and is disabled there |
| ProductDetail.QuantityStepper.Type | src/pages/user/ProductDetailPage/ProductDetailPage.jsx:346 | the quantity becomes TypedQuantity of the input |
| ProductDetail.ButtonsStayInRange | src/pages/user/ProductDetailPage/ProductDetailPage.jsx:337-352 | any sequence of button clicks keeps the quantity within [1, max] |
| AuthPage.CheckPassword | src/pages/public/AuthPage/AuthPage.jsx:58-66 | a mismatch is reported before the length, and a password passes exactly when it matches and has at least 6 characters |
| AuthPage.SameRuleEverywhere | src/pages/user/ProfilePage/ProfilePage.jsx:66-74 | the profile and reset-password pages accept exactly the passwords the signup form accepts (also src/pages/public/ResetPasswordPage/ResetPasswordPage.jsx:46-54) |
| AuthPage.SignupPayload | src/pages/public/AuthPage/AuthPage.jsx:70-76 | username, email, location, phone and password come from the form |
| AuthPage.PayloadDeterminesForm | src/pages/public/AuthPage/AuthPage.jsx:70-76 | after validation, the payload and the form agree, confirmation included |
| AuthPage.LoginOutcome | src/pages/public/AuthPage/AuthPage.jsx:43-48 | success greets and leads to /products; failure shows the error and stays, or lands on /auth after a 401 |
| AuthPage.HandleLogin | src/pages/public/AuthPage/AuthPage.jsx:37-51 | success signs in and leads to /products; failure shows the message or 'Login failed' and keeps the session and storage, except that a 401 clears both keys, signs out and reloads at /auth |
| AuthPage.HandleSignup | src/pages/public/AuthPage/AuthPage.jsx:54-86 | a failed check shows its error and sends nothing; otherwise the payload is sent, success leads to /products, and a failure is handled as in HandleLogin, 401 included |
| AdminUsers.ShownStatus | src/pages/admin/AdminUsers/AdminUsers.jsx:166-167 | the status, or 'active' when it is missing |
| AdminUsers.ToggleTarget | src/pages/admin/AdminUsers/AdminUsers.jsx:180 | 'inactive' exactly for an active user, 'active' otherwise |
| AdminUsers.ToggleChangesShownStatus | src/pages/admin/AdminUsers/AdminUsers.jsx:166-182 | the toggle changes the shown status exactly when the user has a status |
| AdminUsers.NoSelfService | src/pages/admin/AdminUsers/AdminUsers.jsx:177 | no toggle and no role selector on the admin's own row (see also line 249) |
| AdminUsers.ToggleCaption | src/pages/admin/AdminUsers/AdminUsers.jsx:182 | the button reads Disable or Enable: Disable exactly when the toggle sends inactive, Enable exactly when it sends active |
| AdminUsers.ShowToggle | src/pages/admin/AdminUsers/AdminUsers.jsx:177 | the toggle is hidden exactly on the signed-in admin's own row |
| AdminUsers.ShowRoleSelect | src/pages/admin/AdminUsers/AdminUsers.jsx:249 | the role select appears exactly when the viewer is a super admin and the selected user is someone else |
| AdminUsers.RoleChange | src/pages/admin/AdminUsers/AdminUsers.jsx:66-79 | a non-super admin is refused with no request; otherwise the answer decides success or the error |
| AdminUsers.OnlySuperAdminsSend | src/pages/admin/AdminUsers/AdminUsers.jsx:66-70 | a role request is only sent for a super admin |
| AdminUsers.UsersPage.constructor | src/pages/admin/AdminUsers/AdminUsers.jsx:18-20 | page 1, filter 'all', no search |
| AdminUsers.UsersPage.ChooseRole | src/pages/admin/AdminUsers/AdminUsers.jsx:118-121 | a role filter sets page 1 and refetches when either changed |
| AdminOrders.StatusOptions | src/pages/admin/AdminOrders/AdminOrders.jsx:101 | eight options |
| AdminOrders.OptionsAreDeliveryPathAndCancel | src/pages/admin/AdminOrders/AdminOrders.jsx:101 | the options are the delivery path and cancelled, all known statuses, and returned is not offered |
| AdminOrders.OrdersAdmin.constructor | src/pages/admin/AdminOrders/AdminOrders.jsx:18-23 | no selection, closed modal, empty status and note, filter 'all', page 1 |
| AdminOrders.OrdersAdmin.OpenStatusModal | src/pages/admin/AdminOrders/AdminOrders.jsx:95-99 | selects the order, preselects its current status and opens the modal |
| AdminOrders.OrdersAdmin.ChooseStatus | src/pages/admin/AdminOrders/AdminOrders.jsx:101 | any option may be chosen, with no transition check |
| AdminOrders.OrdersAdmin.WriteNote | src/pages/admin/AdminOrders/AdminOrders.jsx:74 | the note changes and nothing else |
| AdminOrders.OrdersAdmin.HandleUpdateStatus | src/pages/admin/AdminOrders/AdminOrders.jsx:65-93 | nothing without a selection and a status; the order update comes first and a tracking entry follows only for a non-empty note; success resets the modal, selection, status and note and refetches; a failure leaves them |
| AdminOrders.OrdersAdmin.ChooseFilter | src/pages/admin/AdminOrders/AdminOrders.jsx:120-123 | a filter sets page 1 and refetches when either changed |
| AdminProducts.Prefilled | src/pages/admin/AdminProducts/AdminProducts.jsx:62-73 | each field from the product, with unit 'tonne' and status 'active' when missing; a price or stock of 0 opens an empty box, as a missing one does |
| AdminProducts.NumberText | src/pages/admin/AdminProducts/AdminProducts.jsx:67-69 | a numeric field read with the empty-text fallback: empty exactly for a missing number or 0, else its decimal text |
| AdminProducts.ZeroReadsAsMissing | src/pages/admin/AdminProducts/AdminProducts.jsx:67-69 | a price or stock of 0 opens the same form as a missing one |
| AdminProducts.BareProductGivesEmptyForm | src/pages/admin/AdminProducts/AdminProducts.jsx:60-87 | editing a product with no fields, or with only a price and stock of 0, gives exactly the new-product form |
| AdminProducts.WithoutIndex | src/pages/admin/AdminProducts/AdminProducts.jsx:136 | the images without position k, or all of them when k is out of range |
| AdminProducts.RemoveShiftsTail | src/pages/admin/AdminProducts/AdminProducts.jsx:133-138 | removing position k deletes exactly that image, keeps those before and moves those after up by one |
| AdminProducts.ProductsAdmin.constructor | src/pages/admin/AdminProducts/AdminProducts.jsx:17-35 | the empty form, page 1 and a closed modal |
| AdminProducts.ProductsAdmin.OpenModal | src/pages/admin/AdminProducts/AdminProducts.jsx:59-90 | a new product gets the empty form and an edit the prefilled one; the modal opens |
| AdminProducts.ProductsAdmin.CloseModal | src/pages/admin/AdminProducts/AdminProducts.jsx:92-95 | the modal closes and nothing is being edited |
| AdminProducts.ProductsAdmin.HandleImageUpload | src/pages/admin/AdminProducts/AdminProducts.jsx:97-131 | no files does nothing; one invalid file blocks the batch with the names listed; otherwise the uploaded addresses are appended in order, even when other files fail, only the images change, and the notices are exactly "N image(s) uploaded successfully" when some went through, then "Failed to upload: " and the failed names when some did not |
| AdminProducts.ProductsAdmin.RemoveImage | src/pages/admin/AdminProducts/AdminProducts.jsx:133-138 | only the images change, to WithoutIndex of the old ones |
| AdminProducts.ProductsAdmin.SetTotalPages | src/pages/admin/AdminProducts/AdminProducts.jsx:49-51 | the page count from the server |
| AdminProducts.ProductsAdmin.Previous | src/pages/admin/AdminProducts/AdminProducts.jsx:278-280 | back one page, disabled at page 1 or below |
| AdminProducts.ProductsAdmin.Next | src/pages/admin/AdminProducts/AdminProducts.jsx:285-287 | forward one page, disabled at the last page or beyond |
| AdminProducts.PagerStaysInRange | src/pages/admin/AdminProducts/AdminProducts.jsx:279-286 | from inside [1, totalPages] an enabled button lands inside it; Previous is disabled exactly on page 1, Next exactly on the last |
| AdminProducts.PreviousDisabled | src/pages/admin/AdminProducts/AdminProducts.jsx:279 | Previous is disabled on page 1 and enabled from page 2 on |
| AdminProducts.NextDisabled | src/pages/admin/AdminProducts/AdminProducts.jsx:286 | Next is disabled on the last page and past it, and enabled before it; with one page no pager is drawn, and the flag alone reads disabled |
| AdminProducts.ShowPager | src/pages/admin/AdminProducts/AdminProducts.jsx:276 | the pager is drawn exactly when Next is enabled on the first page, that is with more than one page |

## Left out

- Checkout.CustomerOf: without a signed-in user the order's customer name and email are undefined, and JSON.stringify drops those keys. The model sends "" for them, as it does for the phone and the address, which the code sends as ''.
- Network I/O: fetch, every service endpoint wrapper, userService and uploadSingle. Each answer is a `Result` input, and timeouts and the AbortController are not modelled.
- Timers: the 3-second payment poll is one step per observed status, the 300 ms search debounce is one lookup per query change, the toast auto-dismiss is a returned flag, and the 2-second redirect delay is an immediate redirect.
- localStorage persistence of the cart and wishlist, and JSON.parse/stringify: stored values are already-parsed records.
- The user record under 'user' is stored as a record. Any non-empty text there is taken as text that JSON.parse rejects. Text that parses as some other JSON value is not modelled.
- `Date.now`, `Math.random`, `btoa`, `import.meta.env` and the development password are parameters. Dates are not parsed: an expiry is a number of milliseconds or unparseable.
- Number.prototype.toString(36) is not computed: its text is a parameter described by `OrderIds.IsRandomText`.
- Floating-point money: prices, quantities and totals are integers. AdminProducts keeps price and stock as form text.
- JavaScript string lengths count UTF-16 code units. The model counts characters, which differ only outside the Basic Multilingual Plane.
- Lookups in the status and payment tables by a name such as 'constructor' (a prototype key) are not modelled.
- highlightMatch (a regular expression built from user input), the icons and emoji in labels (except the login greeting), the placeholder SVG text (a parameter), and CSS class names.
- The transient loading, processing, checkingPayment, updating and uploadingImages flags, and the finally blocks that reset them.
- The rest of ProfilePage and ResetPasswordPage beyond the password rule, and AdminProducts' submit, search and delete.
- React rendering and routing: navigation is a returned path, and effects run when their dependencies change.
- The order-tracking page reads `order.status` and calls a tracking-service function the service does not define. Only its step and label logic is modelled.
- AdminProducts.ProductsAdmin.HandleImageUpload: the catch branch for a throwing uploadMultiple is not modelled, because every upload error is caught per file.
- Checkout.HandleCheckout: a failed request is modelled by its message alone. The 401 sign-out and reload at /auth that every authenticated request shares is stated once, by `Api.HandleResponse` and `Api.DropSession`, and is not repeated in this page's contract.
- PaymentFlow.PaymentPage.FetchOrder: as for Checkout.HandleCheckout, a 401 leaves the sign-out and reload at /auth to `Api.HandleResponse`; the page's contract does not state them.
- PaymentFlow.PaymentPage.HandlePayment: the same; a 401 sign-out and reload is `Api.HandleResponse`'s, not stated here.
- PaymentFlow.PaymentPage.CheckPaymentStatus: the same; a 401 sign-out and reload is `Api.HandleResponse`'s, not stated here.
- AdminOrders.OrdersAdmin.HandleUpdateStatus: the same; a 401 from either request signs out and reloads at /auth through `Api.HandleResponse`, which this contract does not state.
- AdminUsers.RoleChange: the same; a 401 answer signs out and reloads at /auth through `Api.HandleResponse`, which this contract does not state.

=== FILE: admin_layout.dfy ===
/** The two path rules of src/components/admin/AdminLayout/AdminLayout.jsx:
    which sidebar item is highlighted for the current pathname, and the
    last breadcrumb segment. */
module AdminLayout {
  import opened Text

  const DashboardPath := "/admin"
  const MenuPaths := ["/admin", "/admin/products", "/admin/orders", "/admin/users", "/admin/payments"]
  const DashboardLabel := "Dashboard"

  /** isActive: the dashboard item only on its own path, every other item
      on any path below it. */
  function IsActive(path: string, pathname: string): (b: bool)
    ensures pathname == path ==> b
    ensures b ==> |path| <= |pathname| && pathname[..|path|] == path
    ensures path == DashboardPath && pathname != DashboardPath ==> !b
  {
    if path == DashboardPath then pathname == DashboardPath else StartsWith(pathname, path)
  }

  /** `pathname.split('/').pop()`: the text after the last '/', or all of
      it when there is none. */
  function LastSegment(s: string): (r: string)
    ensures '/' !in r
    ensures |r| <= |s| && r == s[|s| - |r|..]
    ensures |r| < |s| ==> s[|s| - |r| - 1] == '/'
  {
    if s == [] || s[|s| - 1] == '/' then ""
    else
      var init := LastSegment(s[..|s| - 1]);
      assert s[..|s| - 1][|s| - 1 - |init|..] == s[|s| - 1 - |init|..|s| - 1];
      init + [s[|s| - 1]]
  }

  /** The segment after a final '/' is what follows it. */
  lemma {:induction false} LastSegmentAfterSlash(a: string, b: string)
    requires '/' !in b
    ensures LastSegment(a + "/" + b) == b
    decreases |b|
  {
    var s := a + "/" + b;
    if b == [] {
      assert s[|s| - 1] == '/';
    } else {
      var init := b[..|b| - 1];
      assert s[..|s| - 1] == a + "/" + init;
      assert '/' !in init by {
        assert forall c :: c in init ==> c in b;
      }
      LastSegmentAfterSlash(a, init);
      assert b == init + [b[|b| - 1]];
    }
  }

  /** The breadcrumb: the last segment, or 'Dashboard' when it is empty. */
  function Breadcrumb(pathname: string): (r: string)
    ensures r != ""
    ensures LastSegment(pathname) != "" ==> r == LastSegment(pathname)
    ensures LastSegment(pathname) == "" ==> r == DashboardLabel
  {
    var segment := LastSegment(pathname);
    if segment != "" then segment else DashboardLabel
  }

  /** Below the admin area the breadcrumb is the page's own segment, and a
      trailing '/' gives 'Dashboard'. So '/admin' itself shows 'admin',
      not 'Dashboard'. */
  lemma BreadcrumbOfPage(a: string, page: string)
    requires '/' !in page
    ensures Breadcrumb(a + "/" + page) == (if page == "" then DashboardLabel else page)
  {
    LastSegmentAfterSlash(a, page);
  }

  /** On '/admin' exactly one item is highlighted: the dashboard. */
  lemma OnlyDashboardAtRoot()
    ensures forall i :: 0 <= i < |MenuPaths| ==> (IsActive(MenuPaths[i], DashboardPath) <==> i == 0)
  {
    forall i | 1 <= i < |MenuPaths| ensures !IsActive(MenuPaths[i], DashboardPath) {
      assert |MenuPaths[i]| > |DashboardPath|;
    }
  }

  /** Below a section every path under it highlights that section and not
      the dashboard. */
  lemma SectionHighlighted(i: int, rest: string)
    requires 1 <= i < |MenuPaths|
    ensures IsActive(MenuPaths[i], MenuPaths[i] + rest)
    ensures !IsActive(DashboardPath, MenuPaths[i] + rest)
  {
    assert (MenuPaths[i] + rest)[..|MenuPaths[i]|] == MenuPaths[i];
    assert |MenuPaths[i] + rest| > |DashboardPath|;
  }
}

=== FILE: admin_orders.dfy ===
/** The status update of src/pages/admin/AdminOrders/AdminOrders.jsx: the
    modal preselects the order's status, any of eight statuses may be
    chosen, and saving updates the order and then, when a note was written,
    adds a tracking entry. The two requests' answers are parameters. */
module AdminOrders {
  import opened Wrappers
  import opened Notifications
  import Tracking

  datatype OrderRow = OrderRow(id: int, orderStatus: string)

  /** The requests a save makes, in order. */
  datatype Call = UpdateOrder(orderId: int, status: string) | AddTracking(orderId: int, status: string, notes: string)

  const UpdatedNotice := Notice("success", "Order status updated")
  const UpdateFallback := "Failed to update status"

  function StatusOptions(): (options: seq<string>)
    ensures |options| == 8
  {
    ["pending", "confirmed", "processing", "packed", "shipped", "out_for_delivery", "delivered", "cancelled"]
  }

  /** The choices are the delivery path plus 'cancelled'; 'returned' is
      never offered, and every choice has a table entry. */
  lemma OptionsAreDeliveryPathAndCancel()
    ensures StatusOptions() == Tracking.GetStatusOrder() + [Tracking.Cancelled]
    ensures Tracking.Returned !in StatusOptions()
    ensures forall i :: 0 <= i < |StatusOptions()| ==> StatusOptions()[i] in Tracking.Statuses
  {
  }

  function ErrorMessage(error: string): string {
    if error != "" then error else UpdateFallback
  }

  class OrdersAdmin {
    var selected: Option<OrderRow>
    var showStatusModal: bool
    var newStatus: string
    var statusNote: string
    var filter: string
    var page: int

    constructor ()
      ensures selected.None? && !showStatusModal && newStatus == "" && statusNote == ""
      ensures filter == "all" && page == 1
    {
      selected := None;
      showStatusModal := false;
      newStatus := "";
      statusNote := "";
      filter := "all";
      page := 1;
    }

    /** openStatusModal: the order's own status is preselected. */
    method OpenStatusModal(order: OrderRow)
      modifies this
      ensures selected == Some(order) && newStatus == order.orderStatus && showStatusModal
      ensures statusNote == old(statusNote) && filter == old(filter) && page == old(page)
    {
      selected := Some(order);
      newStatus := order.orderStatus;
      showStatusModal := true;
    }

    /** Picking a status in the modal: any value, whatever the current one. */
    method ChooseStatus(status: string)
      modifies this
      ensures newStatus == status
      ensures selected == old(selected) && showStatusModal == old(showStatusModal)
      ensures statusNote == old(statusNote) && filter == old(filter) && page == old(page)
    {
      newStatus := status;
    }

    method WriteNote(note: string)
      modifies this
      ensures statusNote == note
      ensures selected == old(selected) && showStatusModal == old(showStatusModal)
      ensures newStatus == old(newStatus) && filter == old(filter) && page == old(page)
    {
      statusNote := note;
    }

    /** handleUpdateStatus. Without a selected order or a chosen status
        nothing happens. Otherwise the order is updated first; only then,
        and only for a non-empty note, a tracking entry is added. Success
        closes and resets the modal and reloads the list; a failure of
        either request keeps everything as it was and shows the error,
        even though the order update may already have gone through. */
    method HandleUpdateStatus(updateAnswer: Result<(), string>, trackingAnswer: Result<(), string>)
      returns (calls: seq<Call>, notice: Option<Notice>, refetch: bool)
      modifies this
      ensures filter == old(filter) && page == old(page)
      ensures old(selected).None? || old(newStatus) == "" ==>
        calls == [] && notice.None? && !refetch && unchanged(this)
      ensures old(selected).Some? && old(newStatus) != "" ==>
        var id := old(selected).value.id;
        |calls| >= 1 && calls[0] == UpdateOrder(id, old(newStatus)) &&
        (updateAnswer.Failure? ==>
           calls == [UpdateOrder(id, old(newStatus))] &&
           notice == Some(Notice("error", ErrorMessage(updateAnswer.error))) && !refetch && unchanged(this)) &&
        (updateAnswer.Success? && old(statusNote) == "" ==> calls == [UpdateOrder(id, old(newStatus))]) &&
        (updateAnswer.Success? && old(statusNote) != "" ==>
           calls == [UpdateOrder(id, old(newStatus)), AddTracking(id, old(newStatus), old(statusNote))]) &&
        (updateAnswer.Success? && old(statusNote) != "" && trackingAnswer.Failure? ==>
           notice == Some(Notice("error", ErrorMessage(trackingAnswer.error))) && !refetch && unchanged(this)) &&
        (updateAnswer.Success? && (old(statusNote) == "" || trackingAnswer.Success?) ==>
           notice == Some(UpdatedNotice) && refetch &&
           !showStatusModal && selected.None? && newStatus == "" && statusNote == "")
    {
      calls, notice, refetch := [], None, false;
      if selected.None? || newStatus == "" {
        return;
      }
      var id := selected.value.id;
      calls := [UpdateOrder(id, newStatus)];
      if updateAnswer.Failure? {
        notice := Some(Notice("error", ErrorMessage(updateAnswer.error)));
        return;
      }
      if statusNote != "" {
        calls := calls + [AddTracking(id, newStatus, statusNote)];
        if trackingAnswer.Failure? {
          notice := Some(Notice("error", ErrorMessage(trackingAnswer.error)));
          return;
        }
      }
      notice := Some(UpdatedNotice);
      showStatusModal := false;
      selected := None;
      newStatus := "";
      statusNote := "";
      refetch := true;
    }

    /** A filter button: the filter changes and the list goes back to
        page 1; it is fetched again when either changed. */
    method ChooseFilter(f: string) returns (refetch: bool)
      modifies this
      ensures filter == f && page == 1
      ensures selected == old(selected) && showStatusModal == old(showStatusModal)
      ensures newStatus == old(newStatus) && statusNote == old(statusNote)
      ensures refetch <==> f != old(filter) || old(page) != 1
    {
      refetch := f != filter || page != 1;
      filter := f;
      page := 1;
    }
  }
}

=== FILE: admin_products.dfy ===
/** The product editor of src/pages/admin/AdminProducts/AdminProducts.jsx:
    opening the form empty or prefilled, adding uploaded images to its
    list, removing one, and the pager. The form keeps every field as the
    text the inputs hold; a field the product lacks is "", and so is a
    price or stock of 0, which `|| ''` treats as missing. */
module AdminProducts {
  import opened Wrappers
  import opened Notifications
  import Uploads
  import Text

  datatype ProductForm = ProductForm(name: string, sku: string, category: string, description: string,
                                     price: string, unit: string, stock: string, purity: string,
                                     status: string, images: seq<string>)

  /** A product of the list, as far as the form reads it. Price and stock
      are numbers, None when the product has none. */
  datatype ProductRow = ProductRow(id: int, name: string, sku: string, category: string, description: string,
                                   price: Option<int>, unit: string, stock: Option<int>, purity: string,
                                   status: string, images: seq<string>)

  const DefaultUnit := "tonne"
  const DefaultStatus := "active"

  const EmptyForm := ProductForm("", "", "", "", "", DefaultUnit, "", "", DefaultStatus, [])

  /** `n || ''` on a number: a missing number and 0 both leave the box
      empty; any other number shows its decimal text. */
  function NumberText(n: Option<int>): (t: string)
    ensures t == "" <==> n.None? || n.value == 0
    ensures n.Some? && n.value != 0 ==> t == Text.IntToString(n.value)
  {
    if n.None? || n.value == 0 then "" else Text.IntToString(n.value)
  }

  /** The form for editing: each field from the product, with the new-product
      default where it has none. An out-of-stock product opens with an empty
      stock box, and a free one with an empty price box. */
  function Prefilled(p: ProductRow): (f: ProductForm)
    ensures f.name == p.name && f.sku == p.sku && f.category == p.category && f.description == p.description
    ensures f.purity == p.purity && f.images == p.images
    ensures f.price == NumberText(p.price) && f.stock == NumberText(p.stock)
    ensures p.stock == Some(0) ==> f.stock == ""
    ensures p.price == Some(0) ==> f.price == ""
    ensures f.unit == Text.OrElse(p.unit, DefaultUnit) && f.status == Text.OrElse(p.status, DefaultStatus)
  {
    ProductForm(Text.OrElse(p.name, ""), Text.OrElse(p.sku, ""), Text.OrElse(p.category, ""),
                Text.OrElse(p.description, ""), NumberText(p.price), Text.OrElse(p.unit, DefaultUnit),
                NumberText(p.stock), Text.OrElse(p.purity, ""), Text.OrElse(p.status, DefaultStatus), p.images)
  }

  /** A price or stock of 0 opens the same form as a missing one. */
  lemma ZeroReadsAsMissing(p: ProductRow)
    ensures Prefilled(p.(stock := Some(0))) == Prefilled(p.(stock := None))
    ensures Prefilled(p.(price := Some(0))) == Prefilled(p.(price := None))
  {
  }

  /** Editing a product that has none of the fields, or only a price and
      stock of 0, gives exactly the new product form: the two paths share
      their defaults. */
  lemma BareProductGivesEmptyForm(id: int, price: Option<int>, stock: Option<int>)
    requires price.None? || price == Some(0)
    requires stock.None? || stock == Some(0)
    ensures Prefilled(ProductRow(id, "", "", "", "", price, "", stock, "", "", [])) == EmptyForm
  {
  }

  /** `errors.map(err => err.file).join(', ')` */
  function JoinNames(errors: seq<Uploads.FileError>): string
    decreases |errors|
  {
    if errors == [] then ""
    else if |errors| == 1 then errors[0].file
    else errors[0].file + ", " + JoinNames(errors[1..])
  }

  /** `images.filter((_, i) => i !== index)` */
  function WithoutIndex(images: seq<string>, index: int): (r: seq<string>)
    ensures 0 <= index < |images| ==> r == images[..index] + images[index + 1..]
    ensures !(0 <= index < |images|) ==> r == images
  {
    if 0 <= index < |images| then images[..index] + images[index + 1..] else images
  }

  /** Removing position k deletes exactly that image: the ones before keep
      their places and the ones after move up by one. */
  lemma RemoveShiftsTail(images: seq<string>, k: int)
    requires 0 <= k < |images|
    ensures |WithoutIndex(images, k)| == |images| - 1
    ensures forall i :: 0 <= i < k ==> WithoutIndex(images, k)[i] == images[i]
    ensures forall i :: k <= i < |images| - 1 ==> WithoutIndex(images, k)[i] == images[i + 1]
    ensures multiset(WithoutIndex(images, k)) + multiset{images[k]} == multiset(images)
  {
    var r := WithoutIndex(images, k);
    assert images == images[..k] + [images[k]] + images[k + 1..];
  }

  class ProductsAdmin {
    var form: ProductForm
    var editingId: Option<int>
    var showModal: bool
    var page: int
    var totalPages: int

    ghost predicate Valid()
      reads this
    {
      page >= 1
    }

    constructor ()
      ensures Valid() && form == EmptyForm && editingId.None? && !showModal && page == 1 && totalPages == 0
    {
      form := EmptyForm;
      editingId := None;
      showModal := false;
      page := 1;
      totalPages := 0;
    }

    /** handleOpenModal: empty for a new product, prefilled for an edit. */
    method OpenModal(product: Option<ProductRow>)
      requires Valid()
      modifies this
      ensures Valid() && showModal && page == old(page) && totalPages == old(totalPages)
      ensures product.None? ==> form == EmptyForm && editingId.None?
      ensures product.Some? ==> form == Prefilled(product.value) && editingId == Some(product.value.id)
    {
      if product.Some? {
        editingId := Some(product.value.id);
        form := Prefilled(product.value);
      } else {
        editingId := None;
        form := EmptyForm;
      }
      showModal := true;
    }

    method CloseModal()
      requires Valid()
      modifies this
      ensures Valid() && !showModal && editingId.None?
      ensures form == old(form) && page == old(page) && totalPages == old(totalPages)
    {
      showModal := false;
      editingId := None;
    }

    /** handleImageUpload. No files, nothing. One invalid file stops the
        whole batch before anything is sent. Otherwise the files are sent
        one by one, and the addresses of those that went through are added
        after the images already listed, in order, even when others
        failed. */
    method HandleImageUpload(files: seq<Uploads.FileInfo>, outcomes: seq<Result<Uploads.Stored, string>>)
      returns (notices: seq<Notice>, sent: bool)
      requires Valid() && |outcomes| == |files|
      modifies this
      ensures Valid() && editingId == old(editingId) && showModal == old(showModal)
      ensures page == old(page) && totalPages == old(totalPages)
      ensures form.(images := old(form).images) == old(form)
      ensures files == [] ==> notices == [] && !sent && form == old(form)
      ensures files != [] && Uploads.Failures(files, 10) != [] ==>
        notices == [Notice("error", "Invalid files: " + JoinNames(Uploads.Failures(files, 10)))] &&
        !sent && form == old(form)
      ensures files != [] && Uploads.Failures(files, 10) == [] ==>
        sent &&
        form.images == old(form).images + Uploads.Urls(Uploads.UploadedOf(files, outcomes)) &&
        notices ==
          (if Uploads.UploadedOf(files, outcomes) != []
           then [Notice("success", UploadedMessage(|Uploads.UploadedOf(files, outcomes)|))] else []) +
          (if Uploads.ErrorsOf(files, outcomes) != []
           then [Notice("error", "Failed to upload: " + JoinNames(Uploads.ErrorsOf(files, outcomes)))] else [])
    {
      notices, sent := [], false;
      if files == [] {
        return;
      }
      var valid, errors := Uploads.ValidateFiles(files);
      Uploads.NoFailuresIffAllValid(files, 10);
      if !valid {
        notices := [Notice("error", "Invalid files: " + JoinNames(errors))];
        return;
      }
      sent := true;
      var report := Uploads.UploadMultiple(files, outcomes);
      if |report.uploaded| > 0 {
        form := form.(images := form.images + report.urls);
        notices := notices + [Notice("success", UploadedMessage(|report.uploaded|))];
      }
      if |report.errors| > 0 {
        notices := notices + [Notice("error", "Failed to upload: " + JoinNames(report.errors))];
      }
    }

    /** handleRemoveImage */
    method RemoveImage(index: int)
      requires Valid()
      modifies this
      ensures Valid() && editingId == old(editingId) && showModal == old(showModal)
      ensures page == old(page) && totalPages == old(totalPages)
      ensures form == old(form).(images := WithoutIndex(old(form).images, index))
    {
      form := form.(images := WithoutIndex(form.images, index));
    }

    /** The pager's answer from the server. */
    method SetTotalPages(n: int)
      requires Valid()
      modifies this
      ensures Valid() && totalPages == n && page == old(page)
      ensures form == old(form) && editingId == old(editingId) && showModal == old(showModal)
    {
      totalPages := n;
    }

    /** Previous, disabled on page 1 or below. */
    method Previous()
      requires Valid()
      modifies this
      ensures Valid() && totalPages == old(totalPages)
      ensures form == old(form) && editingId == old(editingId) && showModal == old(showModal)
      ensures page == (if PreviousDisabled(old(page)) then old(page) else old(page) - 1)
    {
      if !PreviousDisabled(page) {
        page := page - 1;
      }
    }

    /** Next, disabled on the last page or beyond. */
    method Next()
      requires Valid()
      modifies this
      ensures Valid() && totalPages == old(totalPages)
      ensures form == old(form) && editingId == old(editingId) && showModal == old(showModal)
      ensures page == (if NextDisabled(old(page), totalPages) then old(page) else old(page) + 1)
    {
      if !NextDisabled(page, totalPages) {
        page := page + 1;
      }
    }
  }

  function UploadedMessage(n: int): string {
    Text.IntToString(n) + " image(s) uploaded successfully"
  }

  function PreviousDisabled(page: int): (b: bool)
    ensures page == 1 ==> b
    ensures page >= 2 ==> !b
  {
    page <= 1
  }

  /** The fourth clause is about a pager that is never drawn (see
      ShowPager): with a single page the flag still reads disabled, so a
      hidden pager hides no click that could have gone anywhere. */
  function NextDisabled(page: int, totalPages: int): (b: bool)
    ensures page == totalPages ==> b
    ensures page >= totalPages ==> b
    ensures page < totalPages ==> !b
    ensures totalPages <= 1 && page >= 1 ==> b && (page == 1 ==> PreviousDisabled(page))
  {
    page >= totalPages
  }

  /** The pager is drawn only when there is more than one page: exactly
      when, from the first page, Next has somewhere to go. */
  function ShowPager(totalPages: int): (b: bool)
    ensures b <==> !NextDisabled(1, totalPages)
    ensures !b ==> NextDisabled(1, totalPages) && PreviousDisabled(1)
  {
    totalPages > 1
  }

  /** The buttons keep a page within [1, totalPages]: from inside the
      range, a click that is allowed lands inside it again. */
  lemma PagerStaysInRange(page: int, totalPages: int)
    requires 1 <= page <= totalPages
    ensures !PreviousDisabled(page) ==> 1 <= page - 1 <= totalPages
    ensures !NextDisabled(page, totalPages) ==> 1 <= page + 1 <= totalPages
    ensures PreviousDisabled(page) <==> page == 1
    ensures NextDisabled(page, totalPages) <==> page == totalPages
  {
  }
}

=== FILE: admin_users.dfy ===
/** The user administration rules of src/pages/admin/AdminUsers/AdminUsers.jsx:
    who may change roles, what the status button does, where the buttons
    appear, and the role filter that restarts the list at page 1. */
module AdminUsers {
  import opened Wrappers
  import opened Notifications

  datatype UserRow = UserRow(id: int, role: string, status: string)

  const RoleFilters := ["all", "user", "admin", "super_admin"]
  const OnlySuperAdmins := "Only Super Admins can change user roles"
  const RoleUpdated := "User role updated"
  const RoleFallback := "Failed to update role"

  /** The status shown in the row: the user's status, 'active' when unset. */
  function ShownStatus(status: string): (s: string)
    ensures s != ""
    ensures status != "" ==> s == status
  {
    if status != "" then status else "active"
  }

  /** The status button sends 'inactive' for an active user and 'active'
      for anyone else. */
  function ToggleTarget(status: string): (t: string)
    ensures t == "inactive" <==> status == "active"
    ensures t == "active" <==> status != "active"
  {
    if status == "active" then "inactive" else "active"
  }

  /** The button's caption: Disable exactly when the click sends
      'inactive', Enable exactly when it sends 'active'. */
  function ToggleCaption(status: string): (caption: string)
    ensures caption in {"Disable", "Enable"}
    ensures caption == "Disable" <==> ToggleTarget(status) == "inactive"
    ensures caption == "Enable" <==> ToggleTarget(status) == "active"
  {
    if status == "active" then "Disable" else "Enable"
  }

  /** The button always asks for a change of what is shown, except for a
      user with no status: shown as 'active', offered Enable, and sent
      'active' again. */
  lemma ToggleChangesShownStatus(status: string)
    ensures ToggleTarget(status) != ShownStatus(status) <==> status != ""
    ensures status == "" ==>
      ShownStatus(status) == "active" && ToggleCaption(status) == "Enable" && ToggleTarget(status) == "active"
  {
  }

  /** The status button is hidden on the signed-in admin's own row. */
  function ShowToggle(rowId: int, currentId: Option<int>): (b: bool)
    ensures !b <==> currentId == Some(rowId)
  {
    currentId != Some(rowId)
  }

  /** The role selector: only a super admin, and never for themselves. */
  function ShowRoleSelect(isSuperAdmin: bool, selectedId: int, currentId: Option<int>): (b: bool)
    ensures b ==> isSuperAdmin && ShowToggle(selectedId, currentId)
    ensures isSuperAdmin && ShowToggle(selectedId, currentId) ==> b
  {
    isSuperAdmin && currentId != Some(selectedId)
  }

  /** No one can change their own role or status from this page. */
  lemma NoSelfService(id: int)
    ensures !ShowToggle(id, Some(id))
    ensures forall isSuperAdmin: bool :: !ShowRoleSelect(isSuperAdmin, id, Some(id))
  {
  }

  /** handleRoleChange: refused without a request unless the signed-in user
      is a super admin; otherwise the request's answer decides. `sent` says
      whether the request was made and `reload` whether the list is fetched
      again. */
  function RoleChange(isSuperAdmin: bool, answer: Result<(), string>): (r: (Notice, bool, bool))
    ensures !isSuperAdmin ==> r == (Notice("error", OnlySuperAdmins), false, false)
    ensures isSuperAdmin && answer.Success? ==> r == (Notice("success", RoleUpdated), true, true)
    ensures isSuperAdmin && answer.Failure? ==>
      r == (Notice("error", if answer.error != "" then answer.error else RoleFallback), true, false)
  {
    if !isSuperAdmin then (Notice("error", OnlySuperAdmins), false, false)
    else if answer.Success? then (Notice("success", RoleUpdated), true, true)
    else (Notice("error", if answer.error != "" then answer.error else RoleFallback), true, false)
  }

  /** A request to change a role is only ever sent by a super admin. */
  lemma OnlySuperAdminsSend(isSuperAdmin: bool, answer: Result<(), string>)
    ensures RoleChange(isSuperAdmin, answer).1 ==> isSuperAdmin
  {
  }

  class UsersPage {
    var page: int
    var roleFilter: string
    var searchQuery: string

    constructor ()
      ensures page == 1 && roleFilter == "all" && searchQuery == ""
    {
      page := 1;
      roleFilter := "all";
      searchQuery := "";
    }

    /** A role filter button: the filter changes and the list goes back to
        page 1; the list is fetched again when either of them changed. */
    method ChooseRole(role: string) returns (refetch: bool)
      modifies this
      ensures roleFilter == role && page == 1 && searchQuery == old(searchQuery)
      ensures refetch <==> role != old(roleFilter) || old(page) != 1
    {
      refetch := role != roleFilter || page != 1;
      roleFilter := role;
      page := 1;
    }
  }
}

=== FILE: api.dfy ===
/** The fetch wrapper of src/services/api.js, without the fetch itself: the
    request headers (a bearer token as in section 2.1 of RFC 6750), the GET
    URL with its query string (the application/x-www-form-urlencoded
    serializer of the WHATWG URL Standard, section 5.2), and how a response
    becomes a value or a thrown error, a 401 also ending the session. */
module Api {
  import opened Wrappers
  import opened Storage

  const BaseUrl := "https://vault.impalapay.com/api"
  const ContentType := "Content-Type"
  const Authorization := "Authorization"
  const JsonMediaType := "application/json"
  const BearerPrefix := "Bearer "

  type Headers = map<string, string>

  /** The Authorization value for a token: "Bearer" and one space, then the token. */
  function BearerValue(token: string): (v: string)
    ensures |v| == |BearerPrefix| + |token| && BearerPrefix <= v
  {
    BearerPrefix + token
  }

  /** Reads a token back out of an Authorization value. */
  function BearerToken(value: string): (t: Option<string>)
    ensures t.Some? <==> BearerPrefix <= value
    ensures t.Some? ==> BearerPrefix + t.value == value
  {
    if BearerPrefix <= value then Some(value[|BearerPrefix|..]) else None
  }

  lemma {:induction false} BearerRoundTrip(token: string)
    ensures BearerToken(BearerValue(token)) == Some(token)
  {
    var v := BearerValue(token);
    assert v[|BearerPrefix|..] == token;
  }

  /** The headers of a JSON request: Content-Type defaults to JSON and a
      custom header may replace it; Authorization carries the stored token
      whenever there is one, over any custom value; every other custom
      header is passed through as given. */
  function JsonHeaders(token: string, custom: Headers): (h: Headers)
    ensures ContentType in h
    ensures h[ContentType] == (if ContentType in custom then custom[ContentType] else JsonMediaType)
    ensures token != "" ==> Authorization in h && h[Authorization] == BearerValue(token)
    ensures token == "" ==> (Authorization in h <==> Authorization in custom)
    ensures token == "" && Authorization in custom ==> h[Authorization] == custom[Authorization]
    ensures forall k :: k != ContentType && k != Authorization ==> (k in h <==> k in custom)
    ensures forall k :: k != ContentType && k != Authorization && k in h ==> h[k] == custom[k]
  {
    var h := map[ContentType := JsonMediaType] + custom;
    if token != "" then h[Authorization := BearerValue(token)] else h
  }

  /** getHeaders: start from the JSON default, spread the custom headers
      over it, then set Authorization when a token is stored. */
  method GetHeaders(entries: map<string, Stored>, custom: Headers := map[]) returns (h: Headers)
    ensures h == JsonHeaders(StoredToken(entries), custom)
  {
    h := map[ContentType := JsonMediaType];
    h := h + custom;
    var token := StoredToken(entries);
    if token != "" {
      h := h[Authorization := BearerValue(token)];
    }
  }

  /** upload's headers: only Authorization, and only when a token is stored,
      so that the browser can set the multipart Content-Type. */
  method UploadHeaders(entries: map<string, Stored>) returns (h: Headers)
    ensures ContentType !in h
    ensures h == JsonHeaders(StoredToken(entries), map[]) - {ContentType}
  {
    h := map[];
    var token := StoredToken(entries);
    if token != "" {
      h := h[Authorization := BearerValue(token)];
    }
  }

  /** Without custom headers and with a token, a JSON request carries
      exactly two headers, and the token can be read back from one of them. */
  lemma DefaultHeaders(token: string)
    requires token != ""
    ensures JsonHeaders(token, map[]).Keys == {ContentType, Authorization}
    ensures BearerToken(JsonHeaders(token, map[])[Authorization]) == Some(token)
  {
    BearerRoundTrip(token);
  }

  // ---- Query strings ----

  /** The UTF-8 encoding of one character, as byte values. */
  function Utf8(c: char): (bytes: seq<int>)
    ensures 1 <= |bytes| <= 4
    ensures forall i :: 0 <= i < |bytes| ==> 0 <= bytes[i] < 256
    ensures (c as int < 0x80) <==> |bytes| == 1
    ensures c as int < 0x80 ==> bytes == [c as int]
  {
    var n := c as int;
    if n < 0x80 then [n]
    else if n < 0x800 then [0xC0 + n / 0x40, 0x80 + n % 0x40]
    else if n < 0x1_0000 then [0xE0 + n / 0x1000, 0x80 + (n / 0x40) % 0x40, 0x80 + n % 0x40]
    else [0xF0 + n / 0x4_0000, 0x80 + (n / 0x1000) % 0x40, 0x80 + (n / 0x40) % 0x40, 0x80 + n % 0x40]
  }

  /** The bytes the serializer leaves as they are. */
  predicate Unreserved(b: int) {
    b == 0x2A || b == 0x2D || b == 0x2E || b == 0x5F
    || 0x30 <= b <= 0x39 || 0x41 <= b <= 0x5A || 0x61 <= b <= 0x7A
  }

  function HexDigit(d: int): (c: char)
    requires 0 <= d < 16
    ensures '0' <= c <= '9' || 'A' <= c <= 'F'
  {
    "0123456789ABCDEF"[d]
  }

  /** One byte: unreserved bytes as themselves, space as '+', others as %XX. */
  function EncodeByte(b: int): (s: string)
    requires 0 <= b < 256
    ensures Unreserved(b) ==> s == [b as char]
    ensures b == 0x20 ==> s == "+"
    ensures !Unreserved(b) && b != 0x20 ==> |s| == 3 && s[0] == '%'
  {
    if Unreserved(b) then [b as char]
    else if b == 0x20 then "+"
    else ['%', HexDigit(b / 16), HexDigit(b % 16)]
  }

  function EncodeBytes(bytes: seq<int>): string
    requires forall i :: 0 <= i < |bytes| ==> 0 <= bytes[i] < 256
  {
    if bytes == [] then "" else EncodeByte(bytes[0]) + EncodeBytes(bytes[1..])
  }

  /** A name or value as the serializer writes it. */
  function Encode(s: string): string {
    if s == [] then "" else EncodeBytes(Utf8(s[0])) + Encode(s[1..])
  }

  /** The characters an encoded name or value can contain. */
  predicate Safe(c: char) {
    Unreserved(c as int) || c == '+' || c == '%'
  }

  predicate AllSafe(s: string) {
    forall i :: 0 <= i < |s| ==> Safe(s[i])
  }

  lemma SafeConcat(a: string, b: string)
    requires AllSafe(a) && AllSafe(b)
    ensures AllSafe(a + b)
  {
    forall i | 0 <= i < |a + b| ensures Safe((a + b)[i]) {
      if i >= |a| {
        assert (a + b)[i] == b[i - |a|];
      }
    }
  }

  lemma {:induction false} EncodeBytesSafe(bytes: seq<int>)
    requires forall i :: 0 <= i < |bytes| ==> 0 <= bytes[i] < 256
    ensures AllSafe(EncodeBytes(bytes))
  {
    if bytes != [] {
      EncodeBytesSafe(bytes[1..]);
      SafeConcat(EncodeByte(bytes[0]), EncodeBytes(bytes[1..]));
    }
  }

  /** An encoded name or value holds none of '&', '=' and '?', so the pairs
      of a query string can be told apart again. */
  lemma {:induction false} EncodeSafe(s: string)
    ensures AllSafe(Encode(s))
    ensures '&' !in Encode(s) && '=' !in Encode(s) && '?' !in Encode(s)
  {
    if s != [] {
      EncodeBytesSafe(Utf8(s[0]));
      EncodeSafe(s[1..]);
      SafeConcat(EncodeBytes(Utf8(s[0])), Encode(s[1..]));
    }
  }

  /** `new URLSearchParams(params).toString()`: name=value pairs in order, joined by '&'. */
  function QueryString(params: seq<(string, string)>): (q: string)
    ensures q == "" <==> params == []
  {
    if params == [] then ""
    else
      var pair := Encode(params[0].0) + "=" + Encode(params[0].1);
      assert pair[|Encode(params[0].0)|] == '=';
      if |params| == 1 then pair else pair + "&" + QueryString(params[1..])
  }

  /** get's URL: base and endpoint, then '?' and the query only when the
      query is not empty. */
  function GetUrl(base: string, endpoint: string, params: seq<(string, string)>): (url: string)
    ensures base + endpoint <= url
    ensures params == [] <==> url == base + endpoint
    ensures params != [] ==> url[|base + endpoint|] == '?' && url[|base + endpoint| + 1..] == QueryString(params)
  {
    var query := QueryString(params);
    if query != "" then base + endpoint + "?" + query else base + endpoint
  }

  // ---- Responses ----

  /** A parsed JSON body as far as error shaping reads it: `message` ("" when
      absent) and `errors` (None when absent). */
  datatype Body = Body(message: string, errors: Option<seq<string>>)

  /** The status, and the body when it is JSON (None when `json()` rejects). */
  datatype Response = Response(status: int, body: Option<Body>)

  /** What is thrown for a non-OK response. */
  datatype ApiError = ApiError(status: int, message: string, errors: seq<string>)

  const EmptyObject := Body("", None)
  const DefaultMessage := "An error occurred"
  const SignInPath := "/auth"

  predicate IsOk(status: int) { 200 <= status <= 299 }

  /** The value or the thrown error for a response. */
  function Outcome(response: Response): (r: Result<Body, ApiError>)
    ensures r.Success? <==> IsOk(response.status)
    ensures r.Success? ==> r.value == response.body.GetOr(EmptyObject)
    ensures r.Failure? ==> r.error.status == response.status && r.error.message != ""
    ensures r.Failure? && response.body.Some? && response.body.value.message != "" ==>
      r.error.message == response.body.value.message
    ensures r.Failure? && (response.body.None? || response.body.value.message == "") ==>
      r.error.message == DefaultMessage
    ensures r.Failure? && response.body.Some? && response.body.value.errors.Some? ==>
      r.error.errors == response.body.value.errors.value
    ensures r.Failure? && (response.body.None? || response.body.value.errors.None?) ==> r.error.errors == []
  {
    var data := response.body.GetOr(EmptyObject);
    if IsOk(response.status) then Success(data)
    else Failure(ApiError(response.status,
                          if data.message != "" then data.message else DefaultMessage,
                          data.errors.GetOr([])))
  }

  /** What handleResponse does on a 401 before it throws: both session keys
      go and the browser is sent to the sign-in page. Every request made
      through this client shares it. */
  method DropSession(store: LocalStorage) returns (redirect: Option<string>)
    modifies store
    ensures store.entries == WithoutSession(old(store.entries))
    ensures redirect == Some(SignInPath)
  {
    store.RemoveItem(TokenKey);
    store.RemoveItem(UserKey);
    redirect := Some(SignInPath);
  }

  /** handleResponse: a 401 removes both session keys and sends the browser
      to the sign-in page before the error is thrown; nothing else touches
      storage or navigates. */
  method HandleResponse(store: LocalStorage, response: Response)
    returns (r: Result<Body, ApiError>, redirect: Option<string>)
    modifies store
    ensures r == Outcome(response)
    ensures response.status == 401 ==> store.entries == WithoutSession(old(store.entries)) && redirect == Some(SignInPath)
    ensures response.status != 401 ==> store.entries == old(store.entries) && redirect == None
  {
    var data := response.body.GetOr(EmptyObject);
    redirect := None;
    if !IsOk(response.status) {
      if response.status == 401 {
        redirect := DropSession(store);
      }
      var message := if data.message != "" then data.message else DefaultMessage;
      r := Failure(ApiError(response.status, message, data.errors.GetOr([])));
      return;
    }
    r := Success(data);
  }

  /** After a 401 the client no longer holds a token, so later requests go
      out without Authorization. */
  lemma UnauthorizedDropsBearer(entries: map<string, Stored>, custom: Headers)
    requires Authorization !in custom
    ensures Authorization !in JsonHeaders(StoredToken(WithoutSession(entries)), custom)
  {
  }
}

=== FILE: auth_page.dfy ===
/** The sign-in and sign-up forms of src/pages/public/AuthPage/AuthPage.jsx,
    and the password rule they share with the password forms of
    src/pages/user/ProfilePage/ProfilePage.jsx and
    src/pages/public/ResetPasswordPage/ResetPasswordPage.jsx: the
    confirmation must match before the length is looked at. */
module AuthPage {
  import opened Wrappers
  import opened Notifications
  import opened Storage
  import AuthService
  import Api
  import Session
  import Text

  datatype SignupForm = SignupForm(username: string, email: string, location: string, phone: string,
                                   password: string, confirmPassword: string)

  /** What is sent to the server: the form without the confirmation. */
  datatype SignupRequest = SignupRequest(username: string, email: string, location: string, phone: string,
                                         password: string)

  const MinPasswordLength := 6
  const Mismatch := "Passwords do not match"
  const NewMismatch := "New passwords do not match"
  const TooShort := "Password must be at least 6 characters"
  const ProductsPath := "/products"
  const WelcomeBack := "Welcome back! \U{1F44B}"
  const AccountCreated := "Account created successfully! Please check your email to verify."

  /** The shared password rule: a mismatch is reported first, then a
      password shorter than six characters. `mismatch` is the form's own
      wording for the first error. */
  function CheckPassword(password: string, confirmation: string, mismatch: string): (error: Option<string>)
    ensures error.None? <==> password == confirmation && |password| >= MinPasswordLength
    ensures password != confirmation ==> error == Some(mismatch)
    ensures password == confirmation && |password| < MinPasswordLength ==> error == Some(TooShort)
  {
    if password != confirmation then Some(mismatch)
    else if |password| < MinPasswordLength then Some(TooShort)
    else None
  }

  /** The sign-up and reset forms use the same wording; the profile's
      change-password form says "New passwords", but accepts and refuses the
      same pairs. */
  lemma SameRuleEverywhere(password: string, confirmation: string)
    ensures CheckPassword(password, confirmation, Mismatch).None? <==> CheckPassword(password, confirmation, NewMismatch).None?
    ensures password == confirmation ==> CheckPassword(password, confirmation, Mismatch) == CheckPassword(password, confirmation, NewMismatch)
  {
  }

  function SignupPayload(form: SignupForm): (r: SignupRequest)
    ensures r.username == form.username && r.email == form.email && r.location == form.location
    ensures r.phone == form.phone && r.password == form.password
  {
    SignupRequest(form.username, form.email, form.location, form.phone, form.password)
  }

  /** Sending a valid form cannot leak the confirmation: it equals the
      password that is sent anyway. */
  lemma PayloadDeterminesForm(form: SignupForm)
    requires CheckPassword(form.password, form.confirmPassword, Mismatch).None?
    ensures var r := SignupPayload(form);
      form == SignupForm(r.username, r.email, r.location, r.phone, r.password, r.password)
  {
  }

  /** handleLogin after the answer: success greets and opens the products;
      failure shows the error and stays, unless a 401 is reloading the page
      at the sign-in path. */
  function LoginOutcome(result: Session.AuthResult): (r: (Notice, Option<string>))
    ensures result.Signed? ==> r == (Notice("success", WelcomeBack), Some(ProductsPath))
    ensures result.Refused? ==> r == (Notice("error", result.error), result.reload)
  {
    match result
    case Signed(_) => (Notice("success", WelcomeBack), Some(ProductsPath))
    case Refused(error, reload) => (Notice("error", error), reload)
  }

  method HandleLogin(session: Session.AuthSession, outcome: Result<AuthService.AuthResponse, AuthService.Refusal>)
    returns (notice: Notice, redirect: Option<string>)
    requires session.Valid()
    modifies session, session.storage
    ensures session.Valid()
    ensures outcome.Success? ==>
      session.token == outcome.value.token && session.user == outcome.value.user &&
      notice == Notice("success", WelcomeBack) && redirect == Some(ProductsPath)
    ensures outcome.Failure? ==>
      notice == Notice("error", Text.OrElse(outcome.error.message, "Login failed"))
    ensures outcome.Failure? && !AuthService.Unauthorized(outcome.error) ==>
      redirect.None? &&
      session.token == old(session.token) && session.user == old(session.user) &&
      session.storage.entries == old(session.storage.entries)
    ensures outcome.Failure? && AuthService.Unauthorized(outcome.error) ==>
      redirect == Some(Api.SignInPath) && session.token == "" && session.user == None &&
      session.storage.entries == Storage.WithoutSession(old(session.storage.entries))
  {
    var result := session.Login(outcome);
    notice, redirect := LoginOutcome(result).0, LoginOutcome(result).1;
  }

  /** handleSignup: a form that breaks the password rule is answered with
      the rule's error and nothing is sent; otherwise the payload is sent
      and the answer handled like a login. */
  method HandleSignup(session: Session.AuthSession, form: SignupForm, outcome: Result<AuthService.AuthResponse, AuthService.Refusal>)
    returns (notice: Notice, redirect: Option<string>, request: Option<SignupRequest>)
    requires session.Valid()
    modifies session, session.storage
    ensures session.Valid()
    ensures CheckPassword(form.password, form.confirmPassword, Mismatch).Some? ==>
      notice == Notice("error", CheckPassword(form.password, form.confirmPassword, Mismatch).value) &&
      redirect.None? && request.None? && unchanged(session) && unchanged(session.storage)
    ensures CheckPassword(form.password, form.confirmPassword, Mismatch).None? ==>
      request == Some(SignupPayload(form)) &&
      (outcome.Success? ==> notice == Notice("success", AccountCreated) && redirect == Some(ProductsPath) &&
                            session.token == outcome.value.token && !session.emailVerified) &&
      (outcome.Failure? ==> notice == Notice("error", Text.OrElse(outcome.error.message, "Signup failed"))) &&
      (outcome.Failure? && !AuthService.Unauthorized(outcome.error) ==>
         redirect.None? && session.token == old(session.token) &&
         session.storage.entries == old(session.storage.entries)) &&
      (outcome.Failure? && AuthService.Unauthorized(outcome.error) ==>
         redirect == Some(Api.SignInPath) && session.token == "" && session.user == None &&
         session.storage.entries == Storage.WithoutSession(old(session.storage.entries)))
  {
    var error := CheckPassword(form.password, form.confirmPassword, Mismatch);
    if error.Some? {
      return Notice("error", error.value), None, None;
    }
    request := Some(SignupPayload(form));
    var result := session.Signup(outcome);
    match result {
      case Signed(_) =>
        notice, redirect := Notice("success", AccountCreated), Some(ProductsPath);
      case Refused(message, reload) =>
        notice, redirect := Notice("error", message), reload;
    }
  }
}

=== FILE: auth_service.dfy ===
/** The storage side of the session, src/services/authService.js: which
    localStorage keys a login or signup response writes, what logout removes,
    and how the current user and the authenticated flag are read back. The
    requests themselves are outcomes passed in. */
module AuthService {
  import opened Wrappers
  import opened Storage
  import Api

  /** The body of a login or signup response; a missing token is "". */
  datatype AuthResponse = AuthResponse(token: string, user: Option<User>)

  /** What a failed login or signup request throws: the HTTP status when the
      server answered (None when `fetch` itself rejected) and the message. */
  datatype Refusal = Refusal(status: Option<int>, message: string)

  /** A 401 answer: the request wrapper has already dropped the stored
      session and sent the browser to the sign-in page before throwing. */
  predicate Unauthorized(e: Refusal) { e.status == Some(401) }

  /** Why reading the user back can fail: the stored text is not a JSON user. */
  datatype ReadError = NotJson(text: string)

  /** What `JSON.stringify(data.user)` leaves under the 'user' key: the record,
      or the text "undefined" when the response carries no user. */
  function UserValue(user: Option<User>): Stored {
    match user
    case Some(u) => UserJson(u)
    case None => Text("undefined")
  }

  /** getCurrentUser: null when the key is missing or empty, else the parsed record. */
  function CurrentUser(entries: map<string, Stored>): (r: Result<Option<User>, ReadError>)
    ensures !Truthy(entries, UserKey) ==> r == Success(None)
    ensures r.Success? && r.value.Some? ==> UserKey in entries && entries[UserKey] == UserJson(r.value.value)
  {
    if !Truthy(entries, UserKey) then Success(None)
    else match entries[UserKey]
      case UserJson(u) => Success(Some(u))
      case Text(t) => Failure(NotJson(t))
  }

  /** isAuthenticated: `!!localStorage.getItem('token')`. */
  function IsAuthenticated(entries: map<string, Stored>): (b: bool)
    ensures b <==> TokenKey in entries && entries[TokenKey] != Text("")
    ensures StoredToken(entries) != "" ==> b
  {
    Truthy(entries, TokenKey)
  }

  /** The storage after a login or signup response. Both keys are written
      only when the response has a token; no other key is touched. */
  function Persisted(entries: map<string, Stored>, data: AuthResponse): (r: map<string, Stored>)
    ensures data.token == "" ==> r == entries
    ensures data.token != "" ==> TokenKey in r && r[TokenKey] == Text(data.token) && IsAuthenticated(r)
    ensures data.token != "" ==> UserKey in r && r[UserKey] == UserValue(data.user)
    ensures forall k :: k != TokenKey && k != UserKey ==> (k in r <==> k in entries)
    ensures forall k :: k != TokenKey && k != UserKey && k in r ==> r[k] == entries[k]
  {
    if data.token != "" then entries[TokenKey := Text(data.token)][UserKey := UserValue(data.user)]
    else entries
  }

  /** login and signup share this: the response (or the thrown error) is
      passed through, and a response with a token is persisted first. A 401
      reaches here after `api.post` has removed both keys and set the page
      location to the sign-in path, which is returned as `reload`. */
  method StoreResponse(store: LocalStorage, outcome: Result<AuthResponse, Refusal>)
    returns (r: Result<AuthResponse, Refusal>, reload: Option<string>)
    modifies store
    ensures r == outcome
    ensures outcome.Success? ==> store.entries == Persisted(old(store.entries), outcome.value) && reload.None?
    ensures outcome.Failure? && Unauthorized(outcome.error) ==>
      store.entries == WithoutSession(old(store.entries)) && reload == Some(Api.SignInPath)
    ensures outcome.Failure? && !Unauthorized(outcome.error) ==>
      store.entries == old(store.entries) && reload.None?
  {
    reload := None;
    match outcome {
      case Success(data) =>
        if data.token != "" {
          store.SetItem(TokenKey, Text(data.token));
          store.SetItem(UserKey, UserValue(data.user));
        }
      case Failure(e) =>
        if Unauthorized(e) {
          reload := Api.DropSession(store);
        }
    }
    r := outcome;
  }

  method Login(store: LocalStorage, outcome: Result<AuthResponse, Refusal>)
    returns (r: Result<AuthResponse, Refusal>, reload: Option<string>)
    modifies store
    ensures r == outcome
    ensures outcome.Success? ==> store.entries == Persisted(old(store.entries), outcome.value) && reload.None?
    ensures outcome.Failure? && Unauthorized(outcome.error) ==>
      store.entries == WithoutSession(old(store.entries)) && reload == Some(Api.SignInPath)
    ensures outcome.Failure? && !Unauthorized(outcome.error) ==>
      store.entries == old(store.entries) && reload.None?
  {
    r, reload := StoreResponse(store, outcome);
  }

  method Signup(store: LocalStorage, outcome: Result<AuthResponse, Refusal>)
    returns (r: Result<AuthResponse, Refusal>, reload: Option<string>)
    modifies store
    ensures r == outcome
    ensures outcome.Success? ==> store.entries == Persisted(old(store.entries), outcome.value) && reload.None?
    ensures outcome.Failure? && Unauthorized(outcome.error) ==>
      store.entries == WithoutSession(old(store.entries)) && reload == Some(Api.SignInPath)
    ensures outcome.Failure? && !Unauthorized(outcome.error) ==>
      store.entries == old(store.entries) && reload.None?
  {
    r, reload := StoreResponse(store, outcome);
  }

  method Logout(store: LocalStorage)
    modifies store
    ensures store.entries == WithoutSession(old(store.entries))
  {
    store.RemoveItem(TokenKey);
    store.RemoveItem(UserKey);
  }

  /** A response with a token and a user signs in: the token counts as
      present and the same user is read back. */
  lemma PersistedSignsIn(entries: map<string, Stored>, token: string, u: User)
    requires token != ""
    ensures IsAuthenticated(Persisted(entries, AuthResponse(token, Some(u))))
    ensures CurrentUser(Persisted(entries, AuthResponse(token, Some(u)))) == Success(Some(u))
  {
  }

  /** A response with a token but no user leaves a user key that cannot be read back. */
  lemma PersistedWithoutUser(entries: map<string, Stored>, token: string)
    requires token != ""
    ensures CurrentUser(Persisted(entries, AuthResponse(token, None))).Failure?
  {
  }

  /** After logout nobody is signed in and there is no current user. */
  lemma LogoutSignsOut(entries: map<string, Stored>)
    ensures TokenKey !in WithoutSession(entries) && UserKey !in WithoutSession(entries)
    ensures !IsAuthenticated(WithoutSession(entries))
    ensures CurrentUser(WithoutSession(entries)) == Success(None)
  {
  }
}

=== FILE: cart.dfy ===
/** The shopping-cart store of src/context/CartContext.jsx: an ordered list of
    lines, one per product id. The mutators replace the whole list (find, map,
    filter, spread); the queries fold over it. Prices and quantities are
    integers here (see README). */
module Cart {

  type ProductId = int

  /** The fields of a product that a cart line copies when it is spread in. */
  datatype Product = Product(id: ProductId, name: string, price: int, unit: string)

  datatype CartLine = CartLine(id: ProductId, name: string, price: int, unit: string, quantity: int)

  /** `{ ...product, quantity }` */
  function NewLine(p: Product, quantity: int): CartLine {
    CartLine(p.id, p.name, p.price, p.unit, quantity)
  }

  /** No two lines share a product id. */
  ghost predicate UniqueIds(lines: seq<CartLine>) {
    forall i, j :: 0 <= i < j < |lines| ==> lines[i].id != lines[j].id
  }

  /** A present line has quantity at least 1. */
  ghost predicate PositiveQuantities(lines: seq<CartLine>) {
    forall i :: 0 <= i < |lines| ==> lines[i].quantity >= 1
  }

  // ---------------------------------------------------------------- queries

  /** isInCart: `cartItems.some(item => item.id === productId)` */
  predicate IsInCart(lines: seq<CartLine>, id: ProductId) {
    exists i :: 0 <= i < |lines| && lines[i].id == id
  }

  /** With every line holding at least one unit, isInCart agrees with
      getItemQuantity: a product is in the cart exactly when its quantity
      there is positive. */
  lemma InCartIffPositiveQuantity(lines: seq<CartLine>, id: ProductId)
    requires PositiveQuantities(lines)
    ensures IsInCart(lines, id) <==> ItemQuantity(lines, id) > 0
  {
  }

  /** The position Array.prototype.find stops at, or -1. */
  function FindIndex(lines: seq<CartLine>, id: ProductId): (k: int)
    ensures -1 <= k < |lines|
    ensures k == -1 <==> !IsInCart(lines, id)
    ensures k >= 0 ==> lines[k].id == id && forall j :: 0 <= j < k ==> lines[j].id != id
  {
    if lines == [] then -1
    else if lines[0].id == id then 0
    else
      var k := FindIndex(lines[1..], id);
      if k == -1 then -1 else k + 1
  }

  /** getItemQuantity: the quantity of the line found, or 0 when there is none. */
  function ItemQuantity(lines: seq<CartLine>, id: ProductId): (q: int)
    ensures !IsInCart(lines, id) ==> q == 0
    ensures UniqueIds(lines) ==>
      forall i :: 0 <= i < |lines| && lines[i].id == id ==> q == lines[i].quantity
  {
    var k := FindIndex(lines, id);
    if k < 0 then 0 else lines[k].quantity
  }

  /** The left fold `reduce((total, item) => total + weight(item), 0)`. */
  function Fold(lines: seq<CartLine>, weight: CartLine -> int): int {
    if lines == [] then 0 else Fold(lines[..|lines| - 1], weight) + weight(lines[|lines| - 1])
  }

  function Quantity(line: CartLine): int { line.quantity }

  function Amount(line: CartLine): int { line.price * line.quantity }

  /** getCartCount: 0 for an empty cart, and at least one per line when
      every line holds at least one unit. */
  function CartCount(lines: seq<CartLine>): (n: int)
    ensures lines == [] ==> n == 0
    ensures PositiveQuantities(lines) ==> n >= |lines|
  {
    CountCoversLines(lines);
    Fold(lines, Quantity)
  }

  lemma {:induction false} CountCoversLines(lines: seq<CartLine>)
    ensures PositiveQuantities(lines) ==> Fold(lines, Quantity) >= |lines|
  {
    if lines != [] {
      var init := lines[..|lines| - 1];
      CountCoversLines(init);
      assert forall i :: 0 <= i < |init| ==> init[i] == lines[i];
    }
  }

  /** getSubtotal: 0 for an empty cart, and never negative when no price
      is negative and every line holds at least one unit. */
  function Subtotal(lines: seq<CartLine>): (s: int)
    ensures lines == [] ==> s == 0
    ensures PositiveQuantities(lines) && NonNegativePrices(lines) ==> s >= 0
  {
    SubtotalNonNegative(lines);
    Fold(lines, Amount)
  }

  ghost predicate NonNegativePrices(lines: seq<CartLine>) {
    forall i :: 0 <= i < |lines| ==> lines[i].price >= 0
  }

  lemma {:induction false} SubtotalNonNegative(lines: seq<CartLine>)
    ensures PositiveQuantities(lines) && NonNegativePrices(lines) ==> Fold(lines, Amount) >= 0
  {
    if lines != [] {
      var init := lines[..|lines| - 1];
      SubtotalNonNegative(init);
      assert forall i :: 0 <= i < |init| ==> init[i] == lines[i];
      var last := lines[|lines| - 1];
      if PositiveQuantities(lines) && NonNegativePrices(lines) {
        assert last.price * last.quantity >= 0;
      }
    }
  }

  /** getShipping and getTax: both switched off. */
  function Shipping(): int { 0 }
  function Tax(): int { 0 }

  /** getTotal: the subtotal alone. */
  function CartTotal(lines: seq<CartLine>): (t: int)
    ensures t == Subtotal(lines) + Shipping() + Tax()
  {
    Subtotal(lines)
  }

  // ---------------------------------------------------------------- updates

  /** The list addToCart installs. */
  function AddedLines(lines: seq<CartLine>, p: Product, quantity: int): (r: seq<CartLine>)
    ensures IsInCart(r, p.id)
    ensures IsInCart(lines, p.id) ==> |r| == |lines|
    ensures !IsInCart(lines, p.id) ==> |r| == |lines| + 1 && r[..|lines|] == lines && r[|lines|] == NewLine(p, quantity)
    ensures forall i :: 0 <= i < |lines| ==> r[i].id == lines[i].id
  {
    if IsInCart(lines, p.id) then
      var r := seq(|lines|, i requires 0 <= i < |lines| =>
        if lines[i].id == p.id then lines[i].(quantity := lines[i].quantity + quantity) else lines[i]);
      assert r[FindIndex(lines, p.id)].id == p.id;
      r
    else
      var r := lines + [NewLine(p, quantity)];
      assert r[|lines|].id == p.id;
      r
  }

  /** The list removeFromCart installs: `filter(item => item.id !== productId)`. */
  function RemovedLines(lines: seq<CartLine>, id: ProductId): (r: seq<CartLine>)
    ensures !IsInCart(r, id)
    ensures |r| <= |lines|
    ensures forall x :: x in r <==> x in lines && x.id != id
    ensures !IsInCart(lines, id) ==> r == lines
  {
    if lines == [] then []
    else (if lines[0].id == id then [] else [lines[0]]) + RemovedLines(lines[1..], id)
  }

  /** The list updateQuantity installs: below 1 it removes, otherwise it sets. */
  function UpdatedLines(lines: seq<CartLine>, id: ProductId, quantity: int): (r: seq<CartLine>)
    ensures quantity >= 1 ==> |r| == |lines| && forall i :: 0 <= i < |lines| ==> r[i].id == lines[i].id
    ensures quantity >= 1 ==> forall i :: 0 <= i < |lines| && lines[i].id != id ==> r[i] == lines[i]
    ensures quantity >= 1 ==> forall i :: 0 <= i < |lines| && lines[i].id == id ==> r[i] == lines[i].(quantity := quantity)
  {
    if quantity < 1 then RemovedLines(lines, id)
    else
      seq(|lines|, i requires 0 <= i < |lines| =>
        if lines[i].id == id then lines[i].(quantity := quantity) else lines[i])
  }

  // ---------------------------------------------------------------- the store

  class CartStore {
    var items: seq<CartLine>

    ghost predicate Valid()
      reads this
    {
      UniqueIds(items)
    }

    /** The state after mounting with nothing saved. */
    constructor ()
      ensures Valid() && items == []
    {
      items := [];
    }

    method AddToCart(product: Product, quantity: int := 1)
      requires Valid()
      modifies this
      ensures Valid()
      ensures items == AddedLines(old(items), product, quantity)
    {
      AddKeepsUnique(items, product, quantity);
      items := AddedLines(items, product, quantity);
    }

    method RemoveFromCart(id: ProductId)
      requires Valid()
      modifies this
      ensures Valid()
      ensures items == RemovedLines(old(items), id)
    {
      RemovedKeepsUnique(items, id);
      items := RemovedLines(items, id);
    }

    method UpdateQuantity(id: ProductId, quantity: int)
      requires Valid()
      modifies this
      ensures Valid()
      ensures items == UpdatedLines(old(items), id, quantity)
      ensures quantity < 1 ==> items == RemovedLines(old(items), id)
    {
      if quantity < 1 {
        RemoveFromCart(id);
        return;
      }
      items := UpdatedLines(items, id, quantity);
    }

    method ClearCart()
      modifies this
      ensures Valid() && items == []
    {
      items := [];
    }
  }

  // ---------------------------------------------------------------- lemmas

  lemma {:induction false} FoldAppend(a: seq<CartLine>, b: seq<CartLine>, w: CartLine -> int)
    ensures Fold(a + b, w) == Fold(a, w) + Fold(b, w)
    decreases |b|
  {
    if b == [] {
      assert a + b == a;
    } else {
      var n := |b| - 1;
      assert (a + b)[..|a + b| - 1] == a + b[..n];
      FoldAppend(a, b[..n], w);
    }
  }

  /** Replacing one line changes the fold by the difference of the two weights. */
  lemma FoldReplace(lines: seq<CartLine>, k: int, x: CartLine, w: CartLine -> int)
    requires 0 <= k < |lines|
    ensures Fold(lines[k := x], w) == Fold(lines, w) - w(lines[k]) + w(x)
  {
    assert lines == lines[..k] + [lines[k]] + lines[k + 1..];
    assert lines[k := x] == lines[..k] + [x] + lines[k + 1..];
    FoldAppend(lines[..k] + [lines[k]], lines[k + 1..], w);
    FoldAppend(lines[..k], [lines[k]], w);
    FoldAppend(lines[..k] + [x], lines[k + 1..], w);
    FoldAppend(lines[..k], [x], w);
    assert Fold([lines[k]], w) == w(lines[k]) by { assert [lines[k]][..0] == []; }
    assert Fold([x], w) == w(x) by { assert [x][..0] == []; }
  }

  /** Removing a product keeps the line ids unique. */
  lemma {:induction false} RemovedKeepsUnique(lines: seq<CartLine>, id: ProductId)
    ensures UniqueIds(lines) ==> UniqueIds(RemovedLines(lines, id))
  {
    if lines != [] {
      RemovedKeepsUnique(lines[1..], id);
      var rest := RemovedLines(lines[1..], id);
      if UniqueIds(lines) {
        assert UniqueIds(lines[1..]) by {
          forall i, j | 0 <= i < j < |lines[1..]| ensures lines[1..][i].id != lines[1..][j].id {
            assert lines[1..][i] == lines[i + 1] && lines[1..][j] == lines[j + 1];
          }
        }
        forall x | x in rest ensures x.id != lines[0].id {
          assert x in lines[1..];
          var j :| 0 <= j < |lines[1..]| && lines[1..][j] == x;
          assert lines[j + 1] == x;
        }
      }
    }
  }

  /** With unique ids, removing the id of line k cuts exactly that line out. */
  lemma RemoveCutsOneLine(lines: seq<CartLine>, id: ProductId, k: int)
    requires UniqueIds(lines) && 0 <= k < |lines| && lines[k].id == id
    ensures RemovedLines(lines, id) == lines[..k] + lines[k + 1..]
  {
    OnlyLineWithId(lines, k);
    RemoveCutsSoleLine(lines, id, k);
  }

  /** With unique ids, line k is the only line carrying its id. */
  lemma OnlyLineWithId(lines: seq<CartLine>, k: int)
    requires UniqueIds(lines) && 0 <= k < |lines|
    ensures forall j :: 0 <= j < |lines| && j != k ==> lines[j].id != lines[k].id
  {
    forall j | 0 <= j < |lines| && j != k ensures lines[j].id != lines[k].id {
      if j < k { assert lines[j].id != lines[k].id; } else { assert lines[k].id != lines[j].id; }
    }
  }

  /** Removing an id held by line k alone cuts out exactly that line. */
  lemma RemoveCutsSoleLine(lines: seq<CartLine>, id: ProductId, k: int)
    requires 0 <= k < |lines| && lines[k].id == id
    requires forall j :: 0 <= j < |lines| && j != k ==> lines[j].id != id
    ensures RemovedLines(lines, id) == lines[..k] + lines[k + 1..]
  {
    var x, before, after := lines[k], lines[..k], lines[k + 1..];
    assert !IsInCart(before, id) by {
      forall j | 0 <= j < |before| ensures before[j].id != id {
        assert before[j] == lines[j];
      }
    }
    assert !IsInCart(after, id) by {
      forall j | 0 <= j < |after| ensures after[j].id != id {
        assert after[j] == lines[k + 1 + j];
      }
    }
    assert lines == before + ([x] + after);
    calc {
      RemovedLines(lines, id);
      RemovedLines(before + ([x] + after), id);
      { RemovedLinesConcat(before, [x] + after, id); }
      before + RemovedLines([x] + after, id);
      { RemovedLinesConcat([x], after, id); }
      before + (RemovedLines([x], id) + after);
      { assert [x][1..] == []; }
      before + after;
    }
  }

  /** Filtering distributes over concatenation. */
  lemma {:induction false} RemovedLinesConcat(a: seq<CartLine>, b: seq<CartLine>, id: ProductId)
    ensures RemovedLines(a + b, id) == RemovedLines(a, id) + RemovedLines(b, id)
  {
    if a == [] {
      assert a + b == b;
    } else {
      var x := a[0];
      assert (a + b)[0] == x && (a + b)[1..] == a[1..] + b;
      assert RemovedLines(a + b, id) == (if x.id == id then [] else [x]) + RemovedLines(a[1..] + b, id);
      RemovedLinesConcat(a[1..], b, id);
    }
  }

  /** addToCart never creates a second line for a product. */
  lemma AddKeepsUnique(lines: seq<CartLine>, p: Product, quantity: int)
    requires UniqueIds(lines)
    ensures UniqueIds(AddedLines(lines, p, quantity))
  {
    var r := AddedLines(lines, p, quantity);
    forall i, j | 0 <= i < j < |r| ensures r[i].id != r[j].id {
      if j == |lines| {
        assert r[i].id == lines[i].id;
      }
    }
  }

  /** Adding an existing id rewrites exactly the line find stops at. */
  lemma AddedIsUpdateAt(lines: seq<CartLine>, p: Product, quantity: int, k: int)
    requires UniqueIds(lines) && IsInCart(lines, p.id) && k == FindIndex(lines, p.id)
    ensures AddedLines(lines, p, quantity) == lines[k := lines[k].(quantity := lines[k].quantity + quantity)]
  {
    OnlyLineWithId(lines, k);
    AddedAtSoleLine(lines, p, quantity, k);
  }

  /** Adding an id held by line k alone rewrites line k and nothing else. */
  lemma AddedAtSoleLine(lines: seq<CartLine>, p: Product, quantity: int, k: int)
    requires 0 <= k < |lines| && lines[k].id == p.id
    requires forall j :: 0 <= j < |lines| && j != k ==> lines[j].id != lines[k].id
    ensures AddedLines(lines, p, quantity) == lines[k := lines[k].(quantity := lines[k].quantity + quantity)]
  {
    assert IsInCart(lines, p.id);
    var r := AddedLines(lines, p, quantity);
    var u := lines[k := lines[k].(quantity := lines[k].quantity + quantity)];
    forall i | 0 <= i < |lines| ensures r[i] == u[i] {
      if i != k {
        assert lines[i].id != p.id;
      }
    }
  }

  /** Merge-on-add: the count grows by the quantity added, with or without an existing line. */
  lemma AddGrowsCount(lines: seq<CartLine>, p: Product, quantity: int)
    requires UniqueIds(lines)
    ensures CartCount(AddedLines(lines, p, quantity)) == CartCount(lines) + quantity
    ensures ItemQuantity(AddedLines(lines, p, quantity), p.id) == ItemQuantity(lines, p.id) + quantity
  {
    var r := AddedLines(lines, p, quantity);
    if IsInCart(lines, p.id) {
      var k := FindIndex(lines, p.id);
      AddedIsUpdateAt(lines, p, quantity, k);
      FoldReplace(lines, k, lines[k].(quantity := lines[k].quantity + quantity), Quantity);
      assert r[k].id == p.id;
    } else {
      FoldAppend(lines, [NewLine(p, quantity)], Quantity);
      assert Fold([NewLine(p, quantity)], Quantity) == quantity by {
        assert [NewLine(p, quantity)][..0] == [];
      }
      assert r[|lines|].id == p.id;
    }
  }

  /** The subtotal grows by the price of the line that absorbs the quantity:
      an existing line keeps its own stored price, a new line takes the product's. */
  lemma AddGrowsSubtotal(lines: seq<CartLine>, p: Product, quantity: int)
    requires UniqueIds(lines)
    ensures IsInCart(lines, p.id) ==>
      Subtotal(AddedLines(lines, p, quantity)) == Subtotal(lines) + lines[FindIndex(lines, p.id)].price * quantity
    ensures !IsInCart(lines, p.id) ==>
      Subtotal(AddedLines(lines, p, quantity)) == Subtotal(lines) + p.price * quantity
  {
    if IsInCart(lines, p.id) {
      var k := FindIndex(lines, p.id);
      AddedIsUpdateAt(lines, p, quantity, k);
      MergeGrowsSubtotal(lines, k, quantity);
    } else {
      var x := NewLine(p, quantity);
      FoldAppend(lines, [x], Amount);
      assert [x][..0] == [];
      assert Fold([x], Amount) == Amount(x);
    }
  }

  /** Raising the quantity of line k raises the subtotal by that line's price times the increase. */
  lemma MergeGrowsSubtotal(lines: seq<CartLine>, k: int, quantity: int)
    requires 0 <= k < |lines|
    ensures Subtotal(lines[k := lines[k].(quantity := lines[k].quantity + quantity)]) == Subtotal(lines) + lines[k].price * quantity
  {
    var price, before := lines[k].price, lines[k].quantity;
    var x := lines[k].(quantity := before + quantity);
    FoldReplace(lines, k, x, Amount);
    assert Amount(x) - Amount(lines[k]) == price * quantity by {
      assert Amount(x) == price * (before + quantity);
      assert Amount(lines[k]) == price * before;
      Distribute(price, before, quantity);
    }
  }

  lemma Distribute(a: int, b: int, c: int)
    ensures a * (b + c) == a * b + a * c
  {
  }

  /** Adding a quantity of at least 1 keeps every line's quantity at least 1. */
  lemma AddKeepsPositive(lines: seq<CartLine>, p: Product, quantity: int)
    requires PositiveQuantities(lines) && quantity >= 1
    ensures PositiveQuantities(AddedLines(lines, p, quantity))
  {
  }

  /** Removing takes away exactly that product's quantity and leaves every other product alone. */
  lemma RemoveShrinksCount(lines: seq<CartLine>, id: ProductId)
    requires UniqueIds(lines)
    ensures CartCount(RemovedLines(lines, id)) == CartCount(lines) - ItemQuantity(lines, id)
    ensures ItemQuantity(RemovedLines(lines, id), id) == 0
  {
    if IsInCart(lines, id) {
      var k := FindIndex(lines, id);
      var before, x, after := lines[..k], lines[k], lines[k + 1..];
      RemoveCutsOneLine(lines, id, k);
      assert lines == (before + [x]) + after;
      FoldAppend(before + [x], after, Quantity);
      FoldAppend(before, [x], Quantity);
      FoldAppend(before, after, Quantity);
      assert Fold([x], Quantity) == x.quantity by { assert [x][..0] == []; }
      assert ItemQuantity(lines, id) == x.quantity;
    }
  }

  /** updateQuantity below 1 is removeFromCart; otherwise the product's quantity
      becomes exactly the new value (if it is in the cart) and the count moves by the difference. */
  lemma UpdateSetsQuantity(lines: seq<CartLine>, id: ProductId, quantity: int)
    requires UniqueIds(lines)
    ensures quantity < 1 ==> UpdatedLines(lines, id, quantity) == RemovedLines(lines, id)
    ensures !IsInCart(lines, id) ==> UpdatedLines(lines, id, quantity) == lines
    ensures IsInCart(lines, id) && quantity >= 1 ==>
      ItemQuantity(UpdatedLines(lines, id, quantity), id) == quantity &&
      CartCount(UpdatedLines(lines, id, quantity)) == CartCount(lines) - ItemQuantity(lines, id) + quantity
  {
    var r := UpdatedLines(lines, id, quantity);
    if !IsInCart(lines, id) && quantity >= 1 {
      assert r == lines;
    }
    if IsInCart(lines, id) && quantity >= 1 {
      var k := FindIndex(lines, id);
      assert r == lines[k := lines[k].(quantity := quantity)];
      FoldReplace(lines, k, lines[k].(quantity := quantity), Quantity);
      assert UniqueIds(r);
      assert r[k].id == id;
    }
  }

  /** Every mutator keeps the invariant "a present line has quantity at least 1"
      when adds use a positive quantity. */
  lemma {:induction false} UpdateAndRemoveKeepPositive(lines: seq<CartLine>, id: ProductId, quantity: int)
    requires PositiveQuantities(lines)
    ensures PositiveQuantities(RemovedLines(lines, id))
    ensures PositiveQuantities(UpdatedLines(lines, id, quantity))
  {
    var r := RemovedLines(lines, id);
    forall i | 0 <= i < |r| ensures r[i].quantity >= 1 {
      assert r[i] in r;
      var j :| 0 <= j < |lines| && lines[j] == r[i];
    }
  }

  /** A run of addToCart calls for one product: the cart ends with the sum of the
      quantities for it, in a single line. */
  function AddAll(lines: seq<CartLine>, p: Product, quantities: seq<int>): seq<CartLine>
    decreases |quantities|
  {
    if quantities == [] then lines
    else AddAll(AddedLines(lines, p, quantities[0]), p, quantities[1..])
  }

  function Sum(xs: seq<int>): int {
    if xs == [] then 0 else xs[0] + Sum(xs[1..])
  }

  lemma {:induction false} AddAllMerges(lines: seq<CartLine>, p: Product, quantities: seq<int>)
    requires UniqueIds(lines)
    ensures UniqueIds(AddAll(lines, p, quantities))
    ensures ItemQuantity(AddAll(lines, p, quantities), p.id) == ItemQuantity(lines, p.id) + Sum(quantities)
    decreases |quantities|
  {
    if quantities != [] {
      AddGrowsCount(lines, p, quantities[0]);
      AddKeepsUnique(lines, p, quantities[0]);
      AddAllMerges(AddedLines(lines, p, quantities[0]), p, quantities[1..]);
    }
  }

  /** ...and the run adds at most one line: only the first add can append. */
  lemma AddAllAddsAtMostOneLine(lines: seq<CartLine>, p: Product, quantities: seq<int>)
    ensures |AddAll(lines, p, quantities)| <= |lines| + 1
  {
    if IsInCart(lines, p.id) {
      AddAllKeepsLength(lines, p, quantities);
    } else if quantities != [] {
      AddAllKeepsLength(AddedLines(lines, p, quantities[0]), p, quantities[1..]);
    }
  }

  lemma {:induction false} AddAllKeepsLength(lines: seq<CartLine>, p: Product, quantities: seq<int>)
    requires IsInCart(lines, p.id)
    ensures |AddAll(lines, p, quantities)| == |lines|
    decreases |quantities|
  {
    if quantities != [] {
      AddAllKeepsLength(AddedLines(lines, p, quantities[0]), p, quantities[1..]);
    }
  }
}

=== FILE: catalog.dfy ===
/** getCategories and getBrands of src/services/productService.js: the
    distinct non-empty categories (or brands) of a product list, in the
    order they first appear, which is the iteration order of a JavaScript
    Set; categories get an 'All' entry in front. */
module Catalog {

  /** The fields the filters read; a missing or empty field is "". */
  datatype Listing = Listing(id: int, category: string, brand: string)

  const AllCategories := "All"

  predicate NoDuplicates(s: seq<string>) {
    forall i, j :: 0 <= i < j < |s| ==> s[i] != s[j]
  }

  /** The first position of `x` in `s`. */
  function FirstIndex(s: seq<string>, x: string): (k: nat)
    requires x in s
    ensures k < |s| && s[k] == x && x !in s[..k]
  {
    if s[0] == x then 0
    else
      var j := FirstIndex(s[1..], x);
      assert s[..1 + j] == [s[0]] + s[1..][..j];
      1 + j
  }

  /** `Array.from(new Set(s))`: each value once, at its first appearance. */
  function Distinct(s: seq<string>): (r: seq<string>)
    ensures NoDuplicates(r)
    ensures forall x :: x in r <==> x in s
    decreases |s|
  {
    if s == [] then []
    else
      var d := Distinct(s[..|s| - 1]);
      var last := s[|s| - 1];
      assert s == s[..|s| - 1] + [last];
      if last in d then d else d + [last]
  }

  /** `.filter(Boolean)` on the picked field: the non-empty values, in order. */
  function NonEmpty(s: seq<string>): (r: seq<string>)
    ensures forall x :: x in r <==> x in s && x != ""
    ensures |r| <= |s|
  {
    if s == [] then [] else (if s[0] != "" then [s[0]] else []) + NonEmpty(s[1..])
  }

  function Categories(products: seq<Listing>): seq<string> {
    seq(|products|, i requires 0 <= i < |products| => products[i].category)
  }

  function Brands(products: seq<Listing>): seq<string> {
    seq(|products|, i requires 0 <= i < |products| => products[i].brand)
  }

  /** getCategories: 'All', then each non-empty category once. */
  function GetCategories(products: seq<Listing>): (r: seq<string>)
    ensures |r| >= 1 && r[0] == AllCategories
    ensures NoDuplicates(r[1..])
    ensures forall c :: c in r[1..] <==> c != "" && exists p :: p in products && p.category == c
  {
    var cats := Categories(products);
    assert forall c :: c in cats <==> exists p :: p in products && p.category == c by {
      forall c | c in cats ensures exists p :: p in products && p.category == c {
        var i :| 0 <= i < |cats| && cats[i] == c;
        assert products[i] in products;
      }
      forall c | (exists p :: p in products && p.category == c) ensures c in cats {
        var p :| p in products && p.category == c;
        var i :| 0 <= i < |products| && products[i] == p;
        assert cats[i] == c;
      }
    }
    var r := [AllCategories] + Distinct(NonEmpty(cats));
    assert r[1..] == Distinct(NonEmpty(cats));
    r
  }

  /** getBrands: each non-empty brand once, with no 'All' entry. */
  function GetBrands(products: seq<Listing>): (r: seq<string>)
    ensures NoDuplicates(r)
    ensures forall b :: b in r <==> b != "" && exists p :: p in products && p.brand == b
  {
    var brands := Brands(products);
    assert forall b :: b in brands <==> exists p :: p in products && p.brand == b by {
      forall b | b in brands ensures exists p :: p in products && p.brand == b {
        var i :| 0 <= i < |brands| && brands[i] == b;
        assert products[i] in products;
      }
      forall b | (exists p :: p in products && p.brand == b) ensures b in brands {
        var p :| p in products && p.brand == b;
        var i :| 0 <= i < |products| && products[i] == p;
        assert brands[i] == b;
      }
    }
    Distinct(NonEmpty(brands))
  }

  /** Distinct keeps first-appearance order: a value listed earlier first
      appeared earlier. */
  lemma {:induction false} DistinctKeepsFirstAppearanceOrder(s: seq<string>)
    ensures forall i, j :: 0 <= i < j < |Distinct(s)| ==>
      FirstIndex(s, Distinct(s)[i]) < FirstIndex(s, Distinct(s)[j])
    decreases |s|
  {
    if s != [] {
      var init := s[..|s| - 1];
      var last := s[|s| - 1];
      var d := Distinct(init);
      DistinctKeepsFirstAppearanceOrder(init);
      assert s == init + [last];
      forall x | x in init ensures FirstIndex(s, x) == FirstIndex(init, x) {
        FirstIndexOfPrefix(init, [last], x);
      }
      var r := Distinct(s);
      forall i, j | 0 <= i < j < |r| ensures FirstIndex(s, r[i]) < FirstIndex(s, r[j]) {
        if j < |d| {
          assert r[i] == d[i] && r[j] == d[j];
        } else {
          assert r[j] == last && last !in d && last !in init;
          assert r[i] == d[i] && d[i] in init;
          assert FirstIndex(s, last) == |s| - 1 by {
            assert s[..|s| - 1] == init;
          }
        }
      }
    }
  }

  lemma FirstIndexOfPrefix(a: seq<string>, b: seq<string>, x: string)
    requires x in a
    ensures FirstIndex(a + b, x) == FirstIndex(a, x)
  {
    var k := FirstIndex(a, x);
    var ab := a + b;
    assert ab[..k] == a[..k];
    FirstIndexIs(ab, x, k);
  }

  lemma {:induction false} FirstIndexIs(s: seq<string>, x: string, k: nat)
    requires k < |s| && s[k] == x && x !in s[..k]
    ensures FirstIndex(s, x) == k
  {
    if k > 0 {
      assert s[0] in s[..k];
      assert s[1..][..k - 1] == s[1..k];
      assert forall y :: y in s[1..k] ==> y in s[..k];
      FirstIndexIs(s[1..], x, k - 1);
    }
  }

  /** Dropping empty values keeps the relative order of first appearances. */
  lemma {:induction false} NonEmptyKeepsOrder(s: seq<string>, x: string, y: string)
    requires x in NonEmpty(s) && y in NonEmpty(s)
    ensures FirstIndex(NonEmpty(s), x) < FirstIndex(NonEmpty(s), y) <==> FirstIndex(s, x) < FirstIndex(s, y)
  {
    var ne := NonEmpty(s);
    var rest := NonEmpty(s[1..]);
    assert x != "" && y != "";
    if s[0] == "" {
      assert ne == rest;
      FirstIndexOfTail(s, x);
      FirstIndexOfTail(s, y);
      NonEmptyKeepsOrder(s[1..], x, y);
    } else if s[0] == x {
      assert ne[0] == x;
      assert FirstIndex(ne, x) == 0 && FirstIndex(s, x) == 0;
    } else if s[0] == y {
      assert ne[0] == y;
      assert FirstIndex(ne, y) == 0 && FirstIndex(s, y) == 0;
    } else {
      assert ne == [s[0]] + rest;
      assert ne[1..] == rest;
      FirstIndexOfTail(s, x);
      FirstIndexOfTail(s, y);
      FirstIndexOfTail(ne, x);
      FirstIndexOfTail(ne, y);
      NonEmptyKeepsOrder(s[1..], x, y);
    }
  }

  lemma FirstIndexOfTail(s: seq<string>, x: string)
    requires x in s && s[0] != x
    ensures x in s[1..] && FirstIndex(s, x) == 1 + FirstIndex(s[1..], x)
  {
  }

  /** After 'All', categories are listed in the order of the first product
      carrying each one. */
  lemma CategoriesInFirstAppearanceOrder(products: seq<Listing>)
    ensures var r := GetCategories(products);
      forall i, j :: 1 <= i < j < |r| ==>
        r[i] in Categories(products) && r[j] in Categories(products) &&
        FirstIndex(Categories(products), r[i]) < FirstIndex(Categories(products), r[j])
  {
    var cats := Categories(products);
    var ne := NonEmpty(cats);
    var d := Distinct(ne);
    var r := GetCategories(products);
    assert r[1..] == d;
    DistinctKeepsFirstAppearanceOrder(ne);
    forall i, j | 1 <= i < j < |r|
      ensures r[i] in cats && r[j] in cats && FirstIndex(cats, r[i]) < FirstIndex(cats, r[j])
    {
      assert r[i] == d[i - 1] && r[j] == d[j - 1];
      NonEmptyKeepsOrder(cats, r[i], r[j]);
    }
  }

  /** Brands are listed in the order of the first product carrying each one. */
  lemma BrandsInFirstAppearanceOrder(products: seq<Listing>)
    ensures var r := GetBrands(products);
      forall i, j :: 0 <= i < j < |r| ==>
        r[i] in Brands(products) && r[j] in Brands(products) &&
        FirstIndex(Brands(products), r[i]) < FirstIndex(Brands(products), r[j])
  {
    var brands := Brands(products);
    var r := GetBrands(products);
    DistinctKeepsFirstAppearanceOrder(NonEmpty(brands));
    forall i, j | 0 <= i < j < |r|
      ensures r[i] in brands && r[j] in brands && FirstIndex(brands, r[i]) < FirstIndex(brands, r[j])
    {
      NonEmptyKeepsOrder(brands, r[i], r[j]);
    }
  }
}

=== FILE: checkout.dfy ===
/** handleCheckout of src/pages/user/CartPage/CartPage.jsx: the cart becomes
    an order payload, the order is created, and only a created order with an
    id empties the cart and opens its payment page. The create call's answer
    is a parameter; the notices go to the notification queue. */
module Checkout {
  import opened Wrappers
  import opened Storage
  import Cart
  import OrderIds
  import Notifications

  datatype OrderItem = OrderItem(productId: int, name: string, quantity: int, price: int)
  datatype Pricing = Pricing(subtotal: int, tax: int, shipping: int, total: int)
  datatype Customer = Customer(name: string, email: string, phone: string)
  datatype Delivery = Delivery(address: string, deliveryMethod: string)
  datatype Payment = Payment(paymentMethod: string, status: string)

  datatype OrderPayload = OrderPayload(orderId: string, customer: Customer, items: seq<OrderItem>,
                                       pricing: Pricing, shipping: Delivery, payment: Payment,
                                       orderStatus: string)

  /** What create answers: `data.order` when present (with its id, "" when
      it has none) and the top-level id, "" when absent. */
  datatype CreateReply = CreateReply(order: Option<string>, id: string)

  /** How a checkout ended. */
  datatype Checkout = EmptyCart | Placed(order: OrderPayload, path: string) | Failed(order: OrderPayload, message: string)

  const DeliveryMethod := "Standard Delivery"
  const PaymentMethod := "M-Pesa"
  const PendingStatus := "pending"
  const CreatedNotice := "Order created successfully!"
  const MissingIdMessage := "Failed to get order ID from response"
  const FallbackMessage := "Failed to create order. Please try again."

  function Item(line: Cart.CartLine): OrderItem {
    OrderItem(line.id, line.name, line.quantity, line.price)
  }

  function Items(lines: seq<Cart.CartLine>): (items: seq<OrderItem>)
    ensures |items| == |lines|
    ensures forall i :: 0 <= i < |lines| ==> items[i] == Item(lines[i])
  {
    seq(|lines|, i requires 0 <= i < |lines| => Item(lines[i]))
  }

  /** The customer fields, "" where there is no signed-in user. */
  function CustomerOf(user: Option<User>): Customer {
    match user
    case None => Customer("", "", "")
    case Some(u) => Customer(u.username, u.email, u.phone)
  }

  function AddressOf(user: Option<User>): string {
    match user
    case None => ""
    case Some(u) => u.location
  }

  /** The payload: one item per cart line in cart order, the subtotal as
      both subtotal and total, no tax or shipping, an M-Pesa payment and an
      order both pending. */
  function BuildOrder(orderId: string, user: Option<User>, lines: seq<Cart.CartLine>): (o: OrderPayload)
    ensures o.orderId == orderId
    ensures |o.items| == |lines|
    ensures forall i :: 0 <= i < |lines| ==>
      o.items[i].productId == lines[i].id && o.items[i].name == lines[i].name &&
      o.items[i].quantity == lines[i].quantity && o.items[i].price == lines[i].price
    ensures o.pricing == Pricing(Cart.Subtotal(lines), 0, 0, Cart.Subtotal(lines))
    ensures o.pricing.total == Cart.CartTotal(lines)
    ensures o.payment == Payment(PaymentMethod, PendingStatus) && o.orderStatus == PendingStatus
    ensures o.customer == CustomerOf(user) && o.shipping == Delivery(AddressOf(user), DeliveryMethod)
  {
    var subtotal := Cart.Subtotal(lines);
    OrderPayload(orderId, CustomerOf(user), Items(lines), Pricing(subtotal, 0, 0, subtotal),
                 Delivery(AddressOf(user), DeliveryMethod), Payment(PaymentMethod, PendingStatus), PendingStatus)
  }

  /** The sum of price times quantity over the items. */
  function ItemsAmount(items: seq<OrderItem>): int {
    if items == [] then 0 else ItemsAmount(items[..|items| - 1]) + items[|items| - 1].price * items[|items| - 1].quantity
  }

  /** The server can recompute the total from the items: they add up to
      the payload's total. */
  lemma {:induction false} ItemsAddUpToTotal(lines: seq<Cart.CartLine>)
    ensures ItemsAmount(Items(lines)) == Cart.Subtotal(lines)
    decreases |lines|
  {
    if lines != [] {
      var init := lines[..|lines| - 1];
      ItemsAddUpToTotal(init);
      assert Items(lines)[..|lines| - 1] == Items(init);
    }
  }

  /** `(data.order || data)?.id` */
  function CreatedId(reply: CreateReply): (id: string)
    ensures reply.order.Some? ==> id == reply.order.value
    ensures reply.order.None? ==> id == reply.id
  {
    reply.order.GetOr(reply.id)
  }

  /** The payment page of an order; the id can be read back after the
      fixed prefix. */
  function PaymentPath(id: string): (path: string)
    ensures |path| == |PaymentPrefix| + |id|
    ensures path[..|PaymentPrefix|] == PaymentPrefix && path[|PaymentPrefix|..] == id
  {
    PaymentPrefix + id
  }

  const PaymentPrefix := "/payment/"

  /** The message shown when creation fails: the error's own message, or
      the fallback when it has none. */
  function FailureMessage(outcome: Result<CreateReply, string>): (m: string)
    requires outcome.Failure? || CreatedId(outcome.value) == ""
    ensures m != ""
    ensures outcome.Success? ==> m == MissingIdMessage
    ensures outcome.Failure? && outcome.error != "" ==> m == outcome.error
  {
    if outcome.Success? then MissingIdMessage
    else if outcome.error != "" then outcome.error
    else FallbackMessage
  }

  method HandleCheckout(cart: Cart.CartStore, notices: Notifications.NotificationQueue,
                        timestamp: nat, random: string, user: Option<User>,
                        outcome: Result<CreateReply, string>)
    returns (result: Checkout)
    requires OrderIds.IsRandomText(random)
    requires cart.Valid() && notices.Valid()
    modifies cart, notices
    ensures cart.Valid() && notices.Valid()
    ensures old(cart.items) == [] ==>
      result == EmptyCart && cart.items == [] && unchanged(notices)
    ensures old(cart.items) != [] ==>
      var order := BuildOrder(OrderIds.GenerateOrderId(timestamp, random), user, old(cart.items));
      (outcome.Success? && CreatedId(outcome.value) != "" ==>
         result == Placed(order, PaymentPath(CreatedId(outcome.value))) && cart.items == [] &&
         notices.notifications == old(notices.notifications) +
           [Notifications.Notification(notices.lastId, CreatedNotice, "success", Notifications.DefaultDuration)]) &&
      (outcome.Failure? || CreatedId(outcome.value) == "" ==>
         result == Failed(order, FailureMessage(outcome)) && cart.items == old(cart.items) &&
         notices.notifications == old(notices.notifications) +
           [Notifications.Notification(notices.lastId, FailureMessage(outcome), "error", Notifications.DefaultDuration)])
    ensures old(cart.items) != [] ==> notices.lastId == old(notices.lastId) + 1
  {
    if cart.items == [] {
      return EmptyCart;
    }
    var order := BuildOrder(OrderIds.GenerateOrderId(timestamp, random), user, cart.items);
    if outcome.Success? && CreatedId(outcome.value) != "" {
      cart.ClearCart();
      var _, _ := notices.ShowSuccess(CreatedNotice);
      result := Placed(order, PaymentPath(CreatedId(outcome.value)));
    } else {
      var message := FailureMessage(outcome);
      var _, _ := notices.ShowError(message);
      result := Failed(order, message);
    }
  }
}

=== FILE: notifications.dfy ===
/** The toast queue of src/context/NotificationContext.jsx. Ids come from a
    counter shared by every provider (a module-level `let`) that is bumped
    before each use, so the queue always lists ids in strictly increasing
    order. The auto-dismiss timer is not modelled as time: adding answers
    whether a removal of the new id would be scheduled. */
module Notifications {
  import opened Wrappers

  datatype Notification = Notification(id: int, message: string, kind: string, duration: int)

  /** A message a page hands to the queue: its type and its text. Pages
      that only decide what to show return one of these. */
  datatype Notice = Notice(kind: string, message: string)

  const DefaultKind := "info"
  const DefaultDuration := 4000

  /** Ids strictly increase along the queue and none exceeds the counter. */
  ghost predicate Ordered(queue: seq<Notification>, counter: int) {
    Increasing(queue) && forall i :: 0 <= i < |queue| ==> queue[i].id <= counter
  }

  ghost predicate Increasing(queue: seq<Notification>) {
    forall i, j :: 0 <= i < j < |queue| ==> queue[i].id < queue[j].id
  }

  predicate HasId(queue: seq<Notification>, id: int) {
    exists i :: 0 <= i < |queue| && queue[i].id == id
  }

  /** The queue removeNotification installs: `filter(n => n.id !== id)`. */
  function Removed(queue: seq<Notification>, id: int): (r: seq<Notification>)
    ensures !HasId(r, id)
    ensures forall n :: n in r <==> n in queue && n.id != id
    ensures !HasId(queue, id) ==> r == queue
  {
    if queue == [] then []
    else (if queue[0].id == id then [] else [queue[0]]) + Removed(queue[1..], id)
  }

  class NotificationQueue {
    /** The shared counter `notificationId`: the id most recently issued. */
    var lastId: nat
    var notifications: seq<Notification>

    ghost predicate Valid()
      reads this
    {
      Ordered(notifications, lastId)
    }

    /** A provider mounts with an empty queue. The counter lives in the
        module, so it is 0 only at the first mount; a later mount continues
        from the last id issued. */
    constructor (lastIssued: nat)
      ensures Valid() && lastId == lastIssued && notifications == []
    {
      lastId := lastIssued;
      notifications := [];
    }

    /** addNotification: absent arguments take the defaults 'info' and 4000. */
    method AddNotification(message: string, kind: Option<string> := None, duration: Option<int> := None)
      returns (id: nat, removalScheduled: bool)
      requires Valid()
      modifies this
      ensures Valid()
      ensures id == old(lastId) + 1 && lastId == id
      ensures notifications == old(notifications) +
        [Notification(id, message, kind.GetOr(DefaultKind), duration.GetOr(DefaultDuration))]
      ensures removalScheduled <==> duration.GetOr(DefaultDuration) > 0
    {
      lastId := lastId + 1;
      id := lastId;
      var d := duration.GetOr(DefaultDuration);
      notifications := notifications + [Notification(id, message, kind.GetOr(DefaultKind), d)];
      removalScheduled := d > 0;
    }

    method RemoveNotification(id: int)
      requires Valid()
      modifies this
      ensures Valid() && lastId == old(lastId)
      ensures notifications == Removed(old(notifications), id)
    {
      RemovedStaysOrdered(notifications, id, lastId);
      notifications := Removed(notifications, id);
    }

    method ShowSuccess(message: string, duration: Option<int> := None) returns (id: nat, removalScheduled: bool)
      requires Valid()
      modifies this
      ensures Valid()
      ensures id == old(lastId) + 1 && lastId == id
      ensures notifications == old(notifications) +
        [Notification(id, message, "success", duration.GetOr(DefaultDuration))]
      ensures removalScheduled <==> duration.GetOr(DefaultDuration) > 0
    {
      id, removalScheduled := AddNotification(message, Some("success"), duration);
    }

    method ShowError(message: string, duration: Option<int> := None) returns (id: nat, removalScheduled: bool)
      requires Valid()
      modifies this
      ensures Valid()
      ensures id == old(lastId) + 1 && lastId == id
      ensures notifications == old(notifications) +
        [Notification(id, message, "error", duration.GetOr(DefaultDuration))]
      ensures removalScheduled <==> duration.GetOr(DefaultDuration) > 0
    {
      id, removalScheduled := AddNotification(message, Some("error"), duration);
    }

    method ShowWarning(message: string, duration: Option<int> := None) returns (id: nat, removalScheduled: bool)
      requires Valid()
      modifies this
      ensures Valid()
      ensures id == old(lastId) + 1 && lastId == id
      ensures notifications == old(notifications) +
        [Notification(id, message, "warning", duration.GetOr(DefaultDuration))]
      ensures removalScheduled <==> duration.GetOr(DefaultDuration) > 0
    {
      id, removalScheduled := AddNotification(message, Some("warning"), duration);
    }

    method ShowInfo(message: string, duration: Option<int> := None) returns (id: nat, removalScheduled: bool)
      requires Valid()
      modifies this
      ensures Valid()
      ensures id == old(lastId) + 1 && lastId == id
      ensures notifications == old(notifications) +
        [Notification(id, message, "info", duration.GetOr(DefaultDuration))]
      ensures removalScheduled <==> duration.GetOr(DefaultDuration) > 0
    {
      id, removalScheduled := AddNotification(message, Some("info"), duration);
    }

    /** clearAll empties the queue; the counter keeps its value. */
    method ClearAll()
      requires Valid()
      modifies this
      ensures Valid() && lastId == old(lastId) && notifications == []
    {
      notifications := [];
    }
  }

  lemma TailIncreasing(queue: seq<Notification>)
    requires Increasing(queue) && queue != []
    ensures Increasing(queue[1..])
    ensures forall n :: n in queue[1..] ==> queue[0].id < n.id
  {
    var tail := queue[1..];
    forall i, j | 0 <= i < j < |tail| ensures tail[i].id < tail[j].id {
      assert tail[i] == queue[i + 1] && tail[j] == queue[j + 1];
    }
    forall n | n in tail ensures queue[0].id < n.id {
      var j :| 0 <= j < |tail| && tail[j] == n;
      assert queue[j + 1] == n;
    }
  }

  lemma ConsIncreasing(x: Notification, rest: seq<Notification>)
    requires Increasing(rest) && forall n :: n in rest ==> x.id < n.id
    ensures Increasing([x] + rest)
  {
    var r := [x] + rest;
    forall i, j | 0 <= i < j < |r| ensures r[i].id < r[j].id {
      assert r[j] == rest[j - 1];
      if i > 0 {
        assert r[i] == rest[i - 1];
      } else {
        assert r[j] in rest;
      }
    }
  }

  /** Filtering keeps the ids strictly increasing. */
  lemma {:induction false} RemovedStaysIncreasing(queue: seq<Notification>, id: int)
    requires Increasing(queue)
    ensures Increasing(Removed(queue, id))
  {
    if queue != [] {
      TailIncreasing(queue);
      RemovedStaysIncreasing(queue[1..], id);
      var rest := Removed(queue[1..], id);
      var r := Removed(queue, id);
      if queue[0].id != id {
        assert r == [queue[0]] + rest;
        ConsIncreasing(queue[0], rest);
      } else {
        assert r == rest;
      }
    }
  }

  /** Filtering keeps the queue ordered and under the counter. */
  lemma RemovedStaysOrdered(queue: seq<Notification>, id: int, counter: int)
    requires Ordered(queue, counter)
    ensures Ordered(Removed(queue, id), counter)
  {
    RemovedStaysIncreasing(queue, id);
    var r := Removed(queue, id);
    forall i | 0 <= i < |r| ensures r[i].id <= counter {
      assert r[i] in queue;
    }
  }

  /** With increasing ids, removing the id at position k cuts out exactly that entry. */
  lemma RemoveCutsOneEntry(queue: seq<Notification>, k: int)
    requires Increasing(queue) && 0 <= k < |queue|
    ensures Removed(queue, queue[k].id) == queue[..k] + queue[k + 1..]
  {
    forall j | 0 <= j < |queue| && j != k ensures queue[j].id != queue[k].id {
      if j < k { assert queue[j].id < queue[k].id; } else { assert queue[k].id < queue[j].id; }
    }
    RemoveCutsSoleEntry(queue, queue[k].id, k);
  }

  /** Removing an id held by entry k alone cuts out exactly that entry. */
  lemma RemoveCutsSoleEntry(queue: seq<Notification>, id: int, k: int)
    requires 0 <= k < |queue| && queue[k].id == id
    requires forall j :: 0 <= j < |queue| && j != k ==> queue[j].id != id
    ensures Removed(queue, id) == queue[..k] + queue[k + 1..]
  {
    var before, after := queue[..k], queue[k + 1..];
    assert !HasId(before, id) by {
      forall j | 0 <= j < |before| ensures before[j].id != id {
        assert before[j] == queue[j];
      }
    }
    assert !HasId(after, id) by {
      forall j | 0 <= j < |after| ensures after[j].id != id {
        assert after[j] == queue[k + 1 + j];
      }
    }
    var x := queue[k];
    assert queue == before + ([x] + after);
    calc {
      Removed(queue, id);
      Removed(before + ([x] + after), id);
      { RemovedConcat(before, [x] + after, id); }
      before + Removed([x] + after, id);
      { RemovedConcat([x], after, id); }
      before + (Removed([x], id) + after);
      { assert [x][1..] == []; }
      before + after;
    }
  }

  /** Filtering distributes over concatenation. */
  lemma {:induction false} RemovedConcat(a: seq<Notification>, b: seq<Notification>, id: int)
    ensures Removed(a + b, id) == Removed(a, id) + Removed(b, id)
  {
    if a == [] {
      assert a + b == b;
    } else {
      assert (a + b)[0] == a[0] && (a + b)[1..] == a[1..] + b;
      RemovedConcat(a[1..], b, id);
    }
  }

  /** The scheduled auto-dismiss of a fresh id undoes exactly that add: the
      fresh id is above every queued id, so no other entry goes with it. */
  lemma DismissUndoesAdd(queue: seq<Notification>, counter: int, n: Notification)
    requires Ordered(queue, counter) && n.id == counter + 1
    ensures Removed(queue + [n], n.id) == queue
  {
    var q := queue + [n];
    assert Increasing(q) by {
      forall i, j | 0 <= i < j < |q| ensures q[i].id < q[j].id {
        if j < |queue| {
          assert q[i] == queue[i] && q[j] == queue[j];
        } else {
          assert q[i] == queue[i];
        }
      }
    }
    RemoveCutsOneEntry(q, |queue|);
    assert q[..|queue|] == queue;
  }
}

=== FILE: order_detail.dfy ===
/** The progress timeline and the payment rules of
    src/pages/user/OrderDetailPage/OrderDetailPage.jsx. The timeline walks
    the seven-step delivery order; the order's position in it decides which
    steps are ticked, which one is current and which connectors are
    coloured. */
module OrderDetail {
  import opened Wrappers
  import Tracking

  /** One entry of the order's tracking history. */
  datatype TrackingEntry = TrackingEntry(status: string, notes: string, createdAt: string)

  /** How one step of the timeline is drawn. `lineColoured` is false for
      the last step, which has no connector. */
  datatype Step = Step(status: string, completed: bool, current: bool, lineColoured: bool,
                       entry: Option<TrackingEntry>)

  /** `statusOrder.indexOf(status)`: the position on the delivery path, or
      -1 for a status off it. */
  function StatusIndex(status: string): (k: int)
    ensures -1 <= k < |Tracking.GetStatusOrder()|
    ensures k >= 0 ==> Tracking.GetStatusOrder()[k] == status
    ensures k == -1 <==> status !in Tracking.GetStatusOrder()
  {
    var order := Tracking.GetStatusOrder();
    if status == order[0] then 0
    else if status == order[1] then 1
    else if status == order[2] then 2
    else if status == order[3] then 3
    else if status == order[4] then 4
    else if status == order[5] then 5
    else if status == order[6] then 6
    else -1
  }

  /** indexOf finds every status of the delivery path at its own position. */
  lemma StatusIndexOf(k: int)
    requires 0 <= k < |Tracking.GetStatusOrder()|
    ensures StatusIndex(Tracking.GetStatusOrder()[k]) == k
  {
  }

  /** `tracking.find(t => t.status === status)` */
  function FirstEntry(tracking: seq<TrackingEntry>, status: string): (e: Option<TrackingEntry>)
    ensures e.None? <==> forall i :: 0 <= i < |tracking| ==> tracking[i].status != status
    ensures e.Some? ==>
      exists k :: (0 <= k < |tracking| && tracking[k] == e.value && e.value.status == status &&
                   forall j :: 0 <= j < k ==> tracking[j].status != status)
  {
    if tracking == [] then None
    else if tracking[0].status == status then Some(tracking[0])
    else
      var e := FirstEntry(tracking[1..], status);
      if e.Some? then
        var k :| 0 <= k < |tracking[1..]| && tracking[1..][k] == e.value && e.value.status == status &&
          forall j :: 0 <= j < k ==> tracking[1..][j].status != status;
        assert tracking[k + 1] == e.value;
        assert forall j :: 1 <= j < k + 1 ==> tracking[j] == tracking[1..][j - 1];
        e
      else e
  }

  /** The timeline for an order in `orderStatus` with the given history. */
  function Timeline(orderStatus: string, tracking: seq<TrackingEntry>): (steps: seq<Step>)
    ensures |steps| == |Tracking.GetStatusOrder()|
    ensures forall i :: 0 <= i < |steps| ==> steps[i].status == Tracking.GetStatusOrder()[i]
  {
    var order := Tracking.GetStatusOrder();
    var current := StatusIndex(orderStatus);
    seq(|order|, i requires 0 <= i < |order| =>
      Step(order[i], i <= current, i == current, i < |order| - 1 && i <= current && i < current,
           FirstEntry(tracking, order[i])))
  }

  /** The ticked steps are exactly the first StatusIndex + 1 steps: none
      for a cancelled or returned order, all seven for a delivered one. */
  lemma CompletedStepsArePrefix(orderStatus: string, tracking: seq<TrackingEntry>)
    ensures var steps := Timeline(orderStatus, tracking);
      forall i :: 0 <= i < |steps| ==> (steps[i].completed <==> i < StatusIndex(orderStatus) + 1)
    ensures var steps := Timeline(orderStatus, tracking);
      orderStatus !in Tracking.GetStatusOrder() ==> forall i :: 0 <= i < |steps| ==> !steps[i].completed
    ensures var steps := Timeline(orderStatus, tracking);
      orderStatus == "delivered" ==> forall i :: 0 <= i < |steps| ==> steps[i].completed
  {
  }

  /** The current step is the one whose status the order has, so there is
      at most one, and none off the delivery path. */
  lemma CurrentStepIsTheOrdersStatus(orderStatus: string, tracking: seq<TrackingEntry>)
    ensures var steps := Timeline(orderStatus, tracking);
      forall i :: 0 <= i < |steps| ==> (steps[i].current <==> steps[i].status == orderStatus)
    ensures var steps := Timeline(orderStatus, tracking);
      forall i, j :: 0 <= i < |steps| && 0 <= j < |steps| && steps[i].current && steps[j].current ==> i == j
  {
    var steps := Timeline(orderStatus, tracking);
    var order := Tracking.GetStatusOrder();
    forall i | 0 <= i < |steps| ensures steps[i].current <==> steps[i].status == orderStatus {
      if steps[i].status == orderStatus {
        assert order[i] == orderStatus;
        assert StatusIndex(orderStatus) == i by {
          assert forall j :: 0 <= j < |order| && j != i ==> order[j] != order[i];
        }
      }
    }
  }

  /** A connector is coloured exactly when both of its ends are ticked. */
  lemma ConnectorsJoinTickedSteps(orderStatus: string, tracking: seq<TrackingEntry>)
    ensures var steps := Timeline(orderStatus, tracking);
      forall i :: 0 <= i < |steps| - 1 ==> (steps[i].lineColoured <==> steps[i].completed && steps[i + 1].completed)
  {
  }

  /** Pay Now: a pending order whose payment is not completed. */
  function ShowPayNow(orderStatus: string, paymentStatus: string): (b: bool)
    ensures b ==> StatusIndex(orderStatus) == 0 && paymentStatus != "completed"
    ensures orderStatus == "pending" && paymentStatus != "completed" ==> b
    ensures orderStatus == "pending" && paymentStatus in {"", "pending", "failed"} ==> b
  {
    orderStatus == "pending" && paymentStatus != "completed"
  }

  /** The payment line: Paid, Failed, or Pending for anything else. */
  function PaymentLabel(paymentStatus: string): (text: string)
    ensures text == "Paid" <==> paymentStatus == "completed"
    ensures text == "Failed" <==> paymentStatus == "failed"
    ensures text in {"Paid", "Failed", "Pending"}
  {
    if paymentStatus == "completed" then "Paid"
    else if paymentStatus == "failed" then "Failed"
    else "Pending"
  }

  /** Pay Now is never offered next to a Paid label. */
  lemma PayNowNeverBesidePaid(orderStatus: string, paymentStatus: string)
    ensures ShowPayNow(orderStatus, paymentStatus) ==> PaymentLabel(paymentStatus) != "Paid"
  {
  }
}

=== FILE: order_ids.dfy ===
/** generateOrderId of src/services/orderService.js: "ORD-", the clock in
    milliseconds, "-", and up to six characters cut from a base-36 rendering of
    a random number (`substring(2, 8)`), upper-cased. The clock reading and the rendering of the
    random number are parameters. */
module OrderIds {
  import opened Wrappers
  import opened Text

  const Prefix := "ORD-"

  /** String.prototype.substring(start, end) for start <= end: both bounds
      are clamped to the length. */
  function Substring(s: string, start: nat, end: nat): (r: string)
    requires start <= end
    ensures |r| <= end - start
    ensures start <= |s| ==> r == s[start..if end <= |s| then end else |s|]
    ensures start > |s| ==> r == ""
  {
    var lo := if start <= |s| then start else |s|;
    var hi := if end <= |s| then end else |s|;
    s[lo..hi]
  }

  predicate IsBase36Digit(c: char) {
    IsDigit(c) || 'a' <= c <= 'z'
  }

  /** What Number.prototype.toString(36) gives for a value in [0, 1):
      "0", or "0." followed by base-36 digits. */
  predicate IsRandomText(s: string) {
    s == "0" || (|s| >= 3 && s[..2] == "0." && forall i :: 2 <= i < |s| ==> IsBase36Digit(s[i]))
  }

  predicate IsSuffixChar(c: char) {
    IsDigit(c) || 'A' <= c <= 'Z'
  }

  /** `random.substring(2, 8).toUpperCase()`: at most six characters, each a
      digit or an upper-case letter. */
  function Suffix(random: string): (r: string)
    requires IsRandomText(random)
    ensures |r| <= 6
    ensures forall i :: 0 <= i < |r| ==> IsSuffixChar(r[i])
    ensures |random| >= 8 ==> |r| == 6
  {
    var cut := Substring(random, 2, 8);
    assert forall i :: 0 <= i < |cut| ==> IsBase36Digit(cut[i]) by {
      if random != "0" {
        forall i | 0 <= i < |cut| ensures IsBase36Digit(cut[i]) {
          assert cut[i] == random[2 + i];
        }
      }
    }
    Upper(cut)
  }

  function GenerateOrderId(timestamp: nat, random: string): (id: string)
    requires IsRandomText(random)
    ensures StartsWith(id, Prefix)
    ensures |id| <= |Prefix| + |NatToString(timestamp)| + 1 + 6
  {
    Prefix + NatToString(timestamp) + "-" + Suffix(random)
  }

  /** Reads an order id back into its clock reading and suffix. */
  function ParseOrderId(id: string): (r: Option<(nat, string)>)
  {
    if !StartsWith(id, Prefix) then None
    else
      var rest := id[|Prefix|..];
      var dash := IndexOf(rest, '-');
      if dash == |rest| || dash == 0 || !AllDigits(rest[..dash]) then None
      else Some((ParseDigits(rest[..dash]), rest[dash + 1..]))
  }

  /** Every generated id reads back as the clock reading and suffix it was made from. */
  lemma ParseGenerated(timestamp: nat, random: string)
    requires IsRandomText(random)
    ensures ParseOrderId(GenerateOrderId(timestamp, random)) == Some((timestamp, Suffix(random)))
  {
    var id := GenerateOrderId(timestamp, random);
    var digits := NatToString(timestamp);
    var rest := id[|Prefix|..];
    assert rest == digits + "-" + Suffix(random);
    assert rest[..|digits|] == digits;
    assert '-' !in digits by {
      assert forall c :: c in digits ==> IsDigit(c);
    }
    IndexOfIs(rest, '-', |digits|);
    assert rest[|digits| + 1..] == Suffix(random);
    ParseNatToString(timestamp);
  }

  /** Ids made at different milliseconds never collide, whatever the random parts. */
  lemma DistinctClocksDistinctIds(t1: nat, r1: string, t2: nat, r2: string)
    requires IsRandomText(r1) && IsRandomText(r2) && t1 != t2
    ensures GenerateOrderId(t1, r1) != GenerateOrderId(t2, r2)
  {
    ParseGenerated(t1, r1);
    ParseGenerated(t2, r2);
  }
}

=== FILE: order_tracking.dfy ===
/** The step view of src/pages/user/OrderTrackingPage/OrderTrackingPage.jsx:
    five steps instead of the seven of the delivery order, and an unknown
    status shown as the first step. The page reads the order's `status`
    field. */
module OrderTrackingView {
  import opened Wrappers
  import Tracking
  import OrderDetail

  datatype StepInfo = StepInfo(key: string, caption: string, description: string)

  function Steps(): (steps: seq<StepInfo>)
    ensures |steps| == 5
  {
    [StepInfo("pending", "Order Placed", "Your order has been received"),
     StepInfo("confirmed", "Confirmed", "Order confirmed and payment verified"),
     StepInfo("processing", "Processing", "Your order is being prepared"),
     StepInfo("shipped", "Shipped", "Your order is on the way"),
     StepInfo("delivered", "Delivered", "Order delivered successfully")]
  }

  /** getCurrentStepIndex: the step whose key is the order's status, or
      the first step without an order or for a status with no step. */
  function CurrentStepIndex(status: Option<string>): (k: int)
    ensures 0 <= k < |Steps()|
    ensures status.Some? && (exists i :: 0 <= i < |Steps()| && Steps()[i].key == status.value) ==>
      Steps()[k].key == status.value
    ensures status.None? || (forall i :: 0 <= i < |Steps()| ==> Steps()[i].key != status.value) ==> k == 0
  {
    match status
    case None => 0
    case Some(s) =>
      var steps := Steps();
      if s == steps[0].key then 0
      else if s == steps[1].key then 1
      else if s == steps[2].key then 2
      else if s == steps[3].key then 3
      else if s == steps[4].key then 4
      else 0
  }

  /** A step is lit up to and including the current one; a connector up to
      but excluding it. */
  function StepActive(index: int, current: int): (b: bool)
    ensures index == current ==> b
    ensures index < current ==> b
    ensures index > current ==> !b
  {
    index <= current
  }

  function ConnectorActive(index: int, current: int): (b: bool)
    ensures b <==> StepActive(index, current) && StepActive(index + 1, current)
  {
    index < current
  }

  /** The payment line: 'paid' is Paid, 'pending' is Pending, and anything
      else, a missing status included, reads Failed. */
  function PaymentLabel(paymentStatus: string): (text: string)
    ensures text == "Paid" <==> paymentStatus == "paid"
    ensures text == "Pending" <==> paymentStatus == "pending"
    ensures text == "Failed" <==> paymentStatus != "paid" && paymentStatus != "pending"
  {
    if paymentStatus == "paid" then "Paid"
    else if paymentStatus == "pending" then "Pending"
    else "Failed"
  }

  /** The five steps are a sub-list of the seven-step delivery order, in
      the same order. */
  lemma StepsFollowStatusOrder()
    ensures forall i :: 0 <= i < |Steps()| ==> OrderDetail.StatusIndex(Steps()[i].key) >= 0
    ensures forall i :: 0 <= i < |Steps()| - 1 ==>
      OrderDetail.StatusIndex(Steps()[i].key) < OrderDetail.StatusIndex(Steps()[i + 1].key)
  {
    var positions := [0, 1, 2, 4, 6];
    forall i | 0 <= i < |Steps()| ensures OrderDetail.StatusIndex(Steps()[i].key) == positions[i] {
      OrderDetail.StatusIndexOf(positions[i]);
    }
  }

  /** The two timelines disagree: a packed or out-for-delivery order is
      shown here as just placed, with nothing lit beyond the first step,
      while the order detail page ticks four or six steps; a cancelled
      order is shown here as placed while the detail page ticks none. */
  lemma TimelinesDisagree()
    ensures CurrentStepIndex(Some("packed")) == 0 && OrderDetail.StatusIndex("packed") == 3
    ensures CurrentStepIndex(Some("out_for_delivery")) == 0 && OrderDetail.StatusIndex("out_for_delivery") == 5
    ensures CurrentStepIndex(Some("cancelled")) == 0 && OrderDetail.StatusIndex("cancelled") == -1
  {
  }

  /** For the five statuses both pages know, they agree on which status is
      current, and two such statuses come in the same order on both pages. */
  lemma SharedStatusesAgree(i: int, j: int)
    requires 0 <= i < |Steps()| && 0 <= j < |Steps()|
    ensures var s := Steps()[i].key;
      CurrentStepIndex(Some(s)) == i && Tracking.GetStatusOrder()[OrderDetail.StatusIndex(s)] == s
    ensures i < j <==> OrderDetail.StatusIndex(Steps()[i].key) < OrderDetail.StatusIndex(Steps()[j].key)
  {
    var positions := [0, 1, 2, 4, 6];
    OrderDetail.StatusIndexOf(positions[i]);
    OrderDetail.StatusIndexOf(positions[j]);
    assert Steps()[i].key == Tracking.GetStatusOrder()[positions[i]];
    assert Steps()[j].key == Tracking.GetStatusOrder()[positions[j]];
  }
}

=== FILE: orders_list.dfy ===
/** The order list of src/pages/user/OrdersPage/OrdersPage.jsx: the status
    filter and the request it makes, the payment badge, which order is
    expanded, and when Pay Now and Cancel are offered. */
module OrdersList {
  import opened Wrappers
  import OrderDetail

  const AllFilter := "all"
  const PageSize := 10

  /** The query of the list request. */
  datatype Params = Params(page: int, limit: int, orderStatus: Option<string>)

  /** fetchOrders: the page, the page size the page currently holds, and
      the status only when a status filter is chosen. */
  function FetchParams(page: int, limit: int, filter: string): (p: Params)
    ensures p.page == page && p.limit == limit
    ensures p.orderStatus.None? <==> filter == AllFilter
    ensures p.orderStatus.Some? ==> p.orderStatus.value == filter
  {
    Params(page, limit, if filter != AllFilter then Some(filter) else None)
  }

  datatype PaymentBadge = PaymentBadge(caption: string, color: string)

  const PendingBadge := PaymentBadge("Pending", "#f59e0b")

  /** getPaymentInfo: three known statuses; anything else shows as pending. */
  function GetPaymentInfo(status: string): (b: PaymentBadge)
    ensures status == "completed" ==> b == PaymentBadge("Paid", "#10b981")
    ensures status == "failed" ==> b == PaymentBadge("Failed", "#ef4444")
    ensures status != "completed" && status != "failed" ==> b == PendingBadge
  {
    if status == "completed" then PaymentBadge("Paid", "#10b981")
    else if status == "failed" then PaymentBadge("Failed", "#ef4444")
    else PendingBadge
  }

  /** The badge agrees with the order detail page's payment label. */
  lemma BadgeMatchesDetailLabel(status: string)
    ensures GetPaymentInfo(status).caption == OrderDetail.PaymentLabel(status)
  {
  }

  /** Clicking an order's header: it collapses when it is the expanded one,
      and otherwise becomes the only expanded one. */
  function Toggled(expanded: Option<int>, id: int): (e: Option<int>)
    ensures expanded == Some(id) ==> e.None?
    ensures expanded != Some(id) ==> e == Some(id)
  {
    if expanded == Some(id) then None else Some(id)
  }

  /** Clicking the same header twice returns to the start, unless another
      order was open: that one stays closed. */
  lemma ToggleTwice(expanded: Option<int>, id: int)
    ensures expanded.None? || expanded == Some(id) ==> Toggled(Toggled(expanded, id), id) == expanded
    ensures expanded.Some? && expanded.value != id ==> Toggled(Toggled(expanded, id), id).None?
  {
  }

  /** Cancel: any pending order. */
  function ShowCancel(orderStatus: string): (b: bool)
    ensures b <==> OrderDetail.StatusIndex(orderStatus) == 0
  {
    orderStatus == "pending"
  }

  /** Pay Now uses the same rule as on the detail page, and is only ever
      offered beside Cancel. */
  lemma PayNowImpliesCancel(orderStatus: string, paymentStatus: string)
    ensures OrderDetail.ShowPayNow(orderStatus, paymentStatus) ==> ShowCancel(orderStatus)
  {
  }

  class OrdersPage {
    var filter: string
    var expanded: Option<int>
    /** `pagination.limit`: 10 until a reply's pagination says otherwise. */
    var limit: int

    constructor ()
      ensures filter == AllFilter && expanded.None? && limit == PageSize
    {
      filter := AllFilter;
      expanded := None;
      limit := PageSize;
    }

    /** Choosing a filter: a different one reloads the list from page 1,
        asking for the page size last received. */
    method SetFilter(f: string) returns (request: Option<Params>)
      modifies this
      ensures filter == f && expanded == old(expanded) && limit == old(limit)
      ensures f != old(filter) ==> request == Some(FetchParams(1, limit, f))
      ensures f == old(filter) ==> request.None?
    {
      request := if f != filter then Some(FetchParams(1, limit, f)) else None;
      filter := f;
    }

    /** A list reply: `setPagination(prev => ({...prev, ...data.pagination}))`
        takes the server's limit when the reply's pagination carries one;
        without it the old limit stays. */
    method PaginationArrived(serverLimit: Option<int>)
      modifies this
      ensures limit == serverLimit.GetOr(old(limit))
      ensures filter == old(filter) && expanded == old(expanded)
    {
      if serverLimit.Some? {
        limit := serverLimit.value;
      }
    }

    method ToggleOrder(id: int)
      modifies this
      ensures expanded == Toggled(old(expanded), id) && filter == old(filter) && limit == old(limit)
    {
      expanded := Toggled(expanded, id);
    }
  }
}

=== FILE: payment_flow.dfy ===
/** The M-Pesa payment page of src/pages/user/PaymentPage/PaymentPage.jsx
    as a state machine: loading the order, submitting the phone number,
    each tick of the status poll, and the manual status check. Every
    network answer is a parameter; notices and navigation are returned.
    One poll tick is one observed answer: the three-second interval and
    the two-second delay before leaving are not modelled. */
module PaymentFlow {
  import opened Wrappers
  import opened Notifications
  import Phone

  /** The payment record of an order, already parsed; "" for a missing
      field. */
  datatype PaymentRecord = PaymentRecord(paymentStatus: string, status: string)

  /** The order as the page keeps it: `id` is the database id, `orderCode`
      the ORD- code the payment request is made for. */
  datatype OrderInfo = OrderInfo(id: string, orderCode: string, payment: Option<PaymentRecord>)

  /** The two spellings of the request id initiate may answer with. */
  datatype InitReply = InitReply(checkoutRequestId: string, checkoutRequestIdSnake: string)

  datatype Verdict = Paid | Declined | Waiting

  const OrdersPath := "/orders"
  const PaidNotice := Notice("success", "Payment successful! Thank you for your order.")
  const DeclinedNotice := Notice("error", "Payment failed. Please try again.")
  const StillProcessing := Notice("info", "Payment is still processing. Please wait...")
  const CheckFailed := Notice("error", "Could not check payment status. Please try again.")
  const AlreadyPaid := Notice("info", "This order has already been paid.")
  const NotFound := Notice("error", "Order not found.")
  const LoadFailed := Notice("error", "Failed to load order details.")
  const NoPhone := Notice("error", "Please enter your M-Pesa phone number.")
  const NotLoaded := Notice("error", "Order details not loaded. Please refresh the page.")
  const RequestSent := Notice("success", "Payment request sent! Please check your phone for the M-Pesa prompt.")
  const InitiateFallback := "Failed to initiate payment. Please try again."

  /** `payment?.payment_status || payment?.status` */
  function Observed(payment: Option<PaymentRecord>): (s: string)
    ensures payment.Some? && payment.value.paymentStatus != "" ==> s == payment.value.paymentStatus
    ensures payment.Some? && payment.value.paymentStatus == "" ==> s == payment.value.status
    ensures payment.None? ==> s == ""
  {
    match payment
    case None => ""
    case Some(p) => if p.paymentStatus != "" then p.paymentStatus else p.status
  }

  /** What an observed status means: two spellings of success, two of
      failure, and anything else (including nothing) means keep waiting. */
  function Classify(status: string): (v: Verdict)
    ensures v == Paid <==> status == "completed" || status == "success"
    ensures v == Declined <==> status == "failed" || status == "cancelled"
  {
    if status == "completed" || status == "success" then Paid
    else if status == "failed" || status == "cancelled" then Declined
    else Waiting
  }

  /** How the page reacts to one observed status. `stop` ends the poll and
      `reopen` clears paymentInitiated so the form can be sent again. */
  datatype Reaction = Reaction(notice: Option<Notice>, redirect: Option<string>, stop: bool, reopen: bool)

  /** A poll tick: silent while waiting. */
  function PollReaction(status: string): (r: Reaction)
    ensures Classify(status) == Paid ==> r == Reaction(Some(PaidNotice), Some(OrdersPath), true, false)
    ensures Classify(status) == Declined ==> r == Reaction(Some(DeclinedNotice), None, true, true)
    ensures Classify(status) == Waiting ==> r == Reaction(None, None, false, false)
  {
    match Classify(status)
    case Paid => Reaction(Some(PaidNotice), Some(OrdersPath), true, false)
    case Declined => Reaction(Some(DeclinedNotice), None, true, true)
    case Waiting => Reaction(None, None, false, false)
  }

  /** The manual check: says so while waiting, and does not touch the poll
      itself (clearing paymentInitiated stops it all the same). */
  function CheckReaction(status: string): (r: Reaction)
    ensures Classify(status) == Paid ==> r == Reaction(Some(PaidNotice), Some(OrdersPath), false, false)
    ensures Classify(status) == Declined ==> r == Reaction(Some(DeclinedNotice), None, false, true)
    ensures Classify(status) == Waiting ==> r == Reaction(Some(StillProcessing), None, false, false)
  {
    match Classify(status)
    case Paid => Reaction(Some(PaidNotice), Some(OrdersPath), false, false)
    case Declined => Reaction(Some(DeclinedNotice), None, false, true)
    case Waiting => Reaction(Some(StillProcessing), None, false, false)
  }

  /** The poll and the manual check agree on every final status: same
      notice, same destination, same reopening of the form. They differ
      only while the payment is pending, where the poll stays silent. */
  lemma PollAndCheckAgree(status: string)
    ensures Classify(status) != Waiting ==>
      PollReaction(status).notice == CheckReaction(status).notice &&
      PollReaction(status).redirect == CheckReaction(status).redirect &&
      PollReaction(status).reopen == CheckReaction(status).reopen
    ensures Classify(status) == Waiting ==>
      PollReaction(status).notice.None? && CheckReaction(status).notice == Some(StillProcessing)
  {
  }

  function OrderCode(order: Option<OrderInfo>): string {
    match order
    case None => ""
    case Some(o) => o.orderCode
  }

  /** The poll effect's rule: it is torn down and set up again only when
      paymentInitiated or the order code changes, and it runs only while
      both are set. */
  function PollAfter(wasInitiated: bool, oldCode: string, initiated: bool, code: string, wasPolling: bool): (p: bool)
    ensures (initiated != wasInitiated || code != oldCode) ==> (p <==> initiated && code != "")
    ensures initiated == wasInitiated && code == oldCode ==> p == wasPolling
  {
    if initiated != wasInitiated || code != oldCode then initiated && code != "" else wasPolling
  }

  class PaymentPage {
    var order: Option<OrderInfo>
    var loading: bool
    var phoneNumber: string
    var checkoutRequestId: string
    var paymentInitiated: bool
    var polling: bool

    /** The poll only runs for a submitted payment on an order with a code. */
    ghost predicate Valid()
      reads this
    {
      polling ==> paymentInitiated && OrderCode(order) != ""
    }

    /** The page opens with the user's phone, or "" without one. */
    constructor (userPhone: string)
      ensures Valid()
      ensures order.None? && loading && phoneNumber == userPhone && checkoutRequestId == ""
      ensures !paymentInitiated && !polling
    {
      order := None;
      loading := true;
      phoneNumber := userPhone;
      checkoutRequestId := "";
      paymentInitiated := false;
      polling := false;
    }

    /** fetchOrder: an answer without an order or without an id, or a
        failed request, sends the user back to the orders; an order that is
        already paid is kept but also sends them back. An unpaid order is
        shown with no notice. */
    method FetchOrder(answer: Result<Option<OrderInfo>, string>) returns (notice: Option<Notice>, redirect: Option<string>)
      requires Valid()
      modifies this
      ensures Valid() && !loading
      ensures phoneNumber == old(phoneNumber) && checkoutRequestId == old(checkoutRequestId)
      ensures paymentInitiated == old(paymentInitiated)
      ensures answer.Failure? ==>
        notice == Some(LoadFailed) && redirect == Some(OrdersPath) && order == old(order) && polling == old(polling)
      ensures answer.Success? && (answer.value.None? || answer.value.value.id == "") ==>
        notice == Some(NotFound) && redirect == Some(OrdersPath) && order == old(order) && polling == old(polling)
      ensures answer.Success? && answer.value.Some? && answer.value.value.id != "" ==>
        order == answer.value &&
        polling == PollAfter(old(paymentInitiated), OrderCode(old(order)), paymentInitiated, OrderCode(order), old(polling)) &&
        (Classify(Observed(answer.value.value.payment)) == Paid ==> notice == Some(AlreadyPaid) && redirect == Some(OrdersPath)) &&
        (Classify(Observed(answer.value.value.payment)) != Paid ==> notice.None? && redirect.None?)
    {
      loading := false;
      notice, redirect := None, None;
      if answer.Failure? {
        return Some(LoadFailed), Some(OrdersPath);
      }
      if answer.value.None? || answer.value.value.id == "" {
        return Some(NotFound), Some(OrdersPath);
      }
      var oldCode := OrderCode(order);
      order := answer.value;
      polling := PollAfter(paymentInitiated, oldCode, paymentInitiated, OrderCode(order), polling);
      if Classify(Observed(answer.value.value.payment)) == Paid {
        notice, redirect := Some(AlreadyPaid), Some(OrdersPath);
      }
    }

    /** handlePayment: without a phone number, or before the order and its
        code are loaded, nothing is sent. Otherwise the formatted number is
        sent; a success records the request id (camel-case spelling first)
        and marks the payment as initiated, which starts the poll. */
    method HandlePayment(answer: Result<InitReply, string>) returns (notice: Notice, sentPhone: Option<string>)
      requires Valid()
      modifies this
      ensures Valid()
      ensures order == old(order) && loading == old(loading) && phoneNumber == old(phoneNumber)
      ensures old(phoneNumber) == "" ==> notice == NoPhone && sentPhone.None? && unchanged(this)
      ensures old(phoneNumber) != "" && OrderCode(old(order)) == "" ==>
        notice == NotLoaded && sentPhone.None? && unchanged(this)
      ensures old(phoneNumber) != "" && OrderCode(old(order)) != "" ==>
        sentPhone == Some(Phone.FormatPhoneNumber(phoneNumber)) &&
        (answer.Success? ==>
           notice == RequestSent && paymentInitiated &&
           checkoutRequestId == (if answer.value.checkoutRequestId != "" then answer.value.checkoutRequestId
                                 else answer.value.checkoutRequestIdSnake) &&
           polling == (!old(paymentInitiated) || old(polling))) &&
        (answer.Failure? ==>
           notice == Notice("error", if answer.error != "" then answer.error else InitiateFallback) &&
           paymentInitiated == old(paymentInitiated) && checkoutRequestId == old(checkoutRequestId) &&
           polling == old(polling))
    {
      if phoneNumber == "" {
        return NoPhone, None;
      }
      if OrderCode(order) == "" {
        return NotLoaded, None;
      }
      sentPhone := Some(Phone.FormatPhoneNumber(phoneNumber));
      match answer {
        case Success(reply) =>
          checkoutRequestId := if reply.checkoutRequestId != "" then reply.checkoutRequestId
                               else reply.checkoutRequestIdSnake;
          var wasInitiated := paymentInitiated;
          paymentInitiated := true;
          polling := PollAfter(wasInitiated, OrderCode(order), true, OrderCode(order), polling);
          notice := RequestSent;
        case Failure(message) =>
          notice := Notice("error", if message != "" then message else InitiateFallback);
      }
    }

    /** One tick of the poll: the order is fetched again and its payment
        status decides. A failed fetch, or an answer without an order, is
        ignored. The fetched order is not stored. */
    method PollTick(answer: Result<Option<OrderInfo>, string>) returns (notice: Option<Notice>, redirect: Option<string>)
      requires Valid() && polling
      modifies this
      ensures Valid()
      ensures order == old(order) && loading == old(loading) && phoneNumber == old(phoneNumber)
      ensures checkoutRequestId == old(checkoutRequestId)
      ensures answer.Failure? || answer.value.None? ==> notice.None? && redirect.None? && unchanged(this)
      ensures answer.Success? && answer.value.Some? ==>
        var r := PollReaction(Observed(answer.value.value.payment));
        notice == r.notice && redirect == r.redirect &&
        polling == !r.stop && paymentInitiated == !r.reopen
    {
      notice, redirect := None, None;
      if answer.Failure? || answer.value.None? {
        return;
      }
      var r := PollReaction(Observed(answer.value.value.payment));
      notice, redirect := r.notice, r.redirect;
      if r.stop {
        polling := false;
      }
      if r.reopen {
        paymentInitiated := false;
      }
    }

    /** checkPaymentStatus: nothing without a request id; otherwise the
        status answer decides, and a failed request says so. */
    method CheckPaymentStatus(answer: Result<Option<PaymentRecord>, string>) returns (notice: Option<Notice>, redirect: Option<string>)
      requires Valid()
      modifies this
      ensures Valid()
      ensures order == old(order) && loading == old(loading) && phoneNumber == old(phoneNumber)
      ensures checkoutRequestId == old(checkoutRequestId)
      ensures old(checkoutRequestId) == "" ==> notice.None? && redirect.None? && unchanged(this)
      ensures old(checkoutRequestId) != "" && answer.Failure? ==>
        notice == Some(CheckFailed) && redirect.None? && unchanged(this)
      ensures old(checkoutRequestId) != "" && answer.Success? ==>
        var r := CheckReaction(Observed(answer.value));
        notice == r.notice && redirect == r.redirect &&
        paymentInitiated == (old(paymentInitiated) && !r.reopen) &&
        polling == (old(polling) && !r.reopen)
    {
      notice, redirect := None, None;
      if checkoutRequestId == "" {
        return;
      }
      if answer.Failure? {
        return Some(CheckFailed), None;
      }
      var r := CheckReaction(Observed(answer.value));
      notice, redirect := r.notice, r.redirect;
      if r.reopen {
        paymentInitiated := false;
        polling := false;
      }
    }
  }
}

=== FILE: phone.dfy ===
/** formatPhoneNumber of src/services/paymentService.js: the M-Pesa number
    normaliser. White space and dashes go, then the number is forced into
    the +254 (Kenya) international form in the style of ITU-T E.164, with
    no check of how many digits follow. */
module Phone {
  import opened Text

  const CountryCode := "254"

  /** The characters `/[\s-]/g` matches. */
  predicate IsSeparator(c: char) {
    IsSpace(c) || c == '-'
  }

  predicate NoSeparators(s: string) {
    forall i :: 0 <= i < |s| ==> !IsSeparator(s[i])
  }

  /** `phone.replace(/[\s-]/g, '')`: the other characters, in order. */
  function Strip(s: string): (r: string)
    ensures NoSeparators(r)
    ensures |r| <= |s|
    ensures forall c :: c in r <==> c in s && !IsSeparator(c)
  {
    if s == [] then ""
    else (if IsSeparator(s[0]) then "" else [s[0]]) + Strip(s[1..])
  }

  lemma NoSeparatorsConcat(a: string, b: string)
    requires NoSeparators(a) && NoSeparators(b)
    ensures NoSeparators(a + b)
  {
    forall i | |a| <= i < |a + b| ensures !IsSeparator((a + b)[i]) {
      assert (a + b)[i] == b[i - |a|];
    }
  }

  /** The three rewrites, applied in order to the stripped number. */
  function Rewrite(f0: string): (r: string)
    requires NoSeparators(f0)
    ensures |r| >= 1 && r[0] == '+'
    ensures NoSeparators(r)
  {
    var f1 := if StartsWith(f0, "0") then "+254" + f0[1..] else f0;
    var f2 := if StartsWith(f1, "254") then "+" + f1 else f1;
    var f3 := if !StartsWith(f2, "+") then "+254" + f2 else f2;
    assert NoSeparators(f3) by {
      if StartsWith(f0, "0") { NoSeparatorsConcat("+254", f0[1..]); }
      NoSeparatorsConcat("+", f1);
      NoSeparatorsConcat("+254", f2);
    }
    f3
  }

  /** formatPhoneNumber: strip, then rewrite. */
  function FormatPhoneNumber(phone: string): (r: string)
    ensures |r| >= 1 && r[0] == '+'
    ensures NoSeparators(r)
  {
    Rewrite(Strip(phone))
  }

  /** What the rewrites add up to, by the first character of the stripped
      number: a leading 0 becomes +254, a leading 254 gains a '+', a leading
      '+' is kept, and anything else gets +254 in front. */
  lemma FormatCases(phone: string)
    ensures StartsWith(Strip(phone), "0") ==> FormatPhoneNumber(phone) == "+" + CountryCode + Strip(phone)[1..]
    ensures StartsWith(Strip(phone), CountryCode) ==> FormatPhoneNumber(phone) == "+" + Strip(phone)
    ensures StartsWith(Strip(phone), "+") ==> FormatPhoneNumber(phone) == Strip(phone)
    ensures !StartsWith(Strip(phone), "0") && !StartsWith(Strip(phone), CountryCode) && !StartsWith(Strip(phone), "+") ==>
      FormatPhoneNumber(phone) == "+" + CountryCode + Strip(phone)
  {
    RewriteCases(Strip(phone));
  }

  lemma RewriteCases(f: string)
    requires NoSeparators(f)
    ensures StartsWith(f, "0") ==> Rewrite(f) == "+" + CountryCode + f[1..]
    ensures StartsWith(f, CountryCode) ==> Rewrite(f) == "+" + f
    ensures StartsWith(f, "+") ==> Rewrite(f) == f
    ensures !StartsWith(f, "0") && !StartsWith(f, CountryCode) && !StartsWith(f, "+") ==>
      Rewrite(f) == "+" + CountryCode + f
  {
    if StartsWith(f, "0") {
      assert f[0] == '0' && !StartsWith(f, CountryCode);
      var f1 := "+254" + f[1..];
      assert f1[0] == '+' && !StartsWith(f1, "254");
      assert StartsWith(f1, "+");
      assert "+" + CountryCode + f[1..] == f1;
    } else if StartsWith(f, "254") {
      var f2 := "+" + f;
      assert StartsWith(f2, "+");
    } else if !StartsWith(f, "+") && f != [] {
      assert f[0] != '+';
      assert "+" + CountryCode + f == "+254" + f;
    }
  }

  /** Stripping a string that has nothing to strip changes nothing. */
  lemma {:induction false} StripNothing(s: string)
    requires NoSeparators(s)
    ensures Strip(s) == s
  {
    if s != [] {
      StripNothing(s[1..]);
      assert !IsSeparator(s[0]);
    }
  }

  /** Formatting an already formatted number returns it unchanged. */
  lemma FormatIsIdempotent(phone: string)
    ensures FormatPhoneNumber(FormatPhoneNumber(phone)) == FormatPhoneNumber(phone)
  {
    var r := FormatPhoneNumber(phone);
    StripNothing(r);
    assert StartsWith(Strip(r), "+");
  }

  lemma DigitsHaveNoSeparators(s: string)
    requires AllDigits(s)
    ensures NoSeparators(s)
  {
  }

  lemma {:induction false} StripConcat(a: string, b: string)
    ensures Strip(a + b) == Strip(a) + Strip(b)
  {
    if a != [] {
      assert (a + b)[1..] == a[1..] + b;
      StripConcat(a[1..], b);
    } else {
      assert a + b == b;
    }
  }

  /** A local number written with a leading 0 becomes +254 and the rest,
      whatever its length: "0712345678" gives "+254712345678", and "07"
      gives "+2547" since no digit count is checked. */
  lemma LocalNumber(rest: string)
    requires AllDigits(rest)
    ensures FormatPhoneNumber("0" + rest) == "+254" + rest
    ensures |FormatPhoneNumber("0" + rest)| == |rest| + 4
  {
    var phone := "0" + rest;
    assert AllDigits(phone) by {
      forall i | 0 < i < |phone| ensures IsDigit(phone[i]) {
        assert phone[i] == rest[i - 1];
      }
    }
    DigitsHaveNoSeparators(phone);
    StripNothing(phone);
    FormatCases(phone);
    assert phone[1..] == rest;
  }

  /** A space or dash anywhere in the input makes no difference. */
  lemma StripSeparator(sep: char)
    requires IsSeparator(sep)
    ensures Strip([sep]) == []
  {
    assert [sep][1..] == [];
  }

  lemma StripDropsSeparator(a: string, sep: char, b: string)
    requires Strip([sep]) == []
    ensures Strip(a + [sep] + b) == Strip(a + b)
  {
    StripConcat(a + [sep], b);
    StripConcat(a, [sep]);
    StripConcat(a, b);
  }

  lemma SeparatorsIgnored(a: string, sep: char, b: string)
    requires IsSeparator(sep)
    ensures FormatPhoneNumber(a + [sep] + b) == FormatPhoneNumber(a + b)
  {
    StripSeparator(sep);
    StripDropsSeparator(a, sep, b);
  }
}

=== FILE: product_detail.dfy ===
/** The product page of src/pages/user/ProductDetailPage/ProductDetailPage.jsx:
    unwrapping the product from the answer, the image list, the description
    fallback chain, the related-products filter, and the quantity stepper.
    A missing or zero number and a missing or empty string are falsy, as in
    JavaScript. */
module ProductDetail {
  import opened Wrappers
  import ProductImages

  /** The text fields the description is taken from, in the order tried;
      "" where the product has none. */
  datatype DescriptionFields = DescriptionFields(description: string, longDescription: string,
                                                 productDescription: string, details: string,
                                                 desc: string, metaDescription: string)

  datatype ProductRecord = ProductRecord(id: int, name: string, images: seq<ProductImages.ImageField>,
                                         image: ProductImages.ImageField, imageUrl: ProductImages.ImageField,
                                         stockQuantity: int, stock: int, text: DescriptionFields)

  /** An answer of the product request: a `product` field, a `data` field,
      or the product itself at the top level. */
  datatype Answer = Answer(product: Option<ProductRecord>, data: Option<ProductRecord>, self: Option<ProductRecord>)

  const NoDescription := "No description available. Please contact us for more information about this product."
  const DefaultMaxQuantity := 99
  const RelatedLimit := 4

  /** normalizeProduct: `data?.product || data?.data || data`. */
  function NormalizeProduct(answer: Option<Answer>): (p: Option<ProductRecord>)
    ensures answer.None? ==> p.None?
    ensures answer.Some? && answer.value.product.Some? ==> p == answer.value.product
    ensures answer.Some? && answer.value.product.None? && answer.value.data.Some? ==> p == answer.value.data
    ensures answer.Some? && answer.value.product.None? && answer.value.data.None? ==> p == answer.value.self
  {
    match answer
    case None => None
    case Some(a) =>
      if a.product.Some? then a.product else if a.data.Some? then a.data else a.self
  }

  function DescriptionCandidates(f: DescriptionFields): seq<string> {
    [f.description, f.longDescription, f.productDescription, f.details, f.desc, f.metaDescription]
  }

  /** The first non-empty string of the list, or the fallback. */
  function FirstTruthy(candidates: seq<string>, fallback: string): (r: string)
    ensures (forall i :: 0 <= i < |candidates| ==> candidates[i] == "") ==> r == fallback
    ensures forall k :: 0 <= k < |candidates| ==>
      (candidates[k] != "" && (forall j :: 0 <= j < k ==> candidates[j] == "") ==> r == candidates[k])
  {
    if candidates == [] then fallback
    else if candidates[0] != "" then candidates[0]
    else
      var r := FirstTruthy(candidates[1..], fallback);
      assert forall k :: 1 <= k < |candidates| ==> candidates[k] == candidates[1..][k - 1];
      r
  }

  /** getDescriptionText: the first field that is set, in the fixed order,
      or the standard message; never empty. */
  function GetDescriptionText(p: Option<ProductRecord>): (r: string)
    ensures r != ""
    ensures p.None? ==> r == NoDescription
    ensures p.Some? && p.value.text.description != "" ==> r == p.value.text.description
    ensures p.Some? ==> r == NoDescription || r in DescriptionCandidates(p.value.text)
  {
    match p
    case None => NoDescription
    case Some(prod) => FirstTruthy(DescriptionCandidates(prod.text), NoDescription)
  }

  lemma {:induction false} FirstTruthyIsCandidate(candidates: seq<string>, fallback: string)
    ensures FirstTruthy(candidates, fallback) == fallback || FirstTruthy(candidates, fallback) in candidates
    ensures fallback != "" ==> FirstTruthy(candidates, fallback) != ""
  {
    if candidates != [] && candidates[0] == "" {
      FirstTruthyIsCandidate(candidates[1..], fallback);
    }
  }

  predicate Truthy(f: ProductImages.ImageField) {
    !(f.Absent? || f == ProductImages.Str(""))
  }

  /** getImages: the resolved list of images, then the single image, then
      image_url, then one empty slot for the placeholder. A loaded product
      always gets at least one entry. */
  function GetImages(p: Option<ProductRecord>, placeholder: string): (r: seq<Option<string>>)
    requires ProductImages.IsPlaceholder(placeholder)
    ensures p.None? <==> r == []
    ensures p.Some? && p.value.images != [] ==>
      |r| == |p.value.images| &&
      forall i :: 0 <= i < |r| ==> r[i] == Some(ProductImages.GetProductImageUrl(p.value.images[i], placeholder))
    ensures p.Some? && p.value.images == [] && Truthy(p.value.image) ==>
      r == [Some(ProductImages.GetProductImageUrl(p.value.image, placeholder))]
    ensures p.Some? && p.value.images == [] && !Truthy(p.value.image) && Truthy(p.value.imageUrl) ==>
      r == [Some(ProductImages.GetProductImageUrl(p.value.imageUrl, placeholder))]
    ensures p.Some? && p.value.images == [] && !Truthy(p.value.image) && !Truthy(p.value.imageUrl) ==>
      r == [None]
  {
    match p
    case None => []
    case Some(prod) =>
      if prod.images != [] then
        seq(|prod.images|, i requires 0 <= i < |prod.images| =>
          Some(ProductImages.GetProductImageUrl(prod.images[i], placeholder)))
      else if Truthy(prod.image) then [Some(ProductImages.GetProductImageUrl(prod.image, placeholder))]
      else if Truthy(prod.imageUrl) then [Some(ProductImages.GetProductImageUrl(prod.imageUrl, placeholder))]
      else [None]
  }

  /** Every slot that is filled holds a non-empty address. */
  lemma ImagesNeverEmptyStrings(p: Option<ProductRecord>, placeholder: string)
    requires ProductImages.IsPlaceholder(placeholder)
    ensures forall i :: 0 <= i < |GetImages(p, placeholder)| && GetImages(p, placeholder)[i].Some? ==>
      GetImages(p, placeholder)[i].value != ""
  {
  }

  /** `.filter(p => p.id !== prod.id)` */
  function Others(products: seq<ProductRecord>, id: int): (r: seq<ProductRecord>)
    ensures |r| <= |products|
    ensures forall x :: x in r <==> x in products && x.id != id
  {
    if products == [] then []
    else (if products[0].id != id then [products[0]] else []) + Others(products[1..], id)
  }

  /** The filter works element by element: it distributes over
      concatenation (OthersConcat), and a single product is kept exactly
      when its id differs (OthersOfOne). With Others([]) == [] this fixes
      the result, so the kept products stay in the order received. */
  lemma {:induction false} OthersConcat(a: seq<ProductRecord>, b: seq<ProductRecord>, id: int)
    ensures Others(a + b, id) == Others(a, id) + Others(b, id)
  {
    if a == [] {
      assert a + b == b;
    } else {
      var head := if a[0].id != id then [a[0]] else [];
      assert (a + b)[0] == a[0] && (a + b)[1..] == a[1..] + b;
      OthersConcat(a[1..], b, id);
      calc {
        Others(a + b, id);
        head + Others(a[1..] + b, id);
        head + (Others(a[1..], id) + Others(b, id));
        (head + Others(a[1..], id)) + Others(b, id);
      }
    }
  }

  lemma OthersOfOne(p: ProductRecord, id: int)
    ensures Others([p], id) == if p.id != id then [p] else []
  {
    assert [p][1..] == [];
  }

  /** Each kept product appears as often as it was received; the current
      product's id leaves no copy. */
  lemma {:induction false} OthersKeepsMultiplicity(products: seq<ProductRecord>, id: int, x: ProductRecord)
    ensures multiset(Others(products, id))[x] == if x.id != id then multiset(products)[x] else 0
  {
    if products != [] {
      OthersKeepsMultiplicity(products[1..], id, x);
      assert products == [products[0]] + products[1..];
    }
  }

  /** The related products: the other products of the category, the
      current one left out, at most four, in the order received. */
  function Related(products: seq<ProductRecord>, id: int): (r: seq<ProductRecord>)
    ensures |r| <= RelatedLimit
    ensures forall x :: x in r ==> x in products && x.id != id
    ensures r <= Others(products, id)
    ensures |Others(products, id)| >= RelatedLimit ==> |r| == RelatedLimit
    ensures |Others(products, id)| <= RelatedLimit ==> r == Others(products, id)
  {
    var others := Others(products, id);
    var r := if |others| <= RelatedLimit then others else others[..RelatedLimit];
    assert forall x :: x in r ==> x in others;
    r
  }

  /** `stock_quantity || stock || 99` */
  function MaxQuantity(p: ProductRecord): (m: int)
    ensures p.stockQuantity != 0 ==> m == p.stockQuantity
    ensures p.stockQuantity == 0 && p.stock != 0 ==> m == p.stock
    ensures p.stockQuantity == 0 && p.stock == 0 ==> m == DefaultMaxQuantity
  {
    if p.stockQuantity != 0 then p.stockQuantity else if p.stock != 0 then p.stock else DefaultMaxQuantity
  }

  /** The typed value: `Math.max(1, parseInt(value) || 1)`; `parsed` is
      None where parseInt gives NaN. */
  function TypedQuantity(parsed: Option<int>): (q: int)
    ensures q >= 1
    ensures parsed.Some? && parsed.value >= 1 ==> q == parsed.value
    ensures parsed.None? || parsed.value < 1 ==> q == 1
  {
    var n := if parsed.None? || parsed.value == 0 then 1 else parsed.value;
    if n >= 1 then n else 1
  }

  /** Typing is not capped at the stock limit: any positive number is
      taken as it is, above the limit included. */
  lemma TypingIgnoresStock(p: ProductRecord, n: int)
    requires n > MaxQuantity(p) && n >= 1
    ensures TypedQuantity(Some(n)) > MaxQuantity(p)
  {
  }

  /** The quantity selector. The buttons are disabled at the bounds, and
      a click on a disabled button does nothing. */
  class QuantityStepper {
    var quantity: int

    ghost predicate Valid()
      reads this
    {
      quantity >= 1
    }

    constructor ()
      ensures Valid() && quantity == 1
    {
      quantity := 1;
    }

    /** '−': `Math.max(1, q - 1)`, disabled at 1 or below. */
    method Decrement()
      requires Valid()
      modifies this
      ensures Valid()
      ensures old(quantity) <= 1 ==> quantity == old(quantity)
      ensures old(quantity) > 1 ==> quantity == old(quantity) - 1
    {
      if quantity > 1 {
        quantity := if quantity - 1 >= 1 then quantity - 1 else 1;
      }
    }

    /** '+': `Math.min(max, q + 1)`, disabled once the limit is reached. */
    method Increment(p: ProductRecord)
      requires Valid()
      modifies this
      ensures Valid()
      ensures old(quantity) >= MaxQuantity(p) ==> quantity == old(quantity)
      ensures old(quantity) < MaxQuantity(p) ==> quantity == old(quantity) + 1 && quantity <= MaxQuantity(p)
    {
      var max := MaxQuantity(p);
      if quantity < max {
        quantity := if max <= quantity + 1 then max else quantity + 1;
      }
    }

    /** Typing a number into the field. */
    method Type(parsed: Option<int>)
      modifies this
      ensures Valid() && quantity == TypedQuantity(parsed)
    {
      quantity := TypedQuantity(parsed);
    }
  }

  /** The buttons alone never leave [1, max] once inside it. */
  lemma {:induction false} ButtonsStayInRange(q: int, max: int, ups: nat, downs: nat)
    requires 1 <= q <= max
    ensures 1 <= Clicks(q, max, ups, downs) <= max
    decreases ups + downs
  {
    if ups > 0 {
      ButtonsStayInRange(if q < max then q + 1 else q, max, ups - 1, downs);
    } else if downs > 0 {
      ButtonsStayInRange(if q > 1 then q - 1 else q, max, 0, downs - 1);
    }
  }

  /** Some '+' clicks, then some '−' clicks, each ignored when disabled. */
  function Clicks(q: int, max: int, ups: nat, downs: nat): int
    decreases ups + downs
  {
    if ups > 0 then Clicks(if q < max then q + 1 else q, max, ups - 1, downs)
    else if downs > 0 then Clicks(if q > 1 then q - 1 else q, max, 0, downs - 1)
    else q
  }
}

=== FILE: product_images.dfy ===
/** getProductImageUrl of src/components/common/ProductImage/ProductImage.jsx:
    how a product's image field, in whatever form the API sent it, becomes
    something an <img> can load. The placeholder is a data URL holding an
    inline SVG; its encoded text is a parameter. */
module ProductImages {
  import opened Text

  /** The forms the image field arrives in: nothing (any falsy value), a
      string, an object with a `url` field ("" when it has none), or any
      other truthy value such as a number. */
  datatype ImageField = Absent | Str(text: string) | Record(url: string) | Other

  const SvgDataPrefix := "data:image/svg+xml,"

  predicate IsPlaceholder(p: string) {
    StartsWith(p, SvgDataPrefix)
  }

  /** A string the browser can load as it is: an absolute http(s) URL, a
      data URL, or a path from the site root. */
  predicate Loadable(s: string) {
    StartsWith(s, "http://") || StartsWith(s, "https://") || StartsWith(s, "data:") || StartsWith(s, "/")
  }

  function GetProductImageUrl(image: ImageField, placeholder: string): (r: string)
    requires IsPlaceholder(placeholder)
    ensures r != ""
    ensures image.Absent? || image == Str("") || image == Record("") || image.Other? ==> r == placeholder
    ensures image.Record? && image.url != "" ==> r == image.url
    ensures image.Str? && Loadable(image.text) ==> r == image.text
    ensures image.Str? && image.text != "" && !Loadable(image.text) ==> r == "/" + image.text
  {
    match image
    case Absent => placeholder
    case Str(s) =>
      if s == "" then placeholder
      else if StartsWith(s, "http://") || StartsWith(s, "https://") then s
      else if StartsWith(s, "data:") then s
      else if StartsWith(s, "/") then s
      else "/" + s
    case Record(url) => if url != "" then url else placeholder
    case Other => placeholder
  }

  /** Whatever string comes in, what goes out is loadable. */
  lemma StringsResolveToLoadable(s: string, placeholder: string)
    requires IsPlaceholder(placeholder)
    ensures Loadable(GetProductImageUrl(Str(s), placeholder))
  {
    var r := GetProductImageUrl(Str(s), placeholder);
    if s != "" && !Loadable(s) {
      assert r == "/" + s && r[0] == '/';
    } else if s == "" {
      assert placeholder[..5] == "data:" by {
        assert placeholder[..|SvgDataPrefix|][..5] == SvgDataPrefix[..5];
      }
    }
  }

  /** Resolving a resolved string again changes nothing. */
  lemma ResolveIsIdempotent(s: string, placeholder: string)
    requires IsPlaceholder(placeholder)
    ensures var r := GetProductImageUrl(Str(s), placeholder);
      GetProductImageUrl(Str(r), placeholder) == r
  {
    StringsResolveToLoadable(s, placeholder);
  }
}

=== FILE: route_guards.dfy ===
/** The four route guards of src/App.jsx. Each looks at the session's
    loading, isAuthenticated and isAdmin flags and either shows the
    spinner, redirects, shows the access-denied page, or renders the page
    it guards. */
module RouteGuards {

  datatype Flags = Flags(loading: bool, authenticated: bool, admin: bool)

  datatype Decision = Spinner | Redirect(to: string) | AccessDenied | Render

  const SignInPath := "/auth"
  const AdminHome := "/admin"
  const ProductsHome := "/products"

  /** ProtectedRoute: any signed-in user. */
  function Protected(f: Flags): (d: Decision)
    ensures f.loading ==> d == Spinner
    ensures !f.loading && !f.authenticated ==> d == Redirect(SignInPath)
    ensures d == Render <==> !f.loading && f.authenticated
  {
    if f.loading then Spinner
    else if !f.authenticated then Redirect(SignInPath)
    else Render
  }

  /** PublicOnlyRoute: signed-in users are sent home, admins to the admin
      panel and everyone else to the products. */
  function PublicOnly(f: Flags): (d: Decision)
    ensures f.loading ==> d == Spinner
    ensures d == Render <==> !f.loading && !f.authenticated
    ensures !f.loading && f.authenticated ==> d == Redirect(if f.admin then AdminHome else ProductsHome)
  {
    if f.loading then Spinner
    else if f.authenticated then Redirect(if f.admin then AdminHome else ProductsHome)
    else Render
  }

  /** UserOnlyRoute: signed-in users who are not admins. */
  function UserOnly(f: Flags): (d: Decision)
    ensures f.loading ==> d == Spinner
    ensures !f.loading && !f.authenticated ==> d == Redirect(SignInPath)
    ensures !f.loading && f.authenticated && f.admin ==> d == AccessDenied
    ensures d == Render <==> !f.loading && f.authenticated && !f.admin
  {
    if f.loading then Spinner
    else if !f.authenticated then Redirect(SignInPath)
    else if f.admin then AccessDenied
    else Render
  }

  /** AdminRoute: signed-in admins. */
  function AdminOnly(f: Flags): (d: Decision)
    ensures f.loading ==> d == Spinner
    ensures !f.loading && !f.authenticated ==> d == Redirect(SignInPath)
    ensures !f.loading && f.authenticated && !f.admin ==> d == AccessDenied
    ensures d == Render <==> !f.loading && f.authenticated && f.admin
  {
    if f.loading then Spinner
    else if !f.authenticated then Redirect(SignInPath)
    else if !f.admin then AccessDenied
    else Render
  }

  /** No one gets both the user pages and the admin pages, and every
      signed-in user who is not loading gets exactly one of them. */
  lemma UserAndAdminPagesDisjoint(f: Flags)
    ensures !(UserOnly(f) == Render && AdminOnly(f) == Render)
    ensures !f.loading && f.authenticated ==> (UserOnly(f) == Render || AdminOnly(f) == Render)
  {
  }

  /** Exactly one of the sign-in page and the protected pages renders once
      loading is over. */
  lemma PublicAndProtectedComplementary(f: Flags)
    requires !f.loading
    ensures PublicOnly(f) == Render <==> Protected(f) != Render
  {
  }
}

=== FILE: search_bar.dfy ===
/** The search box of src/components/common/SearchBar/SearchBar.jsx: the
    query, the suggestion list, whether it is shown, and the keyboard
    selection. The debounced product lookup is split in two: a query change
    says whether a lookup is scheduled, and its answer arrives later through
    SuggestionsArrived. Navigation and the onSearch callback are returned as
    an Effect. */
module SearchBox {
  import opened Wrappers
  import opened Text
  import Api

  datatype Suggestion = Suggestion(id: int, name: string)

  datatype Key = ArrowDown | ArrowUp | Enter | Escape | OtherKey

  /** What a handler hands to the outside world. */
  datatype Effect = NoEffect | SearchCallback(query: string) | Navigate(path: string)

  /** Queries shorter than this get no lookup. */
  const MinQueryLength := 2

  function Min(a: int, b: int): int { if a <= b then a else b }
  function Max(a: int, b: int): int { if a >= b then a else b }

  /** The selection after an arrow key with `n` suggestions: down moves one
      further but never past the last, up moves one back but never before
      -1 (nothing selected). */
  function Moved(key: Key, i: int, n: nat): (j: int)
    requires key == ArrowDown || key == ArrowUp
    requires n >= 1 && -1 <= i
    ensures -1 <= j
    ensures key == ArrowDown ==> j <= n - 1 && (i < n - 1 ==> j == i + 1) && (i >= n - 1 ==> j == n - 1)
    ensures key == ArrowUp ==> j <= i && (i >= 0 ==> j == i - 1) && (i == -1 ==> j == -1)
  {
    if key == ArrowDown then Min(i + 1, n - 1) else Max(i - 1, -1)
  }

  /** Arrow keys never take an in-range selection out of [-1, n-1]. */
  lemma ArrowsStayInRange(key: Key, i: int, n: nat)
    requires key == ArrowDown || key == ArrowUp
    requires n >= 1 && -1 <= i <= n - 1
    ensures -1 <= Moved(key, i, n) <= n - 1
  {
  }

  /** Enough ArrowDown presses reach the last suggestion and stay there. */
  lemma {:induction false} DownReachesLast(i: int, n: nat, presses: nat)
    requires n >= 1 && -1 <= i <= n - 1 && presses >= n
    ensures DownTimes(i, n, presses) == n - 1
  {
    DownTimesIs(i, n, presses);
  }

  function DownTimes(i: int, n: nat, presses: nat): int
    requires n >= 1 && -1 <= i
    decreases presses
  {
    if presses == 0 then i else DownTimes(Moved(ArrowDown, i, n), n, presses - 1)
  }

  lemma {:induction false} DownTimesIs(i: int, n: nat, presses: nat)
    requires n >= 1 && -1 <= i <= n - 1
    ensures DownTimes(i, n, presses) == Min(i + presses, n - 1)
    decreases presses
  {
    if presses > 0 {
      DownTimesIs(Moved(ArrowDown, i, n), n, presses - 1);
    }
  }

  // ---- encodeURIComponent ----

  /** The bytes encodeURIComponent leaves as they are: letters, digits and
      - _ . ! ~ * ' ( ). */
  predicate UriUnreserved(b: int) {
    0x30 <= b <= 0x39 || 0x41 <= b <= 0x5A || 0x61 <= b <= 0x7A
    || b == 0x2D || b == 0x5F || b == 0x2E || b == 0x21 || b == 0x7E
    || b == 0x2A || b == 0x27 || b == 0x28 || b == 0x29
  }

  /** One byte: an unreserved byte as itself, any other, space included,
      as %XX with upper-case hex digits. */
  function EncodeUriByte(b: int): (s: string)
    requires 0 <= b < 256
    ensures UriUnreserved(b) ==> s == [b as char]
    ensures !UriUnreserved(b) ==> s == ['%', Api.HexDigit(b / 16), Api.HexDigit(b % 16)]
  {
    if UriUnreserved(b) then [b as char]
    else ['%', Api.HexDigit(b / 16), Api.HexDigit(b % 16)]
  }

  predicate AreBytes(bytes: seq<int>) {
    forall i :: 0 <= i < |bytes| ==> 0 <= bytes[i] < 256
  }

  function EncodeUriBytes(bytes: seq<int>): string
    requires AreBytes(bytes)
  {
    if bytes == [] then "" else EncodeUriByte(bytes[0]) + EncodeUriBytes(bytes[1..])
  }

  /** `encodeURIComponent(s)`: the UTF-8 bytes of each character in turn. */
  function EncodeUriComponent(s: string): string {
    if s == [] then "" else EncodeUriBytes(Api.Utf8(s[0])) + EncodeUriComponent(s[1..])
  }

  /** The value of a hex digit, upper or lower case; 0 for anything else. */
  function HexValue(c: char): (d: int)
    ensures 0 <= d < 16
  {
    if '0' <= c <= '9' then c as int - '0' as int
    else if 'A' <= c <= 'F' then c as int - 'A' as int + 10
    else if 'a' <= c <= 'f' then c as int - 'a' as int + 10
    else 0
  }

  /** The byte step of decodeURIComponent: %XX is the byte XX, any other
      character its own code. */
  function DecodeUriBytes(s: string): seq<int>
    decreases |s|
  {
    if s == [] then []
    else if s[0] == '%' && |s| >= 3 then [HexValue(s[1]) * 16 + HexValue(s[2])] + DecodeUriBytes(s[3..])
    else [s[0] as int] + DecodeUriBytes(s[1..])
  }

  lemma HexValueOfDigit(d: int)
    requires 0 <= d < 16
    ensures HexValue(Api.HexDigit(d)) == d
  {
    var digits := "0123456789ABCDEF";
    assert Api.HexDigit(d) == digits[d];
  }

  /** Decoding consumes exactly the text one byte encodes to. */
  lemma DecodeEncodedByte(b: int, rest: string)
    requires 0 <= b < 256
    ensures DecodeUriBytes(EncodeUriByte(b) + rest) == [b] + DecodeUriBytes(rest)
  {
    var e := EncodeUriByte(b);
    if UriUnreserved(b) {
      assert (e + rest)[0] == b as char && (e + rest)[1..] == rest;
    } else {
      HexValueOfDigit(b / 16);
      HexValueOfDigit(b % 16);
      assert (e + rest)[0] == '%' && (e + rest)[1] == e[1] && (e + rest)[2] == e[2];
      assert (e + rest)[3..] == rest;
    }
  }

  /** Percent-decoding gives back the bytes that were encoded. */
  lemma {:induction false} DecodeInvertsEncode(bytes: seq<int>)
    requires AreBytes(bytes)
    ensures DecodeUriBytes(EncodeUriBytes(bytes)) == bytes
  {
    if bytes != [] {
      DecodeInvertsEncode(bytes[1..]);
      DecodeEncodedByte(bytes[0], EncodeUriBytes(bytes[1..]));
    }
  }

  /** The characters encodeURIComponent can write. */
  predicate UriSafe(c: char) {
    UriUnreserved(c as int) || c == '%' || '0' <= c <= '9' || 'A' <= c <= 'F'
  }

  predicate AllUriSafe(s: string) {
    forall i :: 0 <= i < |s| ==> UriSafe(s[i])
  }

  lemma UriSafeConcat(a: string, b: string)
    requires AllUriSafe(a) && AllUriSafe(b)
    ensures AllUriSafe(a + b)
  {
    forall i | 0 <= i < |a + b| ensures UriSafe((a + b)[i]) {
      if i >= |a| {
        assert (a + b)[i] == b[i - |a|];
      }
    }
  }

  lemma {:induction false} EncodeUriBytesSafe(bytes: seq<int>)
    requires AreBytes(bytes)
    ensures AllUriSafe(EncodeUriBytes(bytes))
  {
    if bytes != [] {
      EncodeUriBytesSafe(bytes[1..]);
      UriSafeConcat(EncodeUriByte(bytes[0]), EncodeUriBytes(bytes[1..]));
    }
  }

  /** An encoded query holds no space, '+', '&', '=' or '#', so it reaches
      the listing as the single `search` value, spaces as %20. */
  lemma {:induction false} EncodeUriComponentIsOneValue(s: string)
    ensures AllUriSafe(EncodeUriComponent(s))
    ensures ' ' !in EncodeUriComponent(s) && '+' !in EncodeUriComponent(s)
    ensures '&' !in EncodeUriComponent(s) && '=' !in EncodeUriComponent(s) && '#' !in EncodeUriComponent(s)
  {
    if s != [] {
      EncodeUriBytesSafe(Api.Utf8(s[0]));
      EncodeUriComponentIsOneValue(s[1..]);
      UriSafeConcat(EncodeUriBytes(Api.Utf8(s[0])), EncodeUriComponent(s[1..]));
    }
  }

  /** Text made only of unreserved ASCII characters is left as it is. */
  lemma {:induction false} UnreservedTextUnchanged(s: string)
    requires forall i :: 0 <= i < |s| ==> UriUnreserved(s[i] as int)
    ensures EncodeUriComponent(s) == s
  {
    if s != [] {
      assert Api.Utf8(s[0]) == [s[0] as int];
      assert EncodeUriBytes([s[0] as int]) == [s[0]];
      UnreservedTextUnchanged(s[1..]);
    }
  }

  /** A space becomes %20, not '+'. */
  lemma SpaceIsPercent20()
    ensures EncodeUriComponent(" ") == "%20"
  {
    assert Api.Utf8(' ') == [0x20];
    assert Api.HexDigit(2) == '2' && Api.HexDigit(0) == '0';
    assert EncodeUriBytes([0x20]) == "%20";
  }

  /** Two words of unreserved characters joined by a space are sent with
      %20 between them, not '+': "red shoes" becomes red%20shoes. */
  lemma SpaceSentAsPercent20(a: string, b: string)
    requires forall i :: 0 <= i < |a| ==> UriUnreserved(a[i] as int)
    requires forall i :: 0 <= i < |b| ==> UriUnreserved(b[i] as int)
    ensures EncodeUriComponent(a + " " + b) == a + "%20" + b
  {
    UnreservedTextUnchanged(a);
    UnreservedTextUnchanged(b);
    SpaceIsPercent20();
    EncodeUriComponentConcat(a, " ");
    EncodeUriComponentConcat(a + " ", b);
  }

  /** '!' is one of the characters left as they are. */
  lemma BangKept()
    ensures EncodeUriComponent("a!") == "a!"
  {
    UnreservedTextUnchanged("a!");
  }

  /** encodeURIComponent works character by character. */
  lemma {:induction false} EncodeUriComponentConcat(a: string, b: string)
    ensures EncodeUriComponent(a + b) == EncodeUriComponent(a) + EncodeUriComponent(b)
  {
    if a == [] {
      assert a + b == b;
    } else {
      assert (a + b)[0] == a[0] && (a + b)[1..] == a[1..] + b;
      EncodeUriComponentConcat(a[1..], b);
      var head := EncodeUriBytes(Api.Utf8(a[0]));
      calc {
        EncodeUriComponent(a + b);
        head + EncodeUriComponent(a[1..] + b);
        head + (EncodeUriComponent(a[1..]) + EncodeUriComponent(b));
        (head + EncodeUriComponent(a[1..])) + EncodeUriComponent(b);
      }
    }
  }

  /** The UTF-8 bytes of a whole text. */
  function Utf8Text(s: string): (bytes: seq<int>)
    ensures AreBytes(bytes)
  {
    if s == [] then [] else Api.Utf8(s[0]) + Utf8Text(s[1..])
  }

  lemma {:induction false} EncodeUriBytesConcat(a: seq<int>, b: seq<int>)
    requires AreBytes(a) && AreBytes(b)
    ensures AreBytes(a + b)
    ensures EncodeUriBytes(a + b) == EncodeUriBytes(a) + EncodeUriBytes(b)
  {
    if a == [] {
      assert a + b == b;
    } else {
      assert (a + b)[0] == a[0] && (a + b)[1..] == a[1..] + b;
      EncodeUriBytesConcat(a[1..], b);
    }
  }

  /** encodeURIComponent is the byte encoder applied to the UTF-8 bytes of
      the whole text. */
  lemma {:induction false} EncodeUriComponentIsBytes(s: string)
    ensures EncodeUriComponent(s) == EncodeUriBytes(Utf8Text(s))
  {
    if s != [] {
      EncodeUriComponentIsBytes(s[1..]);
      EncodeUriBytesConcat(Api.Utf8(s[0]), Utf8Text(s[1..]));
    }
  }

  /** decodeURIComponent's byte step gives back the text's UTF-8 bytes. */
  lemma DecodeUriComponentInverts(s: string)
    ensures DecodeUriBytes(EncodeUriComponent(s)) == Utf8Text(s)
  {
    EncodeUriComponentIsBytes(s);
    DecodeInvertsEncode(Utf8Text(s));
  }

  const SearchPrefix := "/products?search="

  /** Where a search leads when no onSearch callback is given: the listing,
      with the query as a `search` value that holds no separator and
      percent-decodes to the query's UTF-8 bytes. */
  function SearchPath(query: string): (path: string)
    ensures |path| >= |SearchPrefix| && path[..|SearchPrefix|] == SearchPrefix
    ensures DecodeUriBytes(path[|SearchPrefix|..]) == Utf8Text(query)
    ensures ' ' !in path[|SearchPrefix|..] && '+' !in path[|SearchPrefix|..]
    ensures '&' !in path[|SearchPrefix|..] && '#' !in path[|SearchPrefix|..]
  {
    var value := EncodeUriComponent(query);
    DecodeUriComponentInverts(query);
    EncodeUriComponentIsOneValue(query);
    assert (SearchPrefix + value)[|SearchPrefix|..] == value;
    SearchPrefix + value
  }

  /** What handleSearch hands out for a query: nothing for a query that is
      blank once trimmed, the callback when one is given, the product
      listing otherwise. */
  function SearchEffect(query: string, hasOnSearch: bool): (e: Effect)
    ensures e == NoEffect <==> !HasNonSpace(query)
    ensures e.SearchCallback? ==> hasOnSearch && e.query == query
    ensures e.Navigate? ==> !hasOnSearch && e.path == SearchPath(query)
  {
    if !HasNonSpace(query) then NoEffect
    else if hasOnSearch then SearchCallback(query)
    else Navigate(SearchPath(query))
  }

  /** A product page: the id after the fixed prefix, with no query part,
      so it is never a search. */
  function ProductPath(id: int): (path: string)
    ensures |path| > |ProductPrefix| && path[..|ProductPrefix|] == ProductPrefix
    ensures path[|ProductPrefix|..] == IntToString(id)
    ensures '?' !in path
  {
    var digits := IntToString(id);
    var path := ProductPrefix + digits;
    assert forall i :: |ProductPrefix| <= i < |path| ==> path[i] == digits[i - |ProductPrefix|];
    assert forall i :: 0 <= i < |digits| ==> digits[i] == '-' || IsDigit(digits[i]) by {
      if id < 0 {
        assert forall i :: 1 <= i < |digits| ==> digits[i] == digits[1..][i - 1];
      }
    }
    assert path[..|ProductPrefix|] == ProductPrefix;
    path
  }

  const ProductPrefix := "/products/"

  class SearchBar {
    var query: string
    var suggestions: seq<Suggestion>
    var showSuggestions: bool
    var selectedIndex: int

    /** The selection is never below -1. It may point past the list when a
        new, shorter list arrives after the arrow keys moved. */
    ghost predicate Valid()
      reads this
    {
      -1 <= selectedIndex
    }

    constructor ()
      ensures Valid()
      ensures query == "" && suggestions == [] && !showSuggestions && selectedIndex == -1
    {
      query := "";
      suggestions := [];
      showSuggestions := false;
      selectedIndex := -1;
    }

    /** The effect that runs when the query changes: a short query clears
        the suggestions and schedules nothing; a longer one schedules a
        lookup. Setting the same query again does not run it. */
    method SetQuery(value: string) returns (lookup: bool)
      modifies this
      ensures query == value
      ensures lookup <==> value != old(query) && |value| >= MinQueryLength
      ensures suggestions == (if value != old(query) && |value| < MinQueryLength then [] else old(suggestions))
      ensures showSuggestions == old(showSuggestions) && selectedIndex == old(selectedIndex)
    {
      var changed := value != query;
      query := value;
      lookup := false;
      if changed {
        if |value| < MinQueryLength {
          suggestions := [];
        } else {
          lookup := true;
        }
      }
    }

    /** handleInputChange: the typed text becomes the query, the list is
        shown and nothing is selected. */
    method InputChange(value: string) returns (lookup: bool)
      requires Valid()
      modifies this
      ensures Valid()
      ensures query == value && showSuggestions && selectedIndex == -1
      ensures lookup <==> value != old(query) && |value| >= MinQueryLength
      ensures suggestions == (if value != old(query) && |value| < MinQueryLength then [] else old(suggestions))
    {
      lookup := SetQuery(value);
      showSuggestions := true;
      selectedIndex := -1;
    }

    /** The answer of the scheduled lookup: its products, or none when the
        request failed. The selection is left where it was. */
    method SuggestionsArrived(answer: Option<seq<Suggestion>>)
      requires Valid()
      modifies this
      ensures Valid()
      ensures suggestions == answer.GetOr([])
      ensures query == old(query) && showSuggestions == old(showSuggestions) && selectedIndex == old(selectedIndex)
    {
      suggestions := answer.GetOr([]);
    }

    /** handleSearch: a query that is blank once trimmed does nothing;
        otherwise the list is hidden and the query goes to onSearch when
        one is given, to the product listing otherwise. */
    method Search(hasOnSearch: bool) returns (effect: Effect)
      modifies this
      ensures query == old(query) && suggestions == old(suggestions) && selectedIndex == old(selectedIndex)
      ensures effect == SearchEffect(query, hasOnSearch)
      ensures showSuggestions == (old(showSuggestions) && !HasNonSpace(query))
    {
      effect := SearchEffect(query, hasOnSearch);
      if HasNonSpace(query) {
        showSuggestions := false;
      }
    }

    /** handleSelectSuggestion: the product's name becomes the query, the
        list is hidden and the product page opens. */
    method SelectSuggestion(product: Suggestion) returns (effect: Effect, lookup: bool)
      requires Valid()
      modifies this
      ensures Valid()
      ensures query == product.name && !showSuggestions && selectedIndex == old(selectedIndex)
      ensures effect == Navigate(ProductPath(product.id))
      ensures lookup <==> product.name != old(query) && |product.name| >= MinQueryLength
      ensures suggestions == (if product.name != old(query) && |product.name| < MinQueryLength then [] else old(suggestions))
    {
      lookup := SetQuery(product.name);
      showSuggestions := false;
      effect := Navigate(ProductPath(product.id));
    }

    /** handleKeyDown. With the list hidden or empty only Enter acts, and
        it searches. Otherwise the arrows move the selection, Escape hides
        the list, and Enter opens the selected suggestion or, with nothing
        selected, searches. Enter on a selection past the end of a list that
        has since shrunk fails before touching any state. */
    method KeyDown(key: Key, hasOnSearch: bool) returns (effect: Effect, lookup: bool)
      requires Valid()
      modifies this
      ensures Valid()
      ensures !old(showSuggestions) || old(suggestions) == [] ==>
        (key != Enter ==> effect == NoEffect && !lookup && unchanged(this)) &&
        (key == Enter ==>
           effect == SearchEffect(old(query), hasOnSearch) && !lookup && query == old(query) &&
           suggestions == old(suggestions) && selectedIndex == old(selectedIndex) &&
           showSuggestions == (old(showSuggestions) && !HasNonSpace(query)))
      ensures old(showSuggestions) && old(suggestions) != [] ==>
        (key == ArrowDown || key == ArrowUp ==>
           selectedIndex == Moved(key, old(selectedIndex), |old(suggestions)|) &&
           effect == NoEffect && !lookup &&
           query == old(query) && suggestions == old(suggestions) && showSuggestions) &&
        (key == Escape ==>
           !showSuggestions && effect == NoEffect && !lookup &&
           query == old(query) && suggestions == old(suggestions) && selectedIndex == old(selectedIndex)) &&
        (key == OtherKey ==> effect == NoEffect && !lookup && unchanged(this)) &&
        (key == Enter && 0 <= old(selectedIndex) < |old(suggestions)| ==>
           var name := old(suggestions)[old(selectedIndex)].name;
           effect == Navigate(ProductPath(old(suggestions)[old(selectedIndex)].id)) &&
           query == name && !showSuggestions && selectedIndex == old(selectedIndex) &&
           (lookup <==> name != old(query) && |name| >= MinQueryLength) &&
           suggestions == (if name != old(query) && |name| < MinQueryLength then [] else old(suggestions))) &&
        (key == Enter && old(selectedIndex) >= |old(suggestions)| ==>
           effect == NoEffect && !lookup && unchanged(this)) &&
        (key == Enter && old(selectedIndex) == -1 ==>
           effect == SearchEffect(old(query), hasOnSearch) && !lookup && query == old(query) &&
           suggestions == old(suggestions) && selectedIndex == -1 &&
           showSuggestions == !HasNonSpace(query))
    {
      effect, lookup := NoEffect, false;
      if !showSuggestions || |suggestions| == 0 {
        if key == Enter {
          effect := Search(hasOnSearch);
        }
        return;
      }
      match key {
        case ArrowDown =>
          selectedIndex := Moved(ArrowDown, selectedIndex, |suggestions|);
        case ArrowUp =>
          selectedIndex := Moved(ArrowUp, selectedIndex, |suggestions|);
        case Enter =>
          if selectedIndex >= 0 {
            if selectedIndex < |suggestions| {
              effect, lookup := SelectSuggestion(suggestions[selectedIndex]);
            }
          } else {
            effect := Search(hasOnSearch);
          }
        case Escape =>
          showSuggestions := false;
        case OtherKey =>
      }
    }
  }
}

=== FILE: session.dfy ===
/** The session state of src/context/AuthContext.jsx: the user, the bearer
    token ("" for none), the loading flag and the email-verified flag, kept
    next to localStorage. The start-up check, login, signup, logout and
    updateUser change them step by step; the role flags are derived. */
module Session {
  import opened Wrappers
  import opened Storage
  import AuthService
  import Api
  import Text

  /** The body of the start-up verify response. */
  datatype VerifyResponse = VerifyResponse(user: Option<User>)

  /** What login and signup answer to the page: the user, or the message
      to show and, after a 401, the sign-in path the browser is reloading at. */
  datatype AuthResult = Signed(user: Option<User>) | Refused(error: string, reload: Option<string>)

  /** The message `fetch` rejects with when the network is unreachable. */
  const FailedToFetch := "Failed to fetch"

  /** isAuthenticated: `!!token && !!user`. */
  function IsAuthenticated(token: string, user: Option<User>): (b: bool)
    ensures b ==> token != "" && user.Some?
    ensures token != "" && IsAdmin(user) ==> b
  {
    token != "" && user.Some?
  }

  /** isAdmin: the role is 'admin' or 'super_admin'. */
  function IsAdmin(user: Option<User>): (b: bool)
    ensures b ==> user.Some? && user.value.role in {"admin", "super_admin"}
  {
    user.Some? && (user.value.role == "admin" || user.value.role == "super_admin")
  }

  /** isSuperAdmin: the role is 'super_admin'. */
  function IsSuperAdmin(user: Option<User>): (b: bool)
    ensures b ==> IsAdmin(user)
    ensures b <==> IsAdmin(user) && user.value.role != "admin"
  {
    user.Some? && user.value.role == "super_admin"
  }

  /** `data.user?.email_verified || false` */
  function VerifiedFlag(user: Option<User>): (b: bool)
    ensures b <==> user.Some? && user.value.emailVerified == Some(true)
  {
    match user
    case Some(u) => u.emailVerified.GetOr(false)
    case None => false
  }

  /** The user saved under 'user', when it holds a user record. */
  function SavedUser(entries: map<string, Stored>): (u: Option<User>)
    ensures u.Some? <==> UserKey in entries && entries[UserKey].UserJson?
    ensures u.Some? ==> entries[UserKey] == UserJson(u.value)
  {
    if UserKey in entries && entries[UserKey].UserJson? then Some(entries[UserKey].user) else None
  }

  /** 'user' holds non-empty text that is not a user record, such as the
      "undefined" a token-only response leaves behind: truthy, but
      JSON.parse throws on it. */
  predicate UnreadableUser(entries: map<string, Stored>) {
    UserKey in entries && entries[UserKey].Text? && entries[UserKey].text != ""
  }

  /** `savedToken && savedUser`: both keys are truthy. */
  function SavedSession(entries: map<string, Stored>): (saved: bool)
    ensures saved <==> StoredToken(entries) != "" && Truthy(entries, UserKey)
  {
    StoredToken(entries) != "" && (SavedUser(entries).Some? || UnreadableUser(entries))
  }

  /** A login or signup response with a token but no user leaves a saved
      session whose user cannot be parsed, so the next start-up check
      takes the branches that depend on JSON.parse failing. */
  lemma TokenOnlyLeavesUnreadableUser(entries: map<string, Stored>, token: string)
    requires token != ""
    ensures var after := AuthService.Persisted(entries, AuthService.AuthResponse(token, None));
      SavedSession(after) && UnreadableUser(after) && SavedUser(after).None?
  {
  }

  class AuthSession {
    const storage: LocalStorage
    var user: Option<User>
    var token: string
    var loading: bool
    var emailVerified: bool

    /** A token held in memory is always the one in storage. */
    ghost predicate Valid()
      reads this, storage
    {
      token != "" ==> TokenKey in storage.entries && storage.entries[TokenKey] == Text(token)
    }

    /** The provider mounts with the stored token, no user, and loading set. */
    constructor (storage: LocalStorage)
      ensures this.storage == storage && Valid()
      ensures token == StoredToken(storage.entries) && user == None
      ensures loading && !emailVerified
    {
      this.storage := storage;
      token := StoredToken(storage.entries);
      user := None;
      loading := true;
      emailVerified := false;
    }

    /** verifyAuth: with a saved token and user, a verified session keeps the
        token and takes the server's user (else the saved one); an unreachable
        server keeps the saved session; any other error clears both keys and
        the session. Loading ends in every case but two: when the saved user
        cannot be parsed, a success without a user throws in JSON.parse and
        is cleared like an error, and an unreachable server throws again
        inside the catch block, so loading is never switched off. A 401 from
        the verify request has already removed both keys and sent the browser
        to the sign-in path, which is returned as `reload`: whatever the catch
        block then sets, the page starts over from the emptied storage. */
    method VerifyAuth(outcome: Result<VerifyResponse, AuthService.Refusal>) returns (reload: Option<string>)
      requires Valid()
      modifies this, storage
      ensures Valid()
      ensures reload.Some? <==>
        SavedSession(old(storage.entries)) && outcome.Failure? && AuthService.Unauthorized(outcome.error)
      ensures reload.Some? ==>
        reload == Some(Api.SignInPath) && token == "" && user == None && !emailVerified && loading
        && storage.entries == WithoutSession(old(storage.entries))
      ensures !SavedSession(old(storage.entries)) ==>
        user == old(user) && token == old(token) && emailVerified == old(emailVerified)
        && storage.entries == old(storage.entries) && !loading
      ensures SavedSession(old(storage.entries)) && outcome.Success? && outcome.value.user.Some? ==>
        user == outcome.value.user && token == StoredToken(old(storage.entries))
        && emailVerified == VerifiedFlag(outcome.value.user)
        && storage.entries == old(storage.entries) && !loading
      ensures SavedSession(old(storage.entries)) && outcome.Success? && outcome.value.user.None?
              && SavedUser(old(storage.entries)).Some? ==>
        user == SavedUser(old(storage.entries)) && token == StoredToken(old(storage.entries))
        && !emailVerified && storage.entries == old(storage.entries) && !loading
      ensures SavedSession(old(storage.entries)) && outcome.Failure? && !AuthService.Unauthorized(outcome.error)
              && outcome.error.message == FailedToFetch && SavedUser(old(storage.entries)).Some? ==>
        user == SavedUser(old(storage.entries)) && token == StoredToken(old(storage.entries))
        && emailVerified == old(emailVerified) && storage.entries == old(storage.entries) && !loading
      ensures SavedSession(old(storage.entries)) && outcome.Failure? && !AuthService.Unauthorized(outcome.error)
              && outcome.error.message == FailedToFetch && SavedUser(old(storage.entries)).None? ==>
        unchanged(this) && storage.entries == old(storage.entries)
      ensures SavedSession(old(storage.entries)) && outcome.Failure? && !AuthService.Unauthorized(outcome.error)
              && outcome.error.message != FailedToFetch ==>
        user == None && token == "" && emailVerified == old(emailVerified)
        && storage.entries == WithoutSession(old(storage.entries)) && !loading
      ensures SavedSession(old(storage.entries)) && outcome.Success? && outcome.value.user.None?
              && SavedUser(old(storage.entries)).None? ==>
        user == None && token == "" && emailVerified == old(emailVerified)
        && storage.entries == WithoutSession(old(storage.entries)) && !loading
    {
      reload := None;
      var savedToken := StoredToken(storage.entries);
      var savedUser := SavedUser(storage.entries);
      if SavedSession(storage.entries) {
        var clear := false;
        match outcome {
          case Success(data) =>
            if data.user.Some? {
              user := data.user;
              token := savedToken;
              emailVerified := VerifiedFlag(data.user);
            } else if savedUser.Some? {
              user := savedUser;
              token := savedToken;
              emailVerified := false;
            } else {
              clear := true;
            }
          case Failure(e) =>
            if AuthService.Unauthorized(e) {
              reload := Api.DropSession(storage);
              Remount();
              return;
            } else if e.message != FailedToFetch {
              clear := true;
            } else if savedUser.Some? {
              user := savedUser;
              token := savedToken;
            } else {
              return;
            }
        }
        if clear {
          storage.RemoveItem(TokenKey);
          storage.RemoveItem(UserKey);
          user := None;
          token := "";
        }
      }
      loading := false;
    }

    /** The page load that `window.location.href` starts: the provider
        mounts afresh, as the constructor does, from what storage holds. */
    method Remount()
      modifies this
      ensures Valid()
      ensures token == StoredToken(storage.entries) && user == None
      ensures loading && !emailVerified
    {
      token := StoredToken(storage.entries);
      user := None;
      loading := true;
      emailVerified := false;
    }

    /** login: a response is stored and adopted. An error is answered with
        its message, or 'Login failed', and changes nothing, except that a
        401 has already dropped the stored session and reloads the page at
        the sign-in path, so the session starts over signed out. */
    method Login(outcome: Result<AuthService.AuthResponse, AuthService.Refusal>) returns (r: AuthResult)
      requires Valid()
      modifies this, storage
      ensures Valid()
      ensures outcome.Success? ==>
        token == outcome.value.token && user == outcome.value.user
        && emailVerified == VerifiedFlag(outcome.value.user) && loading == old(loading)
        && storage.entries == AuthService.Persisted(old(storage.entries), outcome.value)
        && r == Signed(outcome.value.user)
      ensures outcome.Failure? && !AuthService.Unauthorized(outcome.error) ==>
        token == old(token) && user == old(user) && emailVerified == old(emailVerified)
        && loading == old(loading) && storage.entries == old(storage.entries)
        && r == Refused(Text.OrElse(outcome.error.message, "Login failed"), None)
      ensures outcome.Failure? && AuthService.Unauthorized(outcome.error) ==>
        token == "" && user == None && !emailVerified && loading
        && storage.entries == WithoutSession(old(storage.entries))
        && r == Refused(Text.OrElse(outcome.error.message, "Login failed"), Some(Api.SignInPath))
    {
      var response, reload := AuthService.Login(storage, outcome);
      match response {
        case Success(data) =>
          token := data.token;
          user := data.user;
          emailVerified := VerifiedFlag(data.user);
          r := Signed(data.user);
        case Failure(e) =>
          if reload.Some? {
            Remount();
          }
          r := Refused(Text.OrElse(e.message, "Login failed"), reload);
      }
    }

    /** signup: like login, except that a new account is never email-verified. */
    method Signup(outcome: Result<AuthService.AuthResponse, AuthService.Refusal>) returns (r: AuthResult)
      requires Valid()
      modifies this, storage
      ensures Valid()
      ensures outcome.Success? ==>
        token == outcome.value.token && user == outcome.value.user && !emailVerified
        && loading == old(loading)
        && storage.entries == AuthService.Persisted(old(storage.entries), outcome.value)
        && r == Signed(outcome.value.user)
      ensures outcome.Failure? && !AuthService.Unauthorized(outcome.error) ==>
        token == old(token) && user == old(user) && emailVerified == old(emailVerified)
        && loading == old(loading) && storage.entries == old(storage.entries)
        && r == Refused(Text.OrElse(outcome.error.message, "Signup failed"), None)
      ensures outcome.Failure? && AuthService.Unauthorized(outcome.error) ==>
        token == "" && user == None && !emailVerified && loading
        && storage.entries == WithoutSession(old(storage.entries))
        && r == Refused(Text.OrElse(outcome.error.message, "Signup failed"), Some(Api.SignInPath))
    {
      var response, reload := AuthService.Signup(storage, outcome);
      match response {
        case Success(data) =>
          token := data.token;
          user := data.user;
          emailVerified := false;
          r := Signed(data.user);
        case Failure(e) =>
          if reload.Some? {
            Remount();
          }
          r := Refused(Text.OrElse(e.message, "Signup failed"), reload);
      }
    }

    /** logout: both keys are removed and the session is emptied. */
    method Logout()
      requires Valid()
      modifies this, storage
      ensures Valid() && loading == old(loading)
      ensures token == "" && user == None && !emailVerified
      ensures storage.entries == WithoutSession(old(storage.entries))
      ensures !IsAuthenticated(token, user) && !IsAdmin(user)
    {
      AuthService.Logout(storage);
      token := "";
      user := None;
      emailVerified := false;
    }

    /** updateUser: the new record replaces the user in memory and in storage. */
    method UpdateUser(u: User)
      requires Valid()
      modifies this, storage
      ensures Valid()
      ensures user == Some(u) && token == old(token) && emailVerified == old(emailVerified) && loading == old(loading)
      ensures storage.entries == old(storage.entries)[UserKey := UserJson(u)]
    {
      user := Some(u);
      storage.SetItem(UserKey, UserJson(u));
    }
  }

  /** The role flags: a super admin is an admin, an admin is exactly a
      signed-in user with role 'admin' or 'super_admin', and a super admin
      exactly one with role 'super_admin'. */
  lemma RoleFlags(user: Option<User>)
    ensures IsSuperAdmin(user) ==> IsAdmin(user)
    ensures IsAdmin(user) <==> user.Some? && user.value.role in {"admin", "super_admin"}
    ensures IsAdmin(user) && !IsSuperAdmin(user) ==> user.value.role == "admin"
    ensures IsSuperAdmin(user) <==> user.Some? && user.value.role == "super_admin"
  {
  }

  /** A login or signup response only signs the session in when it carries
      both a token and a user, and then storage agrees with it. */
  lemma SignedInOnlyWithToken(entries: map<string, Stored>, data: AuthService.AuthResponse)
    ensures IsAuthenticated(data.token, data.user) <==> data.token != "" && data.user.Some?
    ensures IsAuthenticated(data.token, data.user) ==>
      AuthService.IsAuthenticated(AuthService.Persisted(entries, data))
      && AuthService.CurrentUser(AuthService.Persisted(entries, data)) == Success(data.user)
  {
  }
}

=== FILE: storage.dfy ===
/** The browser's localStorage as the model sees it: a map from keys to stored
    values. The session modules only ever store the bearer token (as text) and
    the serialised user record, so a stored value is one of those two. */
module Storage {
  import opened Wrappers

  /** The user record kept by the session (the fields the client reads). */
  datatype User = User(id: int, username: string, email: string, role: string,
                       phone: string, location: string, emailVerified: Option<bool>)

  datatype Stored = Text(text: string) | UserJson(user: User)

  const TokenKey: string := "token"
  const UserKey: string := "user"

  class LocalStorage {
    var entries: map<string, Stored>

    constructor (initial: map<string, Stored>)
      ensures entries == initial
    {
      entries := initial;
    }

    method SetItem(key: string, value: Stored)
      modifies this
      ensures entries == old(entries)[key := value]
    {
      entries := entries[key := value];
    }

    method RemoveItem(key: string)
      modifies this
      ensures entries == old(entries) - {key}
    {
      entries := entries - {key};
    }
  }

  /** `localStorage.getItem(key)` is truthy: present and not the empty string. */
  predicate Truthy(entries: map<string, Stored>, key: string) {
    key in entries && entries[key] != Text("")
  }

  /** `localStorage.getItem('token')`, with null as "". */
  function StoredToken(entries: map<string, Stored>): (t: string)
    ensures t != "" ==> TokenKey in entries && entries[TokenKey] == Text(t)
    ensures t == "" <==> !Truthy(entries, TokenKey) || !entries[TokenKey].Text?
  {
    if TokenKey in entries && entries[TokenKey].Text? then entries[TokenKey].text else ""
  }

  /** What logging out, a rejected start-up token and a 401 response all do:
      both session keys go, every other key stays. */
  function WithoutSession(entries: map<string, Stored>): (r: map<string, Stored>)
    ensures TokenKey !in r && UserKey !in r
    ensures forall k :: k in entries && k != TokenKey && k != UserKey ==> k in r && r[k] == entries[k]
    ensures forall k :: k in r ==> k in entries
  {
    entries - {TokenKey, UserKey}
  }
}

=== FILE: text.dfy ===
/** Small string helpers shared by the modules: JavaScript's `||` on
    strings, startsWith, trim-emptiness and ASCII upper-casing, stated over
    seq<char>. */
module Text {

  /** `value || fallback` for a string: the value unless it is empty. */
  function OrElse(value: string, fallback: string): (r: string)
    ensures value != "" ==> r == value
    ensures value == "" ==> r == fallback
  {
    if value != "" then value else fallback
  }

  /** String.prototype.startsWith */
  predicate StartsWith(s: string, prefix: string) {
    prefix <= s
  }

  /** The characters matched by the regular-expression class \s. */
  predicate IsSpace(c: char) {
    c == ' ' || c == '\t' || c == '\n' || c == '\r' || c == '\U{000B}' || c == '\U{000C}'
    || c == '\U{00A0}' || c == '\U{1680}' || '\U{2000}' <= c <= '\U{200A}'
    || c == '\U{2028}' || c == '\U{2029}' || c == '\U{202F}' || c == '\U{205F}'
    || c == '\U{3000}' || c == '\U{FEFF}'
  }

  /** `s.trim()` is non-empty: some character is not white space. */
  predicate HasNonSpace(s: string) {
    exists i :: 0 <= i < |s| && !IsSpace(s[i])
  }

  /** toUpperCase on the characters that Number.prototype.toString(36) can produce. */
  function UpperChar(c: char): (r: char)
    ensures 'a' <= c <= 'z' ==> 'A' <= r <= 'Z'
    ensures !('a' <= c <= 'z') ==> r == c
  {
    if 'a' <= c <= 'z' then (c as int - 32) as char else c
  }

  function Upper(s: string): (r: string)
    ensures |r| == |s|
    ensures forall i :: 0 <= i < |s| ==> r[i] == UpperChar(s[i])
  {
    seq(|s|, i requires 0 <= i < |s| => UpperChar(s[i]))
  }

  predicate IsDigit(c: char) { '0' <= c <= '9' }

  predicate AllDigits(s: string) {
    forall i :: 0 <= i < |s| ==> IsDigit(s[i])
  }

  /** A non-negative integer in decimal, as `String(n)` writes it: no sign,
      no leading zero except for 0 itself. */
  function NatToString(n: nat): (s: string)
    ensures |s| >= 1 && AllDigits(s)
    ensures s[0] == '0' ==> n == 0
    decreases n
  {
    if n < 10 then [('0' as int + n) as char]
    else NatToString(n / 10) + [('0' as int + n % 10) as char]
  }

  /** `String(n)` for any integer: a '-' in front of negatives. */
  function IntToString(n: int): (s: string)
    ensures |s| >= 1
    ensures n >= 0 ==> s == NatToString(n)
    ensures n < 0 ==> s[0] == '-' && s[1..] == NatToString(-n)
  {
    if n >= 0 then NatToString(n) else "-" + NatToString(-n)
  }

  /** Reads a string of decimal digits back as a number. */
  function ParseDigits(s: string): (n: nat)
    requires AllDigits(s)
  {
    if s == [] then 0 else ParseDigits(s[..|s| - 1]) * 10 + (s[|s| - 1] as int - '0' as int)
  }

  /** Reading the decimal rendering back gives the number. */
  lemma {:induction false} ParseNatToString(n: nat)
    ensures ParseDigits(NatToString(n)) == n
    decreases n
  {
    var s := NatToString(n);
    if n >= 10 {
      ParseNatToString(n / 10);
      assert s[..|s| - 1] == NatToString(n / 10);
    } else {
      assert s[..|s| - 1] == [];
    }
  }

  /** The rendering is injective: different numbers are written differently. */
  lemma NatToStringInjective(m: nat, n: nat)
    requires NatToString(m) == NatToString(n)
    ensures m == n
  {
    ParseNatToString(m);
    ParseNatToString(n);
  }

  /** The position of the first `c` in `s`, or |s| when there is none. */
  function IndexOf(s: string, c: char): (i: nat)
    ensures i <= |s|
    ensures i < |s| ==> s[i] == c
    ensures c !in s[..i]
  {
    if s == [] then 0
    else if s[0] == c then 0
    else
      var j := IndexOf(s[1..], c);
      assert s[..1 + j] == [s[0]] + s[1..][..j];
      1 + j
  }

  /** A position holding `c` with no `c` before it is the first one. */
  lemma {:induction false} IndexOfIs(s: string, c: char, k: nat)
    requires k < |s| && s[k] == c && c !in s[..k]
    ensures IndexOf(s, c) == k
  {
    if k > 0 {
      assert s[0] in s[..k];
      assert s[1..][..k - 1] == s[1..k];
      assert forall x :: x in s[1..k] ==> x in s[..k];
      IndexOfIs(s[1..], c, k - 1);
    }
  }
}

=== FILE: token_cache.dfy ===
/** The payment-gateway token cache of src/services/tokenService.js: one
    entry per username, reused until 15 seconds before it expires, refilled
    from the token endpoint (Basic credentials as in RFC 7617) otherwise.
    The clock, the environment variables, btoa and the endpoint's reply are
    parameters. */
module TokenCache {
  import opened Wrappers
  import Text

  datatype CacheEntry = CacheEntry(token: string, expiresAtMs: int)

  /** The reply body, once parsed as JSON; absent fields are "". The
      `expiresAtMs` field is what `new Date(expires_at).getTime()` gives,
      None for NaN. */
  datatype TokenBody = TokenBody(message: string, error: string, token: string,
                                 expiresAt: string, expiresAtMs: Option<int>)

  /** What the endpoint answered: a rejected fetch, or a status with a JSON
      body (None when the body is not JSON). */
  datatype TokenReply =
    | FetchRejected(reason: string)
    | Reply(status: int, body: Option<TokenBody>)

  const EarlyRefreshMs := 15_000
  const FallbackLifetimeMs := 4 * 60 * 60 * 1000
  const DefaultUsername := "plugin"
  const MissingFields := "Token response missing token or expires_at"

  /** The TypeError `res.text()` rejects with once `res.json()` has read the
      body. This, and not the "returned non-JSON" error the catch block
      builds, is what a reply with a body that is not JSON throws. The exact
      wording is the runtime's. */
  const BodyAlreadyRead := "body used already"

  /** isTokenValidFor: an entry with a token, more than 15 s before its expiry. */
  predicate ValidFor(cache: map<string, CacheEntry>, username: string, now: int) {
    username in cache && cache[username].token != "" && now < cache[username].expiresAtMs - EarlyRefreshMs
  }

  /** `(provided ?? env) || fallback`: the explicit value unless it is
      missing, then the environment's, and the fallback for an empty result. */
  function Credential(provided: Option<string>, env: Option<string>, fallback: string): (c: string)
    requires fallback != ""
    ensures c != ""
    ensures provided.Some? && provided.value != "" ==> c == provided.value
    ensures provided.None? && env.Some? && env.value != "" ==> c == env.value
    ensures c != fallback ==> (provided.Some? && c == provided.value) || (provided.None? && env.Some? && c == env.value)
  {
    var chosen := if provided.Some? then provided.value else env.GetOr("");
    if chosen != "" then chosen else fallback
  }

  /** The user-pass string of RFC 7617, section 2, that btoa encodes. */
  function UserPass(username: string, password: string): (s: string)
    ensures |s| == |username| + 1 + |password|
    ensures s[|username|] == ':'
  {
    username + ":" + password
  }

  /** The user-id ends at the first colon, so a username without one (as
      RFC 7617 requires) is recovered from the user-pass string. */
  lemma {:induction false} UserPassSplits(username: string, password: string)
    requires ':' !in username
    ensures Text.IndexOf(UserPass(username, password), ':') == |username|
    ensures UserPass(username, password)[..|username|] == username
    ensures UserPass(username, password)[|username| + 1..] == password
  {
    var s := UserPass(username, password);
    assert s[..|username|] == username;
    Text.IndexOfIs(s, ':', |username|);
  }

  /** What getBearerToken answers, with the user-pass string of the request
      it made (None when the cache answered). */
  datatype TokenOutcome = TokenOutcome(result: Result<string, string>, request: Option<string>) {
    predicate Requested() { request.Some? }
  }

  /** The message thrown for a non-OK reply. */
  function FailureMessage(status: int, body: TokenBody): (m: string)
    ensures m != ""
    ensures body.message != "" ==> m == body.message
    ensures body.message == "" && body.error != "" ==> m == body.error
  {
    if body.message != "" then body.message
    else if body.error != "" then body.error
    else "Token fetch failed: " + Text.IntToString(status)
  }

  class TokenStore {
    var cache: map<string, CacheEntry>

    constructor ()
      ensures cache == map[]
    {
      cache := map[];
    }

    /** getBearerToken: a valid cached token is answered without a request;
        otherwise the reply decides, and only a complete OK reply is cached,
        under the resolved username and nothing else. */
    method GetBearerToken(providedUser: Option<string>, providedPass: Option<string>,
                          envUser: Option<string>, envPass: Option<string>, fallbackPass: string,
                          now: int, reply: TokenReply)
      returns (r: TokenOutcome)
      requires fallbackPass != ""
      modifies this
      ensures var username := Credential(providedUser, envUser, DefaultUsername);
        ValidFor(old(cache), username, now) ==>
          r == TokenOutcome(Success(old(cache)[username].token), None) && cache == old(cache)
      ensures var username := Credential(providedUser, envUser, DefaultUsername);
        !ValidFor(old(cache), username, now) ==>
          r.request == Some(UserPass(username, Credential(providedPass, envPass, fallbackPass)))
      ensures r.result.Failure? ==> cache == old(cache)
      ensures var username := Credential(providedUser, envUser, DefaultUsername);
        r.Requested() && r.result.Success? ==>
          reply.Reply? && 200 <= reply.status <= 299 && reply.body.Some?
          && r.result.value == reply.body.value.token && r.result.value != ""
          && reply.body.value.expiresAt != ""
          && cache == old(cache)[username := CacheEntry(reply.body.value.token,
                                                        reply.body.value.expiresAtMs.GetOr(now + FallbackLifetimeMs))]
      ensures var username := Credential(providedUser, envUser, DefaultUsername);
        (!ValidFor(old(cache), username, now) && reply.Reply? && 200 <= reply.status <= 299 && reply.body.Some?
         && reply.body.value.token != "" && reply.body.value.expiresAt != "") ==> r.result.Success?
      ensures !r.Requested() ==> r.result.Success?
      ensures r.result.Failure? && reply.Reply? && reply.body.Some? && !(200 <= reply.status <= 299) ==>
        r.result.error == FailureMessage(reply.status, reply.body.value)
      ensures r.result.Failure? && reply.Reply? && reply.body.Some? && 200 <= reply.status <= 299 ==>
        r.result.error == MissingFields
      ensures r.result.Failure? && reply.Reply? && reply.body.None? ==>
        r.result.error == BodyAlreadyRead
      ensures r.result.Failure? && reply.FetchRejected? ==> r.result.error == reply.reason
    {
      var username := Credential(providedUser, envUser, DefaultUsername);
      var password := Credential(providedPass, envPass, fallbackPass);
      if ValidFor(cache, username, now) {
        return TokenOutcome(Success(cache[username].token), None);
      }
      var credentials := UserPass(username, password);
      match reply
      case FetchRejected(reason) =>
        return TokenOutcome(Failure(reason), Some(credentials));
      case Reply(status, body) =>
        if body.None? {
          return TokenOutcome(Failure(BodyAlreadyRead), Some(credentials));
        }
        var data := body.value;
        if !(200 <= status <= 299) {
          return TokenOutcome(Failure(FailureMessage(status, data)), Some(credentials));
        }
        if data.token == "" || data.expiresAt == "" {
          return TokenOutcome(Failure(MissingFields), Some(credentials));
        }
        var expiresAtMs := data.expiresAtMs.GetOr(now + FallbackLifetimeMs);
        cache := cache[username := CacheEntry(data.token, expiresAtMs)];
        return TokenOutcome(Success(data.token), Some(credentials));
    }

    /** clearTokenCache */
    method Clear()
      modifies this
      ensures cache == map[]
    {
      cache := map[];
    }
  }

  /** A token fetched at `now` whose expiry lies more than 15 s ahead is
      reused by a call at any time before that margin, and the other users'
      validity is unaffected by the store. */
  lemma {:induction false} FreshEntryIsReused(cache: map<string, CacheEntry>, username: string, entry: CacheEntry, now: int, later: int)
    requires entry.token != "" && now <= later < entry.expiresAtMs - EarlyRefreshMs
    ensures ValidFor(cache[username := entry], username, later)
    ensures forall other :: other != username ==> (ValidFor(cache[username := entry], other, later) <==> ValidFor(cache, other, later))
  {
  }

  /** An unparseable expiry gives a token that stays usable for four hours
      less the 15 s margin. */
  lemma FallbackExpiryWindow(cache: map<string, CacheEntry>, username: string, token: string, now: int, later: int)
    requires token != ""
    ensures ValidFor(cache[username := CacheEntry(token, now + FallbackLifetimeMs)], username, later)
      <==> later < now + FallbackLifetimeMs - EarlyRefreshMs
  {
  }

  /** Validity is monotone in time: once an entry is no longer valid it stays so. */
  lemma ValidityOnlyEnds(cache: map<string, CacheEntry>, username: string, t1: int, t2: int)
    requires t1 <= t2 && ValidFor(cache, username, t2)
    ensures ValidFor(cache, username, t1)
  {
  }
}

=== FILE: tracking.dfy ===
/** The order-status vocabulary of src/services/trackingService.js: nine
    statuses with their label and colour, the lookup that falls back to
    'pending', and the seven-step delivery order used by the timelines. */
module Tracking {

  /** An entry of the table; `caption` is the source's `label`. */
  datatype StatusInfo = StatusInfo(caption: string, color: string)

  const Pending := "pending"
  const Cancelled := "cancelled"
  const Returned := "returned"

  const Statuses: map<string, StatusInfo> := map[
    "pending" := StatusInfo("Pending", "#f59e0b"),
    "confirmed" := StatusInfo("Confirmed", "#3b82f6"),
    "processing" := StatusInfo("Processing", "#8b5cf6"),
    "packed" := StatusInfo("Packed", "#06b6d4"),
    "shipped" := StatusInfo("Shipped", "#0ea5e9"),
    "out_for_delivery" := StatusInfo("Out for Delivery", "#10b981"),
    "delivered" := StatusInfo("Delivered", "#22c55e"),
    "cancelled" := StatusInfo("Cancelled", "#ef4444"),
    "returned" := StatusInfo("Returned", "#f97316")
  ]

  const StatusNames: set<string> := {"pending", "confirmed", "processing", "packed", "shipped",
                                     "out_for_delivery", "delivered", "cancelled", "returned"}

  /** getStatusInfo: the status's own entry when it has one, the 'pending'
      entry otherwise, so every status gets a label and a colour. */
  function GetStatusInfo(status: string): (info: StatusInfo)
    ensures info in Statuses.Values
    ensures status in Statuses ==> info == Statuses[status]
    ensures status !in Statuses ==> info == StatusInfo("Pending", "#f59e0b")
  {
    if status in Statuses then Statuses[status] else Statuses[Pending]
  }

  /** getStatusOrder: the delivery path, first to last. */
  function GetStatusOrder(): (order: seq<string>)
    ensures |order| == 7 && order[0] == Pending && order[6] == "delivered"
    ensures forall i, j :: 0 <= i < j < |order| ==> order[i] != order[j]
    ensures forall i :: 0 <= i < |order| ==> order[i] in Statuses
    ensures Cancelled !in order && Returned !in order
  {
    ["pending", "confirmed", "processing", "packed", "shipped", "out_for_delivery", "delivered"]
  }

  /** The vocabulary is exactly nine statuses. */
  lemma VocabularySize()
    ensures Statuses.Keys == StatusNames
    ensures |Statuses| == 9
  {
    NineNames();
    assert Statuses.Keys == StatusNames;
  }

  /** The nine names are pairwise distinct, so the set has nine members. */
  lemma NineNames()
    ensures |StatusNames| == 9
  {
    var names := ["pending", "confirmed", "processing", "packed", "shipped",
                  "out_for_delivery", "delivered", "cancelled", "returned"];
    var acc: set<string> := {};
    var k := 0;
    while k < |names|
      invariant 0 <= k <= |names|
      invariant acc == set i | 0 <= i < k :: names[i]
      invariant |acc| == k
    {
      assert forall i :: 0 <= i < k ==> names[i] != names[k];
      acc := acc + {names[k]};
      k := k + 1;
    }
    assert acc == StatusNames by {
      assert names[0] in acc && names[1] in acc && names[2] in acc && names[3] in acc && names[4] in acc;
      assert names[5] in acc && names[6] in acc && names[7] in acc && names[8] in acc;
    }
  }

  /** No two statuses share a label. */
  lemma CaptionsDistinct()
    ensures forall s, t :: s in Statuses && t in Statuses && s != t ==> Statuses[s].caption != Statuses[t].caption
  {
  }

  /** Every status is on the delivery path except the two that leave it. */
  lemma OffPathStatuses()
    ensures forall s :: s in Statuses ==> (s in GetStatusOrder() <==> s != Cancelled && s != Returned)
  {
    var order := GetStatusOrder();
    assert order[0] == "pending" && order[1] == "confirmed" && order[2] == "processing";
    assert order[3] == "packed" && order[4] == "shipped" && order[5] == "out_for_delivery";
  }
}

=== FILE: uploads.dfy ===
/** The client-side rules of src/services/uploadService.js: which files may
    be uploaded, how a batch is checked, how the outcomes of uploading a
    batch one file at a time are sorted into uploaded files and errors, and
    how a stored image URL is handed back. uploadSingle's request is an
    outcome per file, passed in. */
module Uploads {
  import opened Wrappers
  import opened Text

  datatype FileInfo = FileInfo(name: string, mimeType: string, size: int)

  datatype Validation = Valid | Invalid(error: string)

  /** One entry of `errors`: the file's name and why it failed. */
  datatype FileError = FileError(file: string, error: string)

  /** What uploadSingle answers for a file that went through. */
  datatype Stored = Stored(url: string, name: string)

  /** One entry of `uploaded`. */
  datatype UploadedFile = UploadedFile(url: string, name: string, originalName: string)

  datatype UploadReport = UploadReport(success: bool, uploaded: seq<UploadedFile>,
                                       errors: seq<FileError>, urls: seq<string>)

  const AllowedTypes := ["image/jpeg", "image/png", "image/gif", "image/webp"]
  const DefaultMaxSizeMB := 10
  const BytesPerMB := 1024 * 1024
  const InvalidType := "Invalid file type. " + "Use JPEG, PNG, GIF, or WebP."

  /** The size error names the limit, and is never the type error. */
  function TooLarge(maxSizeMB: int): (message: string)
    ensures StartsWith(message, TooLargePrefix)
    ensures message != InvalidType
  {
    var m := TooLargePrefix + (IntToString(maxSizeMB) + "MB.");
    assert m[0] == TooLargePrefix[0] == 'F';
    assert InvalidType[0] == 'I';
    m
  }

  const TooLargePrefix := "File too large. Max size is "

  /** validateFile: the type is checked first, then the size, and a file of
      exactly the limit is accepted. */
  function ValidateFile(file: FileInfo, maxSizeMB: int := DefaultMaxSizeMB): (v: Validation)
    ensures v == Valid <==> file.mimeType in AllowedTypes && file.size <= maxSizeMB * BytesPerMB
    ensures file.mimeType !in AllowedTypes ==> v == Invalid(InvalidType)
    ensures file.mimeType in AllowedTypes && file.size > maxSizeMB * BytesPerMB ==> v == Invalid(TooLarge(maxSizeMB))
  {
    if file.mimeType !in AllowedTypes then Invalid(InvalidType)
    else if file.size > maxSizeMB * BytesPerMB then Invalid(TooLarge(maxSizeMB))
    else Valid
  }

  /** The errors validateFiles collects: one per failing file, in order,
      tagged with the file's name. */
  function Failures(files: seq<FileInfo>, maxSizeMB: int): (r: seq<FileError>)
    ensures |r| <= |files|
    decreases |files|
  {
    if files == [] then []
    else
      var last := files[|files| - 1];
      var v := ValidateFile(last, maxSizeMB);
      Failures(files[..|files| - 1], maxSizeMB) + (if v.Invalid? then [FileError(last.name, v.error)] else [])
  }

  /** No error is collected exactly when every file passes. */
  lemma {:induction false} NoFailuresIffAllValid(files: seq<FileInfo>, maxSizeMB: int)
    ensures Failures(files, maxSizeMB) == [] <==> forall i :: 0 <= i < |files| ==> ValidateFile(files[i], maxSizeMB) == Valid
    decreases |files|
  {
    if files != [] {
      var init := files[..|files| - 1];
      NoFailuresIffAllValid(init, maxSizeMB);
      assert forall i :: 0 <= i < |init| ==> init[i] == files[i];
    }
  }

  /** validateFiles: a loop over the files collecting the failures. */
  method ValidateFiles(files: seq<FileInfo>, maxSizeMB: int := DefaultMaxSizeMB)
    returns (valid: bool, errors: seq<FileError>)
    ensures errors == Failures(files, maxSizeMB)
    ensures valid <==> forall i :: 0 <= i < |files| ==> ValidateFile(files[i], maxSizeMB) == Valid
  {
    errors := [];
    var i := 0;
    while i < |files|
      invariant 0 <= i <= |files|
      invariant errors == Failures(files[..i], maxSizeMB)
    {
      var v := ValidateFile(files[i], maxSizeMB);
      if v.Invalid? {
        errors := errors + [FileError(files[i].name, v.error)];
      }
      assert files[..i + 1][..i] == files[..i];
      i := i + 1;
    }
    assert files[..i] == files;
    NoFailuresIffAllValid(files, maxSizeMB);
    valid := |errors| == 0;
  }

  /** The uploaded entries of a batch, in order. */
  function UploadedOf(files: seq<FileInfo>, outcomes: seq<Result<Stored, string>>): seq<UploadedFile>
    requires |outcomes| == |files|
    decreases |files|
  {
    if files == [] then []
    else
      var n := |files| - 1;
      UploadedOf(files[..n], outcomes[..n]) +
        (if outcomes[n].Success? then [UploadedFile(outcomes[n].value.url, outcomes[n].value.name, files[n].name)] else [])
  }

  /** The error entries of a batch, in order. */
  function ErrorsOf(files: seq<FileInfo>, outcomes: seq<Result<Stored, string>>): seq<FileError>
    requires |outcomes| == |files|
    decreases |files|
  {
    if files == [] then []
    else
      var n := |files| - 1;
      ErrorsOf(files[..n], outcomes[..n]) +
        (if outcomes[n].Failure? then [FileError(files[n].name, outcomes[n].error)] else [])
  }

  function Urls(uploaded: seq<UploadedFile>): (urls: seq<string>)
    ensures |urls| == |uploaded|
    ensures forall i :: 0 <= i < |uploaded| ==> urls[i] == uploaded[i].url
  {
    seq(|uploaded|, i requires 0 <= i < |uploaded| => uploaded[i].url)
  }

  function Succeeded(outcomes: seq<Result<Stored, string>>): nat {
    if outcomes == [] then 0
    else Succeeded(outcomes[..|outcomes| - 1]) + (if outcomes[|outcomes| - 1].Success? then 1 else 0)
  }

  /** Every file lands in exactly one list: the uploaded list has one entry
      per successful upload, the errors list one per failed one. */
  lemma {:induction false} EachFileOnce(files: seq<FileInfo>, outcomes: seq<Result<Stored, string>>)
    requires |outcomes| == |files|
    ensures |UploadedOf(files, outcomes)| == Succeeded(outcomes)
    ensures |UploadedOf(files, outcomes)| + |ErrorsOf(files, outcomes)| == |files|
    ensures ErrorsOf(files, outcomes) == [] <==> forall i :: 0 <= i < |outcomes| ==> outcomes[i].Success?
    decreases |files|
  {
    if files != [] {
      var n := |files| - 1;
      EachFileOnce(files[..n], outcomes[..n]);
      assert forall i :: 0 <= i < n ==> outcomes[..n][i] == outcomes[i];
    }
  }

  /** uploadMultiple: upload the files one after another, sorting each
      outcome into `uploaded` or `errors`. */
  method UploadMultiple(files: seq<FileInfo>, outcomes: seq<Result<Stored, string>>)
    returns (report: UploadReport)
    requires |outcomes| == |files|
    ensures report.uploaded == UploadedOf(files, outcomes)
    ensures report.errors == ErrorsOf(files, outcomes)
    ensures report.urls == Urls(report.uploaded)
    ensures report.success <==> forall i :: 0 <= i < |outcomes| ==> outcomes[i].Success?
    ensures |report.uploaded| + |report.errors| == |files|
  {
    var uploaded: seq<UploadedFile> := [];
    var errors: seq<FileError> := [];
    var i := 0;
    while i < |files|
      invariant 0 <= i <= |files|
      invariant uploaded == UploadedOf(files[..i], outcomes[..i])
      invariant errors == ErrorsOf(files[..i], outcomes[..i])
    {
      match outcomes[i] {
        case Success(result) =>
          uploaded := uploaded + [UploadedFile(result.url, result.name, files[i].name)];
        case Failure(message) =>
          errors := errors + [FileError(files[i].name, message)];
      }
      assert files[..i + 1][..i] == files[..i] && outcomes[..i + 1][..i] == outcomes[..i];
      i := i + 1;
    }
    assert files[..i] == files && outcomes[..i] == outcomes;
    EachFileOnce(files, outcomes);
    report := UploadReport(|errors| == 0, uploaded, errors, Urls(uploaded));
  }

  /** getImageUrl: null for an empty value; any other value, full URL or
      relative path, comes back unchanged. */
  function GetImageUrl(url: string): (r: Option<string>)
    ensures url == "" <==> r.None?
    ensures url != "" ==> r == Some(url)
  {
    if url == "" then None
    else if StartsWith(url, "http") then Some(url)
    else Some(url)
  }
}

=== FILE: wishlist.dfy ===
/** The wishlist store of src/context/WishlistContext.jsx: a list of saved
    products, at most one per product id, each stamped with the time it was
    added. The timestamp (`new Date().toISOString()`) is a parameter. */
module Wishlist {
  import Cart

  datatype WishItem = WishItem(product: Cart.Product, addedAt: string)

  ghost predicate UniqueIds(items: seq<WishItem>) {
    forall i, j :: 0 <= i < j < |items| ==> items[i].product.id != items[j].product.id
  }

  /** isInWishlist: `wishlist.some(item => item.id === productId)` */
  function IsInWishlist(items: seq<WishItem>, id: Cart.ProductId): (b: bool)
    ensures b <==> exists item :: item in items && item.product.id == id
  {
    exists i :: 0 <= i < |items| && items[i].product.id == id
  }

  /** wishlistCount */
  function WishlistCount(items: seq<WishItem>): nat { |items| }

  /** The list addToWishlist installs: unchanged when the id is there, else one item appended. */
  function AddedItems(items: seq<WishItem>, p: Cart.Product, now: string): (r: seq<WishItem>)
    ensures IsInWishlist(r, p.id)
    ensures IsInWishlist(items, p.id) ==> r == items
    ensures !IsInWishlist(items, p.id) ==> r == items + [WishItem(p, now)]
    ensures UniqueIds(items) ==> UniqueIds(r)
  {
    if IsInWishlist(items, p.id) then items
    else
      var r := items + [WishItem(p, now)];
      assert r[|items|].product.id == p.id;
      r
  }

  /** The list removeFromWishlist installs: `filter(item => item.id !== productId)`. */
  function RemovedItems(items: seq<WishItem>, id: Cart.ProductId): (r: seq<WishItem>)
    ensures !IsInWishlist(r, id)
    ensures forall x :: x in r <==> x in items && x.product.id != id
    ensures !IsInWishlist(items, id) ==> r == items
  {
    if items == [] then []
    else (if items[0].product.id == id then [] else [items[0]]) + RemovedItems(items[1..], id)
  }

  class WishlistStore {
    var items: seq<WishItem>

    ghost predicate Valid()
      reads this
    {
      UniqueIds(items)
    }

    constructor ()
      ensures Valid() && items == []
    {
      items := [];
    }

    method AddToWishlist(p: Cart.Product, now: string)
      requires Valid()
      modifies this
      ensures Valid()
      ensures items == AddedItems(old(items), p, now)
    {
      items := AddedItems(items, p, now);
    }

    method RemoveFromWishlist(id: Cart.ProductId)
      requires Valid()
      modifies this
      ensures Valid()
      ensures items == RemovedItems(old(items), id)
    {
      RemoveKeepsUnique(items, id);
      items := RemovedItems(items, id);
    }

    /** toggleWishlist: removes and answers false when present, adds and answers true when absent. */
    method ToggleWishlist(p: Cart.Product, now: string) returns (added: bool)
      requires Valid()
      modifies this
      ensures Valid()
      ensures added <==> !IsInWishlist(old(items), p.id)
      ensures added ==> items == old(items) + [WishItem(p, now)]
      ensures !added ==> items == RemovedItems(old(items), p.id)
      ensures IsInWishlist(items, p.id) <==> added
    {
      if IsInWishlist(items, p.id) {
        RemoveFromWishlist(p.id);
        return false;
      } else {
        AddToWishlist(p, now);
        return true;
      }
    }

    method ClearWishlist()
      modifies this
      ensures Valid() && items == []
    {
      items := [];
    }
  }

  lemma {:induction false} RemoveKeepsUnique(items: seq<WishItem>, id: Cart.ProductId)
    ensures UniqueIds(items) ==> UniqueIds(RemovedItems(items, id))
  {
    if items != [] && UniqueIds(items) {
      var tail := items[1..];
      assert UniqueIds(tail) by {
        forall i, j | 0 <= i < j < |tail| ensures tail[i].product.id != tail[j].product.id {
          assert tail[i] == items[i + 1] && tail[j] == items[j + 1];
        }
      }
      RemoveKeepsUnique(tail, id);
      forall x | x in RemovedItems(tail, id) ensures x.product.id != items[0].product.id {
        var j :| 0 <= j < |tail| && tail[j] == x;
        assert items[j + 1] == x;
      }
    }
  }

  /** Adding is idempotent: a second add of the same product changes nothing,
      whatever time it carries. */
  lemma AddIsIdempotent(items: seq<WishItem>, p: Cart.Product, t1: string, t2: string)
    ensures AddedItems(AddedItems(items, p, t1), p, t2) == AddedItems(items, p, t1)
  {
  }

  /** With unique ids, removing the id of item k cuts exactly that item out. */
  lemma RemoveCutsOneItem(items: seq<WishItem>, k: int)
    requires UniqueIds(items) && 0 <= k < |items|
    ensures RemovedItems(items, items[k].product.id) == items[..k] + items[k + 1..]
  {
    RemoveCutsSoleItem(items, items[k].product.id, k);
  }

  /** Removing an id held by item k alone cuts out exactly that item. */
  lemma RemoveCutsSoleItem(items: seq<WishItem>, id: Cart.ProductId, k: int)
    requires 0 <= k < |items| && items[k].product.id == id
    requires forall j :: 0 <= j < |items| && j != k ==> items[j].product.id != id
    ensures RemovedItems(items, id) == items[..k] + items[k + 1..]
  {
    var x, before, after := items[k], items[..k], items[k + 1..];
    assert !IsInWishlist(before, id) by {
      forall j | 0 <= j < |before| ensures before[j].product.id != id {
        assert before[j] == items[j];
      }
    }
    assert !IsInWishlist(after, id) by {
      forall j | 0 <= j < |after| ensures after[j].product.id != id {
        assert after[j] == items[k + 1 + j];
      }
    }
    assert items == before + ([x] + after);
    calc {
      RemovedItems(items, id);
      RemovedItems(before + ([x] + after), id);
      { RemovedItemsConcat(before, [x] + after, id); }
      before + RemovedItems([x] + after, id);
      { RemovedItemsConcat([x], after, id); }
      before + (RemovedItems([x], id) + after);
      { assert [x][1..] == []; }
      before + after;
    }
  }

  /** Filtering distributes over concatenation. */
  lemma {:induction false} RemovedItemsConcat(a: seq<WishItem>, b: seq<WishItem>, id: Cart.ProductId)
    ensures RemovedItems(a + b, id) == RemovedItems(a, id) + RemovedItems(b, id)
  {
    if a == [] {
      assert a + b == b;
    } else {
      assert (a + b)[0] == a[0] && (a + b)[1..] == a[1..] + b;
      RemovedItemsConcat(a[1..], b, id);
    }
  }

  /** Toggling an absent product twice restores the wishlist exactly. */
  lemma ToggleTwiceRestores(items: seq<WishItem>, p: Cart.Product, now: string)
    requires UniqueIds(items) && !IsInWishlist(items, p.id)
    ensures RemovedItems(AddedItems(items, p, now), p.id) == items
  {
    var r := AddedItems(items, p, now);
    RemoveCutsOneItem(r, |items|);
    assert r[..|items|] == items;
  }
  /** wishlistCount moves by exactly one on a toggle: up when the product
      was absent, down when it was there. */
  lemma ToggleMovesCountByOne(items: seq<WishItem>, p: Cart.Product, now: string)
    requires UniqueIds(items)
    ensures !IsInWishlist(items, p.id) ==> WishlistCount(AddedItems(items, p, now)) == WishlistCount(items) + 1
    ensures IsInWishlist(items, p.id) ==> WishlistCount(RemovedItems(items, p.id)) == WishlistCount(items) - 1
  {
    if IsInWishlist(items, p.id) {
      var k :| 0 <= k < |items| && items[k].product.id == p.id;
      RemoveCutsOneItem(items, k);
    }
  }
}

=== FILE: wrappers.dfy ===
/** Option and Result, the two failure-carrying shapes the model uses for
    "value or null" and "response or thrown error". */
module Wrappers {

  datatype Option<+T> = None | Some(value: T) {
    function GetOr(default: T): T {
      match this
      case Some(v) => v
      case None => default
    }
  }

  datatype Result<+T, +E> = Success(value: T) | Failure(error: E)
}
